=== FILE: README.md ===
# NCLEX extraction core, modelled in Dafny

The repository turns an NCLEX exam-preparation PDF into structured study
material. These files model its core, which is the following scripts:

- **Question classifier** (`Classifier`, `OptionScan`, `Regex`, `Subjects`).
  It scores a text block against weighted regular expressions for four
  question types: multiple choice, select-all-that-apply (SATA), fill in the
  blank and matrix. It then extracts the options, the answer letter, the
  rationale and the subject line.
- **Topic pipeline** of the enhanced extractor (`Topics`, `Counting`). It
  builds `topic_NNNN` topics from partitioned elements and attaches page
  images by page proximity. It ends with the validation report.
- **Quick-start extractor** (`QuickStart`). It uses the same table with no
  image bonus. It also exists as a second copy whose checkbox glyphs are
  mis-encoded.
- **Comprehensive image extractor** (`DirectExtraction`, `TextMask`,
  `Contours`, `Sorting`).
  - Direct extraction keeps the grey and RGB images embedded on each page.
  - Region detection masks OCR text boxes and filters contours by size,
    aspect and fill.
  - It keeps the ten best regions, highest fill first, using a stable sort.
- **Region quality pass** (`ImageQuality`). It scores each region in four
  bands, splits the regions into likely images, likely text and errors, and
  writes the filtered manifest.
- **Command-line front ends** (`PageRanges`, `TextCli`, `PageAnalysis`):
  - page-range parsing and the `--pages` argument;
  - reading page numbers back out of file names and grouping files by page;
  - per-page text extraction records;
  - the page analysis: left/right layout, content summary and extraction
    strategy.

PyMuPDF, OpenCV, Tesseract, PIL and unstructured.io are never called. What
they return for a page, an image or a document is an input to the model. The
regular-expression engine is a parameter, `Regex.Engine`, which gives the
group-1 capture of the leftmost match of each named pattern. Exceptions
become `Option`/`Result` error values that carry the message the scripts
build.

Modelling conventions:

- Classifier weights are integer tenths: 0.9 becomes 9, and the cap
  `min(confidence, 1.0)` becomes `min(score, 10)`.
- Python dictionaries are sequences of key/value pairs in insertion order.
- `int()`, `str()`, `split`, `strip` and `lower` are written out on `string`.
  `int()` reads ASCII digits only.
  `lower` and `\w` are restricted to ASCII.

## Model

| member | source | states |
|---|---|---|
| Classifier.TypeNameInjective | scripts/enhanced_image_extraction.py:90-113 | Distinct question types are stored under distinct `question_type` names, so the name identifies the type. |
| Classifier.ScoringTable | scripts/enhanced_image_extraction.py:90-114 | There is one rule list per scored type, and every rule carries a positive weight. |
| Classifier.RuleScore | scripts/enhanced_image_extraction.py:134-138 | A type's score never exceeds the sum of its weights. With positive weights it is 0 exactly when no rule matches, and the full sum when every rule matches. |
| Classifier.ImageBonus | scripts/enhanced_image_extraction.py:140-145 | The bonus is 0.3 or nothing. It is 0.3 exactly when the page has images and at least one visual-reference pattern matches, and it is added once per type however many match. |
| Classifier.Scores | scripts/enhanced_image_extraction.py:134-146 | Every type scores its own rule score plus the same bonus. |
| Classifier.Pick | scripts/enhanced_image_extraction.py:129-149 | The strict `>` update from `('unknown', 0.0)` selects the first index that reaches the maximum, which is positive. It selects no type exactly when every score is 0. |
| Classifier.PickUnique | scripts/enhanced_image_extraction.py:147-149 | Any index that is the first positive maximum is what the update loop returns. |
| Classifier.ExtractOptions | scripts/enhanced_image_extraction.py:151-158 | The options are the dotted-label matches if there are any, otherwise the parenthesised ones. Each option is non-empty and contains no newline. |
| Classifier.ExtractAnswer | scripts/enhanced_image_extraction.py:169-180 | There is no answer exactly when none of the three answer patterns matches. |
| Classifier.AnswerOfFirstMatch | scripts/enhanced_image_extraction.py:169-180 | When the j-th answer pattern matches and no earlier one does, the answer is that pattern's capture, upper-cased. |
| Classifier.AnswerIsLetter | scripts/enhanced_image_extraction.py:169-180 | When the engine honours the capture group, the answer is a single upper-case letter from A to F. |
| Classifier.ExtractRationale | scripts/enhanced_image_extraction.py:182-193 | There is no rationale exactly when none of the three rationale patterns matches. |
| Classifier.RationaleOfFirstMatch | scripts/enhanced_image_extraction.py:182-193 | When the j-th rationale pattern matches and no earlier one does, the rationale is that pattern's capture, stripped. |
| Classifier.RationaleIsSentence | scripts/enhanced_image_extraction.py:182-193 | When the engine honours the capture group, the rationale is one sentence. It starts with a non-blank and ends at its only full stop. |
| Classifier.Classify | scripts/enhanced_image_extraction.py:127-167 | Confidence is at most 1.0 and is 0 for an unknown type. Options appear only for multiple choice and SATA, and for those types they are exactly the extracted options. Answer and rationale come from their extractors. |
| Classifier.ClassifySound | scripts/enhanced_image_extraction.py:129-162 | The type is unknown exactly when every type scores 0. Otherwise it is the first type with the highest score, and its confidence is that score capped at 1.0. |
| Classifier.ClassifyWinner | scripts/enhanced_image_extraction.py:147-162 | The type at the first positive maximum wins, with its score plus bonus capped at 1.0. |
| Classifier.EnhancedClassify | scripts/enhanced_image_extraction.py:127-149 | When the image bonus applies, the result is never `unknown`. |
| Classifier.BonusKeepsWinner | scripts/enhanced_image_extraction.py:140-149 | Adding the same bonus to every type never changes a known winner. A text that scores nothing becomes multiple choice at the bonus. |
| OptionScan.GroupStart | scripts/enhanced_image_extraction.py:153 | Once greedy `\s+` backtracks, the group starts at the last non-newline position within or just after the whitespace run. If there is none, there is no match. |
| OptionScan.MatchAt | scripts/enhanced_image_extraction.py:153 | A match at a label captures a non-empty, newline-free span after the label. The span ends at a newline or at the end of the text. |
| OptionScan.Scan | scripts/enhanced_image_extraction.py:155 | `findall` returns spans in text order that do not overlap. Each span is a whole line tail. |
| OptionScan.FindAll | scripts/enhanced_image_extraction.py:155 | Every captured option is non-empty and holds no newline. |
| OptionScan.OptionsAreLineTails | scripts/enhanced_image_extraction.py:153-157 | Each returned option is exactly the text of its span, and that span is a line tail. |
| OptionScan.SingleLineOptions | scripts/enhanced_image_extraction.py:153-157 | "Select all that apply: A. Fever B. Cough" yields the single option "Fever B. Cough". |
| Regex.FirstMatchUnique | scripts/enhanced_image_extraction.py:176-180 | Whichever pattern is the first to match is the one the loop returns, together with its capture. |
| Regex.KelvinHeadingShaped | scripts/enhanced_image_extraction.py:509-516 | Under IGNORECASE, a heading that starts with the Kelvin sign, which is not an ASCII letter, is still a capture the heading pattern can return. |
| Regex.FirstCapture | scripts/enhanced_image_extraction.py:176-180 | The pattern loop returns the capture of the first pattern that matches, and no earlier pattern matches. It returns nothing exactly when no pattern matches. |
| Subjects.Clean | scripts/enhanced_image_extraction.py:520 | Only characters in `[\w\s'-]` remain, in order. A string already made of them is unchanged. |
| Subjects.SubjectSearch | scripts/enhanced_image_extraction.py:515-523 | The result is the cleaned candidate of the first pattern whose candidate has more than 5 characters. No earlier pattern gives such a candidate. |
| Subjects.ExtractSubject | scripts/enhanced_image_extraction.py:507-523 | A subject is longer than 5 characters and uses only kept characters. There is none exactly when no pattern gives an accepted candidate. |
| Subjects.SubjectOfFirstAccepted | scripts/enhanced_image_extraction.py:515-523 | When the j-th subject pattern gives an accepted candidate and no earlier one does, the subject is that cleaned candidate. |
| Subjects.ShortCandidateFallsThrough | scripts/enhanced_image_extraction.py:515-523 | A match whose cleaned text is too short does not end the search. The next pattern's candidate is returned. |
| Subjects.QuickExtractSubject | scripts/quick_start_extraction.py:255-267 | The quick subject is the stripped capture of a matching pattern with no earlier pattern matching, and it has no blank at either end. There is none exactly when no pattern matches. |
| Subjects.QuickSubjectOfFirstMatch | scripts/quick_start_extraction.py:262-266 | When the j-th pattern matches and no earlier one does, the quick subject is that pattern's capture, stripped. |
| Subjects.QuickSubjectMayBeEmpty | scripts/quick_start_extraction.py:263-267 | With no length filter, a blank subject line gives the empty subject. |
| QuickStart.QuickClassify | scripts/quick_start_extraction.py:89-120 | Confidence is at most 1.0. The type is unknown exactly when confidence is 0. Options appear only for choice types. |
| QuickStart.QuickIsEnhancedWithoutImages | scripts/quick_start_extraction.py:62-120 | The quick classifier is the enhanced one on a page without images. |
| QuickStart.AsWrittenClassify | python/scripts/quick_start_extraction.py:62-120 | The copy with the mis-encoded checkbox rule has the same bounds: confidence at most 1.0, and unknown exactly at 0. |
| QuickStart.CheckboxCounts | scripts/quick_start_extraction.py:74 | A text holding a checkbox glyph scores at least 0.7 for SATA. The corrected classifier never calls it unknown. |
| QuickStart.MisencodedCheckboxMissed | python/scripts/quick_start_extraction.py:74 | When no regex matches and no mis-encoded glyph occurs, the as-written copy says unknown, whatever checkbox the text shows. |
| QuickStart.CheckboxReadAsSata | scripts/quick_start_extraction.py:74 | When no regex matches but a real checkbox glyph occurs, the text is SATA at 0.7. |
| QuickStart.MojibakeCounterexample | python/scripts/quick_start_extraction.py:74 | On "☐ Fever" the two copies disagree: SATA at 0.7 in one, unknown in the other. |
| QuickStart.Enhance | scripts/quick_start_extraction.py:211-253 | There is one block per element with at least 50 non-blank characters, in element order. Each block is that element classified. |
| QuickStart.Validate | scripts/quick_start_extraction.py:269-304 | There is no report exactly when there are no topics. The distribution has a key exactly for each type name that occurs, never twice, and its count is that name's number of blocks; the counts add up to the total. Valid topics are those with a subject and confidence above 0.3. The success rate is valid over total, in [0, 1]. The average is the sum of confidences over the count. Min and max are confidences that occur and bound every block, with the average between them. |
| Topics.TopicId | scripts/enhanced_image_extraction.py:482 | The id is `topic_` followed by at least four digits that read back as the counter. Below 10000 the digits are zero-padded to exactly four, so the id is 10 characters. |
| Topics.TopicIdInjective | scripts/enhanced_image_extraction.py:482 | Distinct counters give distinct topic ids. |
| Topics.BuildFromSpec | scripts/enhanced_image_extraction.py:458-499 | The element loop yields one topic per kept element, in order. The counter goes up only for kept elements. |
| Topics.BuildTopics | scripts/enhanced_image_extraction.py:455-505 | The k-th topic is built from the k-th element with at least 50 non-blank characters, as topic number k + 1. |
| Topics.BuiltTopicFields | scripts/enhanced_image_extraction.py:460-498 | Each topic keeps its element's text and page, and its id is `topic_` plus its position. It starts with no images, and its classifier is told whether its page has images. |
| Topics.NumberedIdsDistinct | scripts/enhanced_image_extraction.py:458-499 | Topic ids are pairwise distinct. |
| Topics.TakenUpToSpec | scripts/enhanced_image_extraction.py:251-269 | A topic's image list is exactly the images on its page, plus those on an adjacent page when it mentions visuals. They appear in input order and without repeats. An image two or more pages away is never taken. |
| Topics.LastTaker | scripts/enhanced_image_extraction.py:251-267 | This is the last topic that takes the image, or none when no topic takes it. |
| Topics.TakeImages | scripts/enhanced_image_extraction.py:256-269 | One topic's pass collects the images it takes. It moves the back-reference of exactly those images to itself. |
| Topics.Associate | scripts/enhanced_image_extraction.py:248-271 | Every topic's image list is replaced by the images it takes, and nothing else in the topic changes. Each image's `associated_topic_id` names the last topic that took it. |
| Topics.WithImagesAtMostAssociations | scripts/enhanced_image_extraction.py:552-555 | Topics with images never outnumber the image associations. |
| Topics.AssociateImages | scripts/enhanced_image_extraction.py:248-271 | The association fails with the subtraction's TypeError exactly when some topic and some image are present and one of their pages is `None`. Otherwise it is the association above. |
| Topics.EnhancedValidation | scripts/enhanced_image_extraction.py:525-573 | There is no report exactly when there are no topics. The distribution has a key exactly for each type name that occurs, never twice, and its count is that name's number of topics; the counts add up to the total. Valid topics are those with a subject and confidence above 0.3. `image_associations` is the sum of the image-list lengths and is at least the number of topics with images. Success rate and image coverage are those counts over the total, each in [0, 1]. The average is the sum of confidences over the count. Min and max are confidences that occur and bound every topic, with the average between them. |
| Counting.TallySound | scripts/enhanced_image_extraction.py:540-543 | `counts.get(k, 0) + 1` gives one key per distinct value. Each count is that value's occurrences, and the counts add up to the list length. |
| Counting.BumpGet | scripts/enhanced_image_extraction.py:543 | One step raises the looked-up key's count by one and leaves every other key alone. |
| Counting.MinOf | scripts/enhanced_image_extraction.py:570 | `min` returns a member that is no larger than any element. |
| Counting.MaxOf | scripts/enhanced_image_extraction.py:571 | `max` returns a member that is no smaller than any element. |
| Counting.Mean | scripts/enhanced_image_extraction.py:557 | The average is the sum over the count, and it lies between the minimum and the maximum. |
| Counting.Ratio | scripts/enhanced_image_extraction.py:565-566 | The ratio is the count over the non-empty total, and it lies in [0, 1]. |
| Sorting.SortDesc | python/scripts/analyze_extracted_images.py:119-120 | The reverse sort by key is a permutation of its input and is non-increasing in the key. |
| Sorting.SortStable | python/scripts/analyze_extracted_images.py:119-120 | Elements of equal key keep their input order, as Python's stable sort does even with `reverse=True`. |
| Contours.AspectWithinRatio | python/scripts/extract_images_comprehensive.py:241-242 | `max(w/h, h/w) <= 10` holds exactly when neither side exceeds ten times the other. |
| Contours.FillThreshold | python/scripts/extract_images_comprehensive.py:245-249 | The fill test `area / bbox_area >= 0.3` is equivalent to `area >= 0.3 * bbox_area`. |
| Contours.Candidate | python/scripts/extract_images_comprehensive.py:232-250 | A contour yields a region exactly when both sides are at least 100, the aspect is at most 10 and the fill is at least 0.3. The region keeps the bounding box, and its confidence times the box area is the contour area. |
| Contours.Candidates | python/scripts/extract_images_comprehensive.py:230-250 | Every region collected passes all three filters, and there are no more regions than contours. |
| Contours.CandidatesExact | python/scripts/extract_images_comprehensive.py:230-250 | The regions are exactly the present `Candidate` results, in contour order: nothing is dropped or reordered. |
| Contours.CandidatesKeep | python/scripts/extract_images_comprehensive.py:230-250 | Every contour that passes the filters gives its region. |
| Basics.CollectExact | python/scripts/extract_images_comprehensive.py:230-250 | The append-in-a-loop collection is exactly the present values of the per-item results, in item order. |
| Basics.CollectKeeps | python/scripts/extract_images_comprehensive.py:230-250 | Every item whose result is present contributes it. |
| Basics.CollectSource | python/scripts/extract_images_comprehensive.py:230-250 | Every collected value is the result of some item. |
| Contours.SortByFill | python/scripts/extract_images_comprehensive.py:253 | The sort is a permutation of the regions, highest fill first. |
| Contours.SortByFillStable | python/scripts/extract_images_comprehensive.py:253 | Regions of equal fill keep contour order. |
| Contours.DetectImageLikeRegions | python/scripts/extract_images_comprehensive.py:213-254 | The result is the first `min(n, 10)` of the sorted candidates. It is highest fill first, and each region is an acceptable candidate. |
| Contours.TopRegions | python/scripts/extract_images_comprehensive.py:252-254 | A candidate cut by the limit has no higher fill than any region kept. |
| Contours.RegionRecords | python/scripts/extract_images_comprehensive.py:149-172 | Region k of a page gets the 1-based page and region index and the name `page_P_region_K_H.png`. Its bbox is `[x, y, x + w, y + h]`, its width and height are the region's sides, and it keeps the region's fill as confidence and its own hash. |
| Contours.RegionRecordsReadBack | python/scripts/extract_images_comprehensive.py:163-170 | A record loses nothing about its region: reading the region back from the bbox and confidence gives the region, and width and height agree with the bbox. |
| TextMask.Trunc | python/scripts/extract_images_comprehensive.py:187 | `int()` of a float truncates toward zero. |
| TextMask.ConfidentBoxSource | python/scripts/extract_images_comprehensive.py:186-190 | Every kept box belongs to a word with confidence above 30 and sides above 10. |
| TextMask.ConfidentBoxKept | python/scripts/extract_images_comprehensive.py:186-190 | Every such word's box is kept. |
| TextMask.ConfidentBoxesExact | python/scripts/extract_images_comprehensive.py:186-190 | The kept boxes are exactly those of the confident words. |
| TextMask.ReadRow | python/scripts/extract_images_comprehensive.py:187-190 | A row fails exactly when `int(conf)` raises. Otherwise it contributes its box exactly when it is confident. |
| TextMask.DetectTextRegions | python/scripts/extract_images_comprehensive.py:179-195 | The result is the confident boxes in table order. It is empty when OCR fails or any confidence is unreadable, including boxes already found. |
| TextMask.SliceBound | python/scripts/extract_images_comprehensive.py:209 | A slice bound inside the axis is itself, and every bound lands within the axis. |
| TextMask.MaskAt | python/scripts/extract_images_comprehensive.py:199-209 | A pixel is 0 exactly when some padded, clamped box covers it, and 255 otherwise. |
| TextMask.Mask | python/scripts/extract_images_comprehensive.py:197-211 | The mask has the image's shape and holds only 0 and 255. A pixel is 0 exactly when a box covers it, so with no boxes everything is 255. |
| TextMask.MaskOrderIrrelevant | python/scripts/extract_images_comprehensive.py:201-209 | Painting the same boxes in any order gives the same mask. |
| TextMask.CoversPaddedBox | python/scripts/extract_images_comprehensive.py:203-209 | Inside the image, a box covers exactly its pixels grown by 5 on every side. |
| TextMask.NegativeEdgeCountsFromEnd | python/scripts/extract_images_comprehensive.py:204-209 | A box lying left of the image still blanks pixels, because NumPy reads the negative slice end from the far side. |
| DirectExtraction.PageImagesSource | python/scripts/extract_images_comprehensive.py:63-97 | Every record of a page comes from an image that was extracted and is grey or RGB. |
| DirectExtraction.PageImagesKept | python/scripts/extract_images_comprehensive.py:63-97 | Every extracted grey or RGB image has its record. |
| DirectExtraction.PageImagesIndexBound | python/scripts/extract_images_comprehensive.py:63-89 | A record's index is its 1-based position among the page's images. |
| DirectExtraction.PageImagesIncreasing | python/scripts/extract_images_comprehensive.py:63-98 | A page's records come with strictly increasing indices. Skipped images leave gaps. |
| DirectExtraction.ResolvePage | python/scripts/extract_images_comprehensive.py:58 | `doc[p]` gives page `p` for `0 <= p < n` and counts a negative `p` from the end, so `-1` is the last page. Below `-n` it is taken to raise; see Left out. |
| DirectExtraction.CliRangesResolve | python/scripts/extract_images_comprehensive.py:52-58 | Every range `--pages` yields starts at `-1` or later. In a non-empty document every visited page therefore resolves and the extraction succeeds, so the case below `-n` never arises. |
| DirectExtraction.ExtractPagesDefined | python/scripts/extract_images_comprehensive.py:51-58 | The extraction fails exactly when a visited page number does not index the document. |
| DirectExtraction.ExtractPagesSource | python/scripts/extract_images_comprehensive.py:51-98 | Every record is the record of a kept image on a visited page. |
| DirectExtraction.ExtractPagesKept | python/scripts/extract_images_comprehensive.py:51-98 | Every kept image on a visited page is recorded. |
| DirectExtraction.WholeDocument | python/scripts/extract_images_comprehensive.py:51-57 | Without a range every page is visited and the extraction cannot fail. |
| DirectExtraction.ZeroStartVisitsLastPage | python/scripts/extract_images_comprehensive.py:57-58 | A range starting at -1, which `--pages 0-b` produces, visits the last page first. Its images are labelled page 0. |
| DirectExtraction.CliPageRange | python/scripts/extract_images_comprehensive.py:361-368 | A range that is accepted gives `(a - 1, b)` with `a - 1 >= -1` and `b >= 0`. A rejected range exits with code 1. |
| DirectExtraction.CliPageRangeOf | python/scripts/extract_images_comprehensive.py:363-365 | `"a-b"` for naturals gives `(a - 1, b)`. |
| DirectExtraction.CliPageRangePair | python/scripts/extract_images_comprehensive.py:363-365 | Any non-empty argument reading as two integers `a`, `b` gives `(a - 1, b)`. |
| DirectExtraction.CliSingleNumberRejected | python/scripts/extract_images_comprehensive.py:363-368 | A single number fails to unpack and is rejected. |
| DirectExtraction.CliRangePages | python/scripts/extract_images_comprehensive.py:51-88 | With the range from `"a-b"`, every record's page lies between `a` and `b`. |
| Decimal.Pad4Injective | scripts/enhanced_image_extraction.py:482 | Distinct counters give distinct `{:04d}` strings. |
| Decimal.ParseIntOfDecimal | python/scripts/extract_images_cli.py:199 | `int(str(n)) == n`. |
| Decimal.ParseDashPair | python/scripts/extract_images_cli.py:27 | `map(int, s.split('-'))` into two values gives two non-negative integers or fails. |
| Decimal.NaturalSpan | python/scripts/extract_images_cli.py:27 | `"a-b"` for naturals reads back as `(a, b)`. |
| PageRanges.ParsePageRange | python/scripts/extract_images_cli.py:24-30 | Every parsed page is non-negative. |
| PageRanges.ParsedIsConsecutive | python/scripts/extract_images_cli.py:24-30 | A parsed range is one run of consecutive pages that starts at a non-negative page. |
| PageRanges.ParseSinglePage | python/scripts/extract_images_cli.py:29-30 | A rendered page number parses to that single page. |
| PageRanges.ParsePageSpan | python/scripts/extract_images_cli.py:26-28 | `"a-b"` parses to the pages `a` to `b` inclusive. |
| PageRanges.ThreePartsRejected | python/scripts/extract_images_cli.py:27 | `"x-y-z"` does not unpack into two values. |
| PageRanges.PageArg | python/scripts/extract_images_cli.py:50-105 | An empty page list is the only error, and it fails with the re-raised `min()` message. Any other list gives an argument. |
| PageRanges.ReversedSpanFails | python/scripts/extract_images_cli.py:24-30 | A reversed span such as `5-3` parses to no pages, and the argument for no pages is that error. |
| PageRanges.SpanForExtractor | python/scripts/extract_images_cli.py:58-61 | The argument `a-b` reaches the comprehensive extractor as `(a - 1, b)`. |
| PageRanges.PageArgMinMax | python/scripts/extract_images_cli.py:58-61 | The `--pages` argument always names the smallest and the largest page, including for a single page. |
| PageRanges.PageArgRoundTrip | python/scripts/extract_images_cli.py:58-61 | Re-parsing the argument built for a run of non-negative pages gives the run back. |
| PageRanges.ParsedPageArgRoundTrip | python/scripts/extract_images_cli.py:58-61 | Round trip: the argument built from any non-empty parsed range parses back to the same pages. |
| PageRanges.PageArgForExtractor | python/scripts/extract_images_cli.py:58-61 | The comprehensive extractor reads that argument as the 0-based half-open range `(min - 1, max)`. |
| PageRanges.PageFromFilename | python/scripts/extract_images_cli.py:191-202 | A name without `page_` has no page. |
| PageRanges.PageOfPageName | python/scripts/extract_images_cli.py:195-199 | For `page_...` the page is `int` of the next underscore-separated part. |
| PageRanges.PageOfPageFileName | python/scripts/extract_images_cli.py:195-199 | A name `page_{p}_...` gives `p` back. |
| PageRanges.PageOfImgFilename | python/scripts/extract_images_comprehensive.py:76 | Names written by direct extraction give their page back. |
| PageRanges.PageOfRegionFilename | python/scripts/extract_images_comprehensive.py:155 | Names written by region detection give their page back. |
| PageRanges.PageOfScreenshotFilename | python/scripts/extract_images_comprehensive.py:135 | Page screenshot names give their page back. |
| PageRanges.PageWithExtensionIsNone | python/scripts/extract_images_cli.py:195-202 | `page_89.png` gives no page: `89.png` is not an integer, and later parts are not tried. |
| PageRanges.GroupByPageSpec | python/scripts/extract_images_cli.py:133-159 | A page has a group exactly when some file is on it. The group is exactly that page's files, in listing order. |
| PageRanges.PagelessFileDropped | python/scripts/extract_images_cli.py:134-135 | A file with no page, or page 0, is in no group. |
| PageRanges.ImagesByPageOrder | python/scripts/extract_images_cli.py:129-159 | Within a page, the directly extracted images come before the detected regions, each in listing order. |
| TextCli.ClassReprName | python/scripts/extract_text_cli.py:87 | The type name of `<class 'pkg.mod.Name'>` is `Name`. |
| TextCli.TypeNameHasNoDot | python/scripts/extract_text_cli.py:87 | A type name never contains a dot. |
| TextCli.PageContentSnoc | python/scripts/extract_text_cli.py:52-90 | The page filter keeps element order, and an element contributes exactly when it is wanted. |
| TextCli.PageContentSource | python/scripts/extract_text_cli.py:67-69 | Every item comes from an element whose page is unknown or is the requested page. |
| TextCli.PageContentKeeps | python/scripts/extract_text_cli.py:67-90 | Every such element contributes its item. |
| TextCli.OtherPagesOnly | python/scripts/extract_text_cli.py:67-69 | If every element has a known page other than the requested one, the page is empty. |
| TextCli.RecordFor | python/scripts/extract_text_cli.py:114-139 | The status is `success` exactly when partitioning succeeded, and then the record carries the page's items. Otherwise it carries no content and the doubly wrapped error message. |
| TextCli.CollectLookup | python/scripts/extract_text_cli.py:111-139 | Every requested page has its record and no other page has one. |
| TextCli.CollectInOrder | python/scripts/extract_text_cli.py:111-139 | Pages named once give one record per page, in request order. |
| TextCli.ParsedPagesUnrepeated | python/scripts/extract_text_cli.py:28-34 | A parsed range names no page twice. |
| TextCli.ExtractTextContent | python/scripts/extract_text_cli.py:98-104 | A missing PDF fails with `PDF file not found: ...`, before any page is tried. |
| TextCli.SummaryCountsErrors | python/scripts/extract_text_cli.py:234-235 | The error count is the number of error records, and the two counts add up to the record count. |
| TextCli.SuccessesArePartitioned | python/scripts/extract_text_cli.py:234-235 | The success count is the number of pages whose partitioning succeeded. |
| TextCli.Main | python/scripts/extract_text_cli.py:214-255 | The exit code is 1 exactly when the range does not parse or the PDF is missing. |
| TextCli.MainRecordsEveryPage | python/scripts/extract_text_cli.py:214-235 | A run that starts records every requested page once, in order. |
| ImageQuality.Score | python/scripts/analyze_extracted_images.py:42-68 | The banded score is at most 80. |
| ImageQuality.ScoreMonotone | python/scripts/analyze_extracted_images.py:44-68 | More area, more variance or a squarer shape never lowers the score. |
| ImageQuality.LikelyNeedsSizeOrVariance | python/scripts/analyze_extracted_images.py:42-78 | A likely image has area above 10000 or variance above 1000. |
| ImageQuality.LongToShort | python/scripts/analyze_extracted_images.py:39 | The aspect ratio is at least 1, and the longer side is that many times the shorter. |
| ImageQuality.AnalyzeImageContent | python/scripts/analyze_extracted_images.py:16-82 | A PIL failure or an empty side becomes an error with its message. A scored result keeps the size, has `area = w*h`, aspect at least 1 and score at most 80, and is likely exactly when the score exceeds 40. |
| ImageQuality.WorkedExamples | python/scripts/analyze_extracted_images.py:42-78 | A 300x200, high-variance, mid-brightness image takes every band. A 200x25 dull, bright strip takes none. |
| ImageQuality.AnalyzeExtractionResults | python/scripts/analyze_extracted_images.py:99-120 | Errors, likely images and likely text are the regions of each kind. Errors keep region order, and the other two are stably sorted by score, highest first. |
| ImageQuality.PartitionStep | python/scripts/analyze_extracted_images.py:103-116 | One more region extends exactly the list of its own kind. |
| ImageQuality.PartitionExact | python/scripts/analyze_extracted_images.py:103-120 | Every region lands in exactly one list, each list holds only its kind, and both sorted lists run highest score first. |
| ImageQuality.MissingFileIsError | python/scripts/analyze_extracted_images.py:106-116 | A missing file is an error. |
| ImageQuality.LikelyImagesStable | python/scripts/analyze_extracted_images.py:119 | Likely images of equal score keep region order. |
| ImageQuality.CountOnTotals | python/scripts/analyze_extracted_images.py:161-168 | One breakdown step adds one to the page's image or text count. |
| ImageQuality.BreakdownTotals | python/scripts/analyze_extracted_images.py:159-168 | The image counts add up to the entries found in `likely_images`, and the text counts to the rest. |
| ImageQuality.BreakdownOfPartition | python/scripts/analyze_extracted_images.py:159-168 | The per-page breakdown counts every likely image and every likely text region once. Errors are not counted. |
| ImageQuality.TextNotImages | python/scripts/analyze_extracted_images.py:165 | No likely-text entry is found among the likely images. |
| ImageQuality.CreateFilteredResults | python/scripts/analyze_extracted_images.py:181-219 | The manifest's total is its row count, and its criterion reads `Score >= min_score`. |
| ImageQuality.ManifestRowSource | python/scripts/analyze_extracted_images.py:193-210 | Every row is a likely image scoring at least the minimum. The row is named `score_S_<file name>` and keeps the original file name. |
| ImageQuality.ManifestRowKept | python/scripts/analyze_extracted_images.py:193-210 | Every likely image at or above the minimum has its row. |
| ImageQuality.ManifestInOrder | python/scripts/analyze_extracted_images.py:193-210 | Rows follow the order of `likely_images`. |
| ImageQuality.ScoredNameReadBack | python/scripts/analyze_extracted_images.py:196 | The score is the second `_` token of the new name, and it reads back as the score. |
| PageAnalysis.BlockInfos | python/scripts/analyze_page_cli.py:110-129 | There is one entry per text block, and image blocks are skipped. |
| PageAnalysis.SplitIsPartition | python/scripts/analyze_page_cli.py:136-145 | Each block goes to exactly one side, so block counts and text lengths add up to the page totals. |
| PageAnalysis.AnalyzePdfStructure | python/scripts/analyze_page_cli.py:89-156 | The result is an error exactly when PyMuPDF fails, with the `Failed to analyze PDF structure:` message. Otherwise the text-block count matches the text blocks. |
| PageAnalysis.LayoutAccountsForBlocks | python/scripts/analyze_page_cli.py:128-145 | The layout accounts for every text block and every character of their text exactly once. |
| PageAnalysis.Shortened | python/scripts/analyze_page_cli.py:211 | The stored question is at most 203 characters and starts with the first 200 characters of the text. |
| PageAnalysis.QuestionOf | python/scripts/analyze_page_cli.py:207-214 | There is a candidate exactly when the text has `?` or ends in `:` and its length is strictly between 20 and 500. The candidate is the shortened text. |
| PageAnalysis.AddTermsGrows | python/scripts/analyze_page_cli.py:224-227 | The term list only grows at its end and never repeats a term. |
| PageAnalysis.AddTermsHas | python/scripts/analyze_page_cli.py:224-227 | The list gains exactly the keywords the text contains. |
| PageAnalysis.MedicalTermsHas | python/scripts/analyze_page_cli.py:191-227 | The terms are exactly the keywords that some non-empty stripped text contains once lower-cased. |
| PageAnalysis.MedicalTermsGrow | python/scripts/analyze_page_cli.py:216-227 | The terms have no duplicates and stand in the order they were first found. |
| PageAnalysis.ConceptSource | python/scripts/analyze_page_cli.py:191-205 | Every concept comes from an element: its stripped, non-empty text, of a concept type, under 200 characters, holding a concept keyword. |
| PageAnalysis.ConceptKept | python/scripts/analyze_page_cli.py:195-205 | Every element passing that test is recorded as a concept. |
| PageAnalysis.QuestionSource | python/scripts/analyze_page_cli.py:207-214 | Every question is the candidate of an element that passes the question test. It is at most 203 characters. |
| PageAnalysis.QuestionKept | python/scripts/analyze_page_cli.py:207-214 | Every element passing the question test is recorded. |
| PageAnalysis.AnalyzeContentStructure | python/scripts/analyze_page_cli.py:159-236 | The result is an error exactly when extraction fails or returns nothing, with the matching message. Otherwise `total_elements` is the positive element count. |
| PageAnalysis.ContentTypesSum | python/scripts/analyze_page_cli.py:183-188 | The type counts have one key per type and add up to the element count. |
| PageAnalysis.MedicalTermsOfContent | python/scripts/analyze_page_cli.py:216-227 | A page's medical terms are exactly the keywords its elements mention, without repeats. |
| PageAnalysis.DetermineStrategy | python/scripts/analyze_page_cli.py:239-294 | There are at most three notes. Complexity is low exactly when there are none, and high when there are more than two. |
| PageAnalysis.SplitMeansHigh | python/scripts/analyze_page_cli.py:250-292 | The split note appears exactly for a balanced two-sided page, and then it comes first and complexity is high. |
| PageAnalysis.ContentStepKeeps | python/scripts/analyze_page_cli.py:268-285 | The content half only appends notes. It never adds the split note and never sets complexity. |
| PageAnalysis.ApproachRule | python/scripts/analyze_page_cli.py:263-279 | More than two questions make the approach question-focused. Otherwise more than three images make it image-focused, and otherwise it is standard. |
| PageAnalysis.ConfidenceRule | python/scripts/analyze_page_cli.py:268-285 | Confidence is high exactly for a content analysis with more than 10 elements or more than 5 medical terms, and is never low. |
| PageAnalysis.ImageNoteAloneIsMedium | python/scripts/analyze_page_cli.py:263-292 | An image-heavy page with nothing else noted keeps medium complexity. |
| PageAnalysis.AnalyzePdfPage | python/scripts/analyze_page_cli.py:297-322 | All three parts carry the page number. Content is analysed exactly when partitioning succeeds and leaves the page non-empty. A partition failure surfaces with both messages nested. |

## Left out

- PyMuPDF, OpenCV, Tesseract, PIL, pdf2image and unstructured.io are not modelled. What they return, or the message of what they raise, is a parameter. This covers `partition_pdf`, `fitz.Pixmap`, `get_text("dict")`, `image_to_data`, `ImageStat` and contour tracing.
- Regular expressions other than the two option patterns are not evaluated. `Regex.Engine` is a parameter, and the `Faithful` predicate only states what each capture group can look like.
- The engine does the IGNORECASE matching, and `Regex.CaptureShaped` allows for it. `[A-F]` also takes `a`-`f`. `[A-Z]` also takes the four non-ASCII letters 'İ', 'ı', 'ſ' and the Kelvin sign, so a heading may begin with one. `\s` is read as `str.isspace`. `lower()` and the `\w` of the subject clean-up are modelled for ASCII only.
- Classifier.Pick: scores are exact tenths, so float rounding cannot break a tie. In Python, select-all plus checkbox gives SATA `1.0 + 0.7 = 1.7`, while match-column plus drag-drop gives matrix `0.9 + 0.8 = 1.7000000000000002`. The strict `>` then picks matrix, before the clamp; the model keeps SATA, the first of the two.
- PageRanges.PageArg: the error carries CPython's wording before 3.12, `min() arg is an empty sequence`. Later versions say `min() iterable argument is empty`. The `Error: ` line printed by `main` and its exit status 1 (python/scripts/extract_images_cli.py:398-400) are console behaviour and are not modelled.
- Classifier.Classify: `associated_images` is always the empty list and is not kept.
- Decimal.ParseInt: accepts ASCII digits only. Python's `int()` also reads other Unicode decimal digits, so `int("٣") == 3`. PageRanges.PageFromFilename and TextMask.IntOf therefore give no number for names or confidences written in such digits.
- Topics.AssociateImages: the error carries only the common prefix of the TypeError message, not the operand type names, which depend on which side is `None`.
- Subjects.QuickExtractSubject: makes no claim that the subject has no newline. `[A-Z\s]` in the ALL-CAPS heading pattern admits newlines.
- OptionScan.SingleLineOptions: follows the code. Options on one line, such as "Select all that apply: A. Fever B. Cough", come back as one option, "Fever B. Cough", because `[^\n]+` runs to the end of the line.
- TextMask.ConfidentBoxes: states which words' boxes are kept, not their sizes. The size test sits in `Confident`.
- TextMask.NegativeEdgeCountsFromEnd: Tesseract reports no negative coordinates, so the NumPy negative-bound case does not arise from real OCR input.
- ImageQuality.CreateFilteredResults: the copy of the files and the JSON manifest on disk are not modelled. Only the manifest's contents are.
- ImageQuality.BaseName: `Path.name` also ignores a trailing `/`. That case is not modelled, because region paths always end in a file name.
- The `metadata` dictionaries and timestamps are not kept in the records. Nor are the `width` and `height` entries of the text-block records of python/scripts/analyze_page_cli.py:120-126, which `PageAnalysis.BlockInfo` leaves out.
- DirectExtraction.ResolvePage: PyMuPDF is not part of this model. Below `-n` a page number is taken to raise `IndexError`, but PyMuPDF may instead keep adding `n`. No range the command line produces reaches that case (DirectExtraction.CliRangesResolve).
- Image hashes are opaque strings.
- File I/O is not modelled: directory listings, file sizes, `exists` checks, JSON output and saving images. Listings and existence flags are inputs.
- Printing, logging and the summary text are not modelled.
- `organize_images_by_book_page` (python/scripts/extract_images_cli.py:249) is never called and is left out.
- `split_pdf_concurrency_level`, the API path of the enhanced extractor, `extract_and_save_image` and the dependency checks are left out, because they only configure or call external services.
- Test, debug and setup scripts are not part of this model.
- Element text is `str(element)` as given. An exception while processing one element, which the loops catch and skip, is not modelled.

## Findings

| source | as written | input that shows it | evidently intended | confidence | as-written member | corrected member |
|---|---|---|---|---|---|---|
| python/scripts/quick_start_extraction.py:74 | The checkbox pattern is spelled `‚òê\|‚ñ°\|\[\s*\]`: the UTF-8 bytes of `☐` and `□` read back as Mac Roman. | "☐ Fever", on which no other pattern of the table matches | `☐\|□\|\[\s*\]`, as in scripts/quick_start_extraction.py:74, so that the text is a SATA question at 0.7 | not executed | QuickStart.MojibakeCounterexample | QuickStart.CheckboxReadAsSata |

=== FILE: basics.dfy ===
/**
 * Small shared vocabulary: optional values, results with an error payload,
 * and the order-preserving filter that the scripts write as list
 * comprehensions (`[x for x in xs if p(x)]`).
 */
module Basics {

  /** Python's `None` / a present value. */
  datatype Option<+T> = None | Some(value: T)

  /** A value, or the error that the source raises or returns instead. */
  datatype Result<+T, +E> = Ok(value: T) | Err(error: E)

  /** `[x for x in s if p(x)]`: keeps, in order, the elements satisfying `p`. */
  function Filter<T>(s: seq<T>, p: T -> bool): (r: seq<T>)
    ensures |r| <= |s|
    ensures forall i :: 0 <= i < |r| ==> r[i] in s && p(r[i])
    ensures forall i :: 0 <= i < |s| && p(s[i]) ==> s[i] in r
  {
    if |s| == 0 then []
    else
      assert s == [s[0]] + s[1..];
      (if p(s[0]) then [s[0]] else []) + Filter(s[1..], p)
  }

  /** `[f(x) for x in s]`. */
  function Map<T, U>(s: seq<T>, f: T -> U): (r: seq<U>)
    ensures |r| == |s| && forall k :: 0 <= k < |s| ==> r[k] == f(s[k])
  {
    seq(|s|, k requires 0 <= k < |s| => f(s[k]))
  }

  /** `[x for x in s if x is not None]`, unwrapped: the present values, in
      order. */
  function Somes<T>(s: seq<Option<T>>): (r: seq<T>)
    ensures |r| <= |s|
    ensures forall k :: 0 <= k < |r| ==> Some(r[k]) in s
    ensures forall i :: 0 <= i < |s| && s[i].Some? ==> s[i].value in r
  {
    if |s| == 0 then []
    else
      assert s == [s[0]] + s[1..];
      (if s[0].Some? then [s[0].value] else []) + Somes(s[1..])
  }

  /** Appending one optional value appends it when present. */
  lemma {:induction false} SomesSnoc<T>(s: seq<Option<T>>, x: Option<T>)
    ensures Somes(s + [x]) == Somes(s) + (if x.Some? then [x.value] else [])
    decreases |s|
  {
    if |s| == 0 {
      assert s + [x] == [x];
    } else {
      assert (s + [x])[1..] == s[1..] + [x];
      SomesSnoc(s[1..], x);
    }
  }

  /** The loop `for x in s: y = f(x); if y is not None: out.append(y)`:
      the present results of `f`, appended one element at a time. */
  function Collect<T, U>(s: seq<T>, f: T -> Option<U>): (r: seq<U>)
    ensures |r| <= |s|
    decreases |s|
  {
    if |s| == 0 then []
    else
      var rest := Collect(s[..|s| - 1], f);
      match f(s[|s| - 1])
      case None => rest
      case Some(y) => rest + [y]
  }

  /** The append loop gives exactly the present values of `[f(x) for x in s]`,
      in order. */
  lemma {:induction false} CollectExact<T, U>(s: seq<T>, f: T -> Option<U>)
    ensures Collect(s, f) == Somes(Map(s, f))
    decreases |s|
  {
    if |s| > 0 {
      var init := s[..|s| - 1];
      CollectExact(init, f);
      assert Map(s, f) == Map(init, f) + [f(s[|s| - 1])];
      SomesSnoc(Map(init, f), f(s[|s| - 1]));
    }
  }

  /** Every element for which `f` gives a value contributes it. */
  lemma {:induction false} CollectKeeps<T, U>(s: seq<T>, f: T -> Option<U>, i: nat)
    requires i < |s| && f(s[i]).Some?
    ensures f(s[i]).value in Collect(s, f)
  {
    CollectExact(s, f);
    assert Map(s, f)[i] == f(s[i]);
  }

  /** Every collected value is a result of `f` on some element. */
  lemma {:induction false} CollectSource<T, U>(s: seq<T>, f: T -> Option<U>, k: nat) returns (i: nat)
    requires k < |Collect(s, f)|
    ensures i < |s| && f(s[i]) == Some(Collect(s, f)[k])
  {
    CollectExact(s, f);
    var r := Collect(s, f);
    assert Some(r[k]) in Map(s, f);
    i :| 0 <= i < |s| && Map(s, f)[i] == Some(r[k]);
  }

  /** Filtering a concatenation filters each part and keeps them in order:
      this is what "order is preserved" means for `Filter`. */
  lemma {:induction false} FilterConcat<T>(a: seq<T>, b: seq<T>, p: T -> bool)
    ensures Filter(a + b, p) == Filter(a, p) + Filter(b, p)
    decreases |a|
  {
    if |a| == 0 {
      assert a + b == b;
    } else {
      assert (a + b)[1..] == a[1..] + b;
      FilterConcat(a[1..], b, p);
    }
  }

  /** Elements that satisfy the predicate already are never dropped. */
  lemma {:induction false} FilterAll<T>(s: seq<T>, p: T -> bool)
    requires forall i :: 0 <= i < |s| ==> p(s[i])
    ensures Filter(s, p) == s
    decreases |s|
  {
    if |s| > 0 {
      FilterAll(s[1..], p);
    }
  }

  /** `sum(1 for x in s if p(x))`. */
  function Count<T>(s: seq<T>, p: T -> bool): (n: nat)
    ensures n <= |s|
    ensures n == |Filter(s, p)|
  {
    if |s| == 0 then 0
    else (if p(s[0]) then 1 else 0) + Count(s[1..], p)
  }

  /** Counting with a predicate and with its negation splits the whole. */
  lemma {:induction false} CountComplement<T>(s: seq<T>, p: T -> bool)
    ensures Count(s, p) + Count(s, x => !p(x)) == |s|
    decreases |s|
  {
    if |s| > 0 {
      CountComplement(s[1..], p);
    }
  }

  /** `sum(xs)` over integers. */
  function SumInts(xs: seq<int>): int
  {
    if |xs| == 0 then 0 else xs[0] + SumInts(xs[1..])
  }

  lemma {:induction false} SumIntsConcat(a: seq<int>, b: seq<int>)
    ensures SumInts(a + b) == SumInts(a) + SumInts(b)
    decreases |a|
  {
    if |a| == 0 {
      assert a + b == b;
    } else {
      assert (a + b)[1..] == a[1..] + b;
      SumIntsConcat(a[1..], b);
    }
  }

  /** `range(start, stop)`: the integers from `start` up to, not including,
      `stop`. */
  function Range(start: int, stop: int): (r: seq<int>)
    ensures |r| == if stop > start then stop - start else 0
    ensures forall k :: 0 <= k < |r| ==> r[k] == start + k
  {
    if stop > start then seq(stop - start, k requires 0 <= k < stop - start => start + k) else []
  }
  /** `[f(x) for x in s if p(x)]`. */
  function MapFilter<T, U>(s: seq<T>, p: T -> bool, f: T -> U): (r: seq<U>)
    ensures |r| <= |s|
    decreases |s|
  {
    if |s| == 0 then []
    else (if p(s[0]) then [f(s[0])] else []) + MapFilter(s[1..], p, f)
  }

  /** Appending an element appends its image exactly when it passes: the
      comprehension keeps the order of `s`. */
  lemma {:induction false} MapFilterSnoc<T, U>(s: seq<T>, x: T, p: T -> bool, f: T -> U)
    ensures MapFilter(s + [x], p, f) == MapFilter(s, p, f) + (if p(x) then [f(x)] else [])
    decreases |s|
  {
    if |s| == 0 {
      assert s + [x] == [x];
      assert MapFilter([x], p, f) == (if p(x) then [f(x)] else []) + MapFilter([], p, f);
    } else {
      var head := if p(s[0]) then [f(s[0])] else [];
      assert (s + [x])[1..] == s[1..] + [x] && (s + [x])[0] == s[0];
      assert MapFilter(s + [x], p, f) == head + MapFilter(s[1..] + [x], p, f);
      MapFilterSnoc(s[1..], x, p, f);
    }
  }

  /** Every element that passes contributes its image. */
  lemma {:induction false} MapFilterKeeps<T, U>(s: seq<T>, p: T -> bool, f: T -> U, i: nat)
    requires i < |s| && p(s[i])
    ensures f(s[i]) in MapFilter(s, p, f)
    decreases |s|
  {
    if i > 0 {
      MapFilterKeeps(s[1..], p, f, i - 1);
    }
  }

  /** Every image comes from an element that passes. */
  lemma {:induction false} MapFilterSource<T, U>(s: seq<T>, p: T -> bool, f: T -> U, k: nat) returns (i: nat)
    requires k < |MapFilter(s, p, f)|
    ensures i < |s| && p(s[i]) && MapFilter(s, p, f)[k] == f(s[i])
    decreases |s|
  {
    if p(s[0]) && k == 0 {
      i := 0;
    } else {
      var j := MapFilterSource(s[1..], p, f, if p(s[0]) then k - 1 else k);
      i := j + 1;
    }
  }

  /** Nothing passes, nothing comes out. */
  lemma {:induction false} MapFilterNone<T, U>(s: seq<T>, p: T -> bool, f: T -> U)
    requires forall i :: 0 <= i < |s| ==> !p(s[i])
    ensures MapFilter(s, p, f) == []
    decreases |s|
  {
    if |s| > 0 {
      MapFilterNone(s[1..], p, f);
    }
  }

  lemma FilterSnoc<T>(s: seq<T>, x: T, p: T -> bool)
    ensures Filter(s + [x], p) == Filter(s, p) + (if p(x) then [x] else [])
  {
    FilterConcat(s, [x], p);
    assert Filter([x], p) == (if p(x) then [x] else []) + Filter([], p);
  }

  /** Filtering by three predicates of which exactly one holds of each
      element splits the elements among the three results. */
  lemma {:induction false} FilterPartition3<T>(s: seq<T>, p: T -> bool, q: T -> bool, r: T -> bool)
    requires forall i :: 0 <= i < |s| ==> if p(s[i]) then !q(s[i]) && !r(s[i]) else q(s[i]) != r(s[i])
    ensures multiset(Filter(s, p)) + multiset(Filter(s, q)) + multiset(Filter(s, r)) == multiset(s)
    decreases |s|
  {
    if |s| > 0 {
      var x := s[0];
      var t := s[1..];
      FilterPartition3(t, p, q, r);
      assert multiset(s) == multiset{x} + multiset(t) by {
        assert s == [x] + t;
      }
    }
  }

  /** `sum(f(x) for x in s)`. */
  function SumOf<T>(s: seq<T>, f: T -> nat): nat
    decreases |s|
  {
    if |s| == 0 then 0 else f(s[0]) + SumOf(s[1..], f)
  }

  /** Two complementary filters split the elements, and any sum over them,
      between them. */
  lemma {:induction false} FilterSplitSum<T>(s: seq<T>, p: T -> bool, q: T -> bool, f: T -> nat)
    requires forall i :: 0 <= i < |s| ==> p(s[i]) != q(s[i])
    ensures |Filter(s, p)| + |Filter(s, q)| == |s|
    ensures SumOf(Filter(s, p), f) + SumOf(Filter(s, q), f) == SumOf(s, f)
    decreases |s|
  {
    if |s| > 0 {
      var x := s[0];
      var t := s[1..];
      FilterSplitSum(t, p, q, f);
      var fp := Filter(t, p);
      var fq := Filter(t, q);
      if p(x) {
        assert Filter(s, p) == [x] + fp;
        assert Filter(s, q) == [] + fq == fq;
        assert ([x] + fp)[0] == x && ([x] + fp)[1..] == fp;
      } else {
        assert Filter(s, p) == [] + fp == fp;
        assert Filter(s, q) == [x] + fq;
        assert ([x] + fq)[0] == x && ([x] + fq)[1..] == fq;
      }
    }
  }
}

=== FILE: classifier.dfy ===
/**
 * The weighted question classifier shared by the enhanced and the quick-start
 * extractors (scripts/enhanced_image_extraction.py:86-193,
 * scripts/quick_start_extraction.py:59-146).
 *
 * Weights are kept in integer tenths (0.9 becomes 9), so a score is a natural
 * number and the cap `min(confidence, 1.0)` becomes `min(score, 10)`.
 */
module Classifier {
  import opened Basics
  import opened Text
  import opened Regex
  import OptionScan

  datatype QuestionType = MultipleChoice | Sata | FillBlank | Matrix | Unknown

  /** The names the scripts store in `question_type`. */
  function TypeName(t: QuestionType): string
  {
    match t
    case MultipleChoice => "multiple_choice"
    case Sata => "sata"
    case FillBlank => "fill_blank"
    case Matrix => "matrix"
    case Unknown => "unknown"
  }

  lemma TypeNameInjective(a: QuestionType, b: QuestionType)
    ensures TypeName(a) == TypeName(b) <==> a == b
  {
    if a != b {
      assert TypeName(a)[0] != TypeName(b)[0] || |TypeName(a)| != |TypeName(b)|;
    }
  }

  /** The scored types, in the iteration order of the pattern dictionary. */
  const ScoredTypes: seq<QuestionType> := [MultipleChoice, Sata, FillBlank, Matrix]

  function TypeIndex(t: QuestionType): (i: nat)
    requires t != Unknown
    ensures i < |ScoredTypes| && ScoredTypes[i] == t
  {
    match t
    case MultipleChoice => 0
    case Sata => 1
    case FillBlank => 2
    case Matrix => 3
  }

  /** One scoring test: a regex, or the checkbox rule `☐|□|\[\s*\]`, which is
      literal glyphs or a regex. */
  datatype Test = Rx(p: Pattern) | GlyphOr(glyphs: seq<string>, p: Pattern)

  datatype Rule = Rule(test: Test, weight: nat)

  /** The two checkbox glyphs: U+2610 BALLOT BOX and U+25A1 WHITE SQUARE. */
  const CheckboxGlyphs: seq<string> := ["\U{2610}", "\U{25a1}"]

  predicate AnyContains(text: string, glyphs: seq<string>)
  {
    exists i :: 0 <= i < |glyphs| && Contains(text, glyphs[i])
  }

  predicate Holds(e: Engine, t: Test, text: string)
  {
    match t
    case Rx(p) => Found(e, p, text)
    case GlyphOr(gs, p) => AnyContains(text, gs) || Found(e, p, text)
  }

  /** The pattern table, one rule list per scored type; `glyphs` are the
      characters of the checkbox alternative. */
  function ScoringTable(glyphs: seq<string>): (table: seq<seq<Rule>>)
    ensures |table| == |ScoredTypes|
    ensures forall i, j :: 0 <= i < |table| && 0 <= j < |table[i]| ==> table[i][j].weight > 0
  {
    [ [Rule(Rx(LetterDot), 9), Rule(Rx(LetterParen), 8), Rule(Rx(WhichFollowing), 3), Rule(Rx(ChooseCorrect), 3)],
      [Rule(Rx(SelectAll), 10), Rule(Rx(ChooseAll), 9), Rule(Rx(MarkAll), 8), Rule(GlyphOr(glyphs, EmptyBrackets), 7)],
      [Rule(Rx(Underscores), 9), Rule(Rx(Brackets), 8), Rule(Rx(Parens), 3)],
      [Rule(Rx(MatchColumn), 9), Rule(Rx(DragDrop), 8), Rule(Rx(Grid), 7), Rule(Rx(TableWord), 3)] ]
  }

  function TotalWeight(rules: seq<Rule>): nat
  {
    if |rules| == 0 then 0 else rules[0].weight + TotalWeight(rules[1..])
  }

  /** The sum of the weights of the rules whose test holds. */
  function RuleScore(e: Engine, rules: seq<Rule>, text: string): (r: nat)
    ensures r <= TotalWeight(rules)
    ensures (forall j :: 0 <= j < |rules| ==> rules[j].weight > 0) ==>
      (r == 0 <==> forall j :: 0 <= j < |rules| ==> !Holds(e, rules[j].test, text))
    ensures (forall j :: 0 <= j < |rules| ==> Holds(e, rules[j].test, text)) ==> r == TotalWeight(rules)
  {
    if |rules| == 0 then 0
    else (if Holds(e, rules[0].test, text) then rules[0].weight else 0) + RuleScore(e, rules[1..], text)
  }

  /** The visual-reference patterns. */
  const Indicators: seq<Pattern> :=
    [ShownImage, PictureShows, PhotographDemonstrates, FigureIllustrates, SeeImage, ObserveCondition, VisualExamination]

  /** The 0.3 that every type gains when the page has images and the text
      refers to something visual; the quick-start classifier has none. */
  function ImageBonus(e: Engine, text: string, hasImages: bool): (b: nat)
    ensures b == 0 || b == 3
    ensures b == 3 <==> hasImages && exists i :: 0 <= i < |Indicators| && Found(e, Indicators[i], text)
  {
    if hasImages && exists i :: 0 <= i < |Indicators| && Found(e, Indicators[i], text) then 3 else 0
  }

  /** The score of every scored type, bonus included. */
  function Scores(e: Engine, table: seq<seq<Rule>>, text: string, bonus: nat): (s: seq<nat>)
    ensures |s| == |table|
    ensures forall i :: 0 <= i < |table| ==> s[i] == RuleScore(e, table[i], text) + bonus
  {
    seq(|table|, i requires 0 <= i < |table| => RuleScore(e, table[i], text) + bonus)
  }

  /** `s[i]` is the maximum, positive, and reached first at `i`. */
  predicate FirstMaxAt(s: seq<nat>, i: nat)
  {
    && i < |s| && s[i] > 0
    && (forall j :: 0 <= j < |s| ==> s[j] <= s[i])
    && (forall j :: 0 <= j < i ==> s[j] < s[i])
  }

  /** Every type scores 0. */
  predicate AllZero(s: seq<nat>)
  {
    forall j :: 0 <= j < |s| ==> s[j] == 0
  }

  /** The loop `if confidence > best_confidence: ...` from `(unknown, 0)`:
      the index of the first strict maximum (none when every score is 0) and
      the best score. */
  function Pick(s: seq<nat>): (r: (Option<nat>, nat))
    ensures r.0.Some? ==> FirstMaxAt(s, r.0.value) && r.1 == s[r.0.value]
    ensures r.0.None? ==> r.1 == 0 && AllZero(s)
    decreases |s|
  {
    if |s| == 0 then (None, 0)
    else
      var p := Pick(s[..|s| - 1]);
      var last := s[|s| - 1];
      if last > p.1 then (Some(|s| - 1), last) else p
  }

  /** The first strict maximum is unique, so any index that is one is what
      `Pick` returns. */
  lemma PickUnique(s: seq<nat>, i: nat)
    requires FirstMaxAt(s, i)
    ensures Pick(s) == (Some(i), s[i])
  {
  }

  /** What the classifier returns; `associated_images` is always empty and
      is not kept. */
  datatype Detection = Detection(
    kind: QuestionType,
    confidence: nat,               // tenths, at most 10
    options: seq<string>,
    answer: Option<string>,
    rationale: Option<string>)

  /** The option lines: the dotted form if it yields anything, otherwise the
      parenthesised form. */
  function ExtractOptions(text: string): (opts: seq<string>)
    ensures forall k :: 0 <= k < |opts| ==> |opts[k]| > 0 && '\n' !in opts[k]
    ensures OptionScan.FindAll(text, OptionScan.Dotted) != [] ==> opts == OptionScan.FindAll(text, OptionScan.Dotted)
    ensures OptionScan.FindAll(text, OptionScan.Dotted) == [] ==> opts == OptionScan.FindAll(text, OptionScan.Parenthesised)
  {
    var dotted := OptionScan.FindAll(text, OptionScan.Dotted);
    if dotted != [] then dotted else OptionScan.FindAll(text, OptionScan.Parenthesised)
  }

  function UpperChar(c: char): char
  {
    if 'a' <= c <= 'z' then (c as int - 32) as char else c
  }

  /** `.upper()` on ASCII letters. */
  function Upper(s: string): (r: string)
    ensures |r| == |s| && forall k :: 0 <= k < |s| ==> r[k] == UpperChar(s[k])
  {
    seq(|s|, k requires 0 <= k < |s| => UpperChar(s[k]))
  }

  const AnswerPatterns: seq<Pattern> := [CorrectAnswer, AnswerLabel, AnswerIs]
  const RationalePatterns: seq<Pattern> := [RationaleLabel, ExplanationLabel, BecauseLabel]

  /** `_extract_answer`: the upper-cased letter of the first answer pattern
      that matches. */
  function ExtractAnswer(e: Engine, text: string): (r: Option<string>)
    ensures r.None? <==> NoneFound(e, AnswerPatterns, text, |AnswerPatterns|)
  {
    match FirstCapture(e, AnswerPatterns, text)
    case None => None
    case Some(hit) => Some(Upper(hit.1))
  }

  /** The answer is the upper-cased capture of the first answer pattern that
      matches, whatever the later patterns find. */
  lemma AnswerOfFirstMatch(e: Engine, text: string, j: nat)
    requires j < |AnswerPatterns| && NoneFound(e, AnswerPatterns, text, j) && Found(e, AnswerPatterns[j], text)
    ensures ExtractAnswer(e, text) == Some(Upper(e(AnswerPatterns[j], text).value))
  {
    FirstMatchUnique(e, AnswerPatterns, text, j);
  }

  /** With an engine that honours the capture group, the answer is one
      upper-case letter from A to F. */
  lemma AnswerIsLetter(e: Engine, text: string)
    requires Faithful(e)
    ensures ExtractAnswer(e, text).Some? ==>
      |ExtractAnswer(e, text).value| == 1 && 'A' <= ExtractAnswer(e, text).value[0] <= 'F'
  {
    var hit := FirstCapture(e, AnswerPatterns, text);
    if hit.Some? {
      var p := AnswerPatterns[hit.value.0];
      assert CaptureShaped(p, e(p, text).value);
    }
  }

  /** `_extract_rationale`: the stripped sentence of the first rationale
      pattern that matches. */
  function ExtractRationale(e: Engine, text: string): (r: Option<string>)
    ensures r.None? <==> NoneFound(e, RationalePatterns, text, |RationalePatterns|)
  {
    match FirstCapture(e, RationalePatterns, text)
    case None => None
    case Some(hit) => Some(Strip(hit.1))
  }

  /** The rationale is the stripped capture of the first rationale pattern
      that matches. */
  lemma RationaleOfFirstMatch(e: Engine, text: string, j: nat)
    requires j < |RationalePatterns| && NoneFound(e, RationalePatterns, text, j) && Found(e, RationalePatterns[j], text)
    ensures ExtractRationale(e, text) == Some(Strip(e(RationalePatterns[j], text).value))
  {
    FirstMatchUnique(e, RationalePatterns, text, j);
  }

  /** One sentence: it ends at its only full stop and starts with a
      non-blank. */
  predicate OneSentence(t: string)
  {
    && |t| >= 1 && t[|t| - 1] == '.'
    && (forall k :: 0 <= k < |t| - 1 ==> t[k] != '.')
    && !IsSpace(t[0])
  }

  /** With an engine that honours the capture group `([^.]+\.)`, the
      rationale is one sentence. */
  lemma RationaleIsSentence(e: Engine, text: string)
    requires Faithful(e)
    ensures ExtractRationale(e, text).Some? ==> OneSentence(ExtractRationale(e, text).value)
  {
    var hit := FirstCapture(e, RationalePatterns, text);
    if hit.Some? {
      var p := RationalePatterns[hit.value.0];
      assert CaptureShaped(p, e(p, text).value);
      StripSentence(hit.value.1);
    }
  }

  /** A sentence ending in its only full stop keeps that shape when stripped,
      since the stop is not whitespace. */
  lemma StripSentence(c: string)
    requires |c| >= 1 && c[|c| - 1] == '.' && (forall k :: 0 <= k < |c| - 1 ==> c[k] != '.')
    ensures OneSentence(Strip(c))
  {
    StripKeepsSuffix(c);
    var t := Strip(c);
    forall k | 0 <= k < |t| - 1 ensures t[k] != '.' {
      assert t[k] == c[|c| - |t| + k];
    }
  }

  /** `classify(text)`: the first type with the strictly highest score, its
      capped confidence, its options when it is a choice question, and the
      answer and rationale. */
  function Classify(e: Engine, table: seq<seq<Rule>>, text: string, bonus: nat): (r: Detection)
    requires |table| == |ScoredTypes|
    ensures r.confidence <= 10
    ensures r.kind == Unknown ==> r.confidence == 0
    ensures r.options != [] ==> r.kind == MultipleChoice || r.kind == Sata
    ensures r.kind == MultipleChoice || r.kind == Sata ==> r.options == ExtractOptions(text)
    ensures r.answer == ExtractAnswer(e, text) && r.rationale == ExtractRationale(e, text)
  {
    var p := Pick(Scores(e, table, text, bonus));
    var kind := if p.0.Some? then ScoredTypes[p.0.value] else Unknown;
    Detection(
      kind,
      Min(p.1, 10),
      if kind == MultipleChoice || kind == Sata then ExtractOptions(text) else [],
      ExtractAnswer(e, text),
      ExtractRationale(e, text))
  }

  /** The type is unknown exactly when every type scores 0; otherwise it is
      the first type with the highest score, at that score capped at 1.0. */
  lemma ClassifySound(e: Engine, table: seq<seq<Rule>>, text: string, bonus: nat)
    requires |table| == |ScoredTypes|
    ensures var r := Classify(e, table, text, bonus);
      && (r.kind == Unknown <==> AllZero(Scores(e, table, text, bonus)))
      && (r.kind != Unknown ==>
        && FirstMaxAt(Scores(e, table, text, bonus), TypeIndex(r.kind))
        && r.confidence == Min(Scores(e, table, text, bonus)[TypeIndex(r.kind)], 10))
      && (r.kind == Unknown <==> r.confidence == 0)
  {
    var s := Scores(e, table, text, bonus);
    var p := Pick(s);
    if p.0.Some? {
      assert TypeIndex(ScoredTypes[p.0.value]) == p.0.value;
    }
  }

  /** The type at the first highest score wins, at that score capped at 1.0. */
  lemma ClassifyWinner(e: Engine, table: seq<seq<Rule>>, text: string, bonus: nat, i: nat)
    requires |table| == |ScoredTypes| && FirstMaxAt(Scores(e, table, text, bonus), i)
    ensures Classify(e, table, text, bonus).kind == ScoredTypes[i]
    ensures Classify(e, table, text, bonus).confidence == Min(RuleScore(e, table[i], text) + bonus, 10)
  {
    PickUnique(Scores(e, table, text, bonus), i);
  }

  function Min(a: nat, b: nat): nat
  {
    if a <= b then a else b
  }

  /** The enhanced classifier: the proper table, with the image bonus. */
  function EnhancedClassify(e: Engine, text: string, hasImages: bool): (r: Detection)
    ensures ImageBonus(e, text, hasImages) > 0 ==> r.kind != Unknown
  {
    ClassifySound(e, ScoringTable(CheckboxGlyphs), text, ImageBonus(e, text, hasImages));
    Classify(e, ScoringTable(CheckboxGlyphs), text, ImageBonus(e, text, hasImages))
  }

  /** Adding the same bonus to every type never changes which type wins,
      except that with nothing matched the first type, multiple choice,
      takes the bonus alone. */
  lemma BonusKeepsWinner(e: Engine, table: seq<seq<Rule>>, text: string, bonus: nat)
    requires |table| == |ScoredTypes| && bonus > 0
    ensures var plain := Classify(e, table, text, 0);
      var boosted := Classify(e, table, text, bonus);
      && (plain.kind != Unknown ==> boosted.kind == plain.kind)
      && (plain.kind == Unknown ==> boosted.kind == MultipleChoice && boosted.confidence == Min(bonus, 10))
  {
    var s0 := Scores(e, table, text, 0);
    var sb := Scores(e, table, text, bonus);
    var plain := Classify(e, table, text, 0);
    ClassifySound(e, table, text, 0);
    if plain.kind != Unknown {
      var i := TypeIndex(plain.kind);
      assert FirstMaxAt(s0, i);
      assert FirstMaxAt(sb, i);
      PickUnique(sb, i);
    } else {
      assert FirstMaxAt(sb, 0);
      PickUnique(sb, 0);
    }
  }
}

=== FILE: contours.dfy ===
/**
 * What region detection does with OpenCV's contours
 * (python/scripts/extract_images_comprehensive.py:213-254): the size,
 * aspect-ratio and fill filter, the stable sort by fill ratio, highest
 * first, and the cut to ten; then the region records of
 * `detect_image_regions` (lines 141-172). The edge detection and contour
 * tracing are OpenCV's and are not modelled: a contour arrives as its
 * bounding rectangle and its area.
 */
module Contours {
  import opened Basics
  import opened Decimal
  import opened Sorting

  /** `cv2.boundingRect(contour)` and `cv2.contourArea(contour)`. */
  datatype Contour = Contour(x: int, y: int, w: int, h: int, area: real)

  /** `(x, y, w, h, confidence)`, the confidence being the fill ratio. */
  datatype Region = Region(x: int, y: int, w: int, h: int, confidence: real)

  const MinSize := 100
  const MaxRatio := 10
  const MinFill: real := 0.3
  const MaxRegions := 10

  /** `max(w/h, h/w)`. */
  function AspectRatio(w: int, h: int): real
    requires w > 0 && h > 0
  {
    var a := w as real / h as real;
    var b := h as real / w as real;
    if a >= b then a else b
  }

  /** A quotient is at most `t` exactly when the numerator is at most `t`
      times the (positive) denominator. */
  lemma QuotientAtMost(p: real, q: real, t: real)
    requires q > 0.0
    ensures p / q <= t <==> p <= t * q
  {
    var d := p / q;
    assert d * q == p;
    assert (t - d) * q == t * q - p;
  }

  /** The aspect test in integer terms: neither side exceeds ten times the
      other. */
  lemma AspectWithinRatio(w: int, h: int)
    requires w > 0 && h > 0
    ensures AspectRatio(w, h) <= MaxRatio as real <==> w <= MaxRatio * h && h <= MaxRatio * w
  {
    QuotientAtMost(w as real, h as real, 10.0);
    QuotientAtMost(h as real, w as real, 10.0);
  }

  /** The fill test in product terms. */
  lemma FillThreshold(area: real, bboxArea: int)
    requires bboxArea > 0
    ensures area / bboxArea as real >= MinFill <==> area >= MinFill * bboxArea as real
  {
    var d := area / bboxArea as real;
    assert d * bboxArea as real == area;
    assert (d - MinFill) * bboxArea as real == area - MinFill * bboxArea as real;
  }

  /** The body of the contour loop: the region a contour yields, if any, its
      confidence being the fill ratio. */
  function Candidate(c: Contour): (r: Option<Region>)
    ensures r.Some? <==>
      && c.w >= MinSize && c.h >= MinSize
      && c.w <= MaxRatio * c.h && c.h <= MaxRatio * c.w
      && c.area >= MinFill * (c.w * c.h) as real
    ensures r.Some? ==>
      && r.value.x == c.x && r.value.y == c.y && r.value.w == c.w && r.value.h == c.h
      && r.value.confidence * (c.w * c.h) as real == c.area
  {
    if c.w >= MinSize && c.h >= MinSize then
      AspectWithinRatio(c.w, c.h);
      if AspectRatio(c.w, c.h) <= MaxRatio as real then
        var bboxArea := c.w * c.h;
        if bboxArea > 0 then
          var confidence := c.area / bboxArea as real;
          FillThreshold(c.area, bboxArea);
          if confidence >= MinFill then Some(Region(c.x, c.y, c.w, c.h, confidence)) else None
        else None
      else None
    else None
  }

  /** The regions the contours yield, in contour order. */
  function Candidates(cs: seq<Contour>): (r: seq<Region>)
    ensures |r| <= |cs|
    ensures forall k :: 0 <= k < |r| ==> Acceptable(r[k])
  {
    var r := Collect(cs, Candidate);
    assert forall k :: 0 <= k < |r| ==> Acceptable(r[k]) by {
      forall k | 0 <= k < |r|
        ensures Acceptable(r[k])
      {
        var i := CollectSource(cs, Candidate, k);
        AcceptableCandidate(cs[i]);
      }
    }
    r
  }

  /** A region `Candidate` yields passes all three filters. */
  lemma AcceptableCandidate(c: Contour)
    requires Candidate(c).Some?
    ensures Acceptable(Candidate(c).value)
  {
  }

  /** Nothing is dropped or reordered: the regions are exactly the present
      results of `Candidate` over the contours, in contour order. */
  lemma CandidatesExact(cs: seq<Contour>)
    ensures Candidates(cs) == Somes(Map(cs, Candidate))
  {
    CollectExact(cs, Candidate);
  }

  /** Every contour that passes the filters gives its region. */
  lemma CandidatesKeep(cs: seq<Contour>, i: nat)
    requires i < |cs| && Candidate(cs[i]).Some?
    ensures Candidate(cs[i]).value in Candidates(cs)
  {
    CollectKeeps(cs, Candidate, i);
  }

  /** What every surviving region satisfies. */
  predicate Acceptable(g: Region)
  {
    && g.w >= MinSize && g.h >= MinSize
    && g.w <= MaxRatio * g.h && g.h <= MaxRatio * g.w
    && g.confidence >= MinFill
  }

  /** The sort key of `regions.sort(key=lambda x: x[4], reverse=True)`. */
  function Confidence(g: Region): real
  {
    g.confidence
  }

  /** `regions.sort(key=lambda x: x[4], reverse=True)`: a stable sort,
      highest fill first. */
  function SortByFill(s: seq<Region>): (r: seq<Region>)
    ensures |r| == |s| && multiset(r) == multiset(s) && SortedDesc(r, Confidence)
  {
    SortDesc(s, Confidence)
  }

  /** Regions of equal fill keep their contour order. */
  lemma SortByFillStable(s: seq<Region>, v: real)
    ensures WithKey(SortByFill(s), Confidence, v) == WithKey(s, Confidence, v)
  {
    SortStable(s, Confidence, v);
  }

  /** `_detect_image_like_regions` after the contour search: the acceptable
      regions, highest fill first, at most ten. */
  function DetectImageLikeRegions(cs: seq<Contour>): (r: seq<Region>)
    ensures |r| == if |Candidates(cs)| < MaxRegions then |Candidates(cs)| else MaxRegions
    ensures SortedDesc(r, Confidence)
    ensures forall k :: 0 <= k < |r| ==> Acceptable(r[k]) && r[k] in Candidates(cs)
    ensures r == SortByFill(Candidates(cs))[..|r|]
  {
    var sorted := SortByFill(Candidates(cs));
    var n := if |sorted| < MaxRegions then |sorted| else MaxRegions;
    forall k | 0 <= k < n ensures sorted[k] in Candidates(cs) && Acceptable(sorted[k]) {
      assert sorted[k] in multiset(sorted);
    }
    sorted[..n]
  }

  /** Nothing is cut that beats a region kept: a candidate left out has no
      higher fill than any region in the result. */
  lemma TopRegions(cs: seq<Contour>, g: Region)
    requires g in Candidates(cs) && g !in DetectImageLikeRegions(cs)
    ensures forall k :: 0 <= k < |DetectImageLikeRegions(cs)| ==> g.confidence <= DetectImageLikeRegions(cs)[k].confidence
  {
    var sorted := SortByFill(Candidates(cs));
    var r := DetectImageLikeRegions(cs);
    forall j | 0 <= j < |r| ensures sorted[j] != g {
      assert sorted[j] == r[j];
    }
    assert g in multiset(sorted);
    var j :| 0 <= j < |sorted| && sorted[j] == g;
    forall k | 0 <= k < |r| ensures g.confidence <= r[k].confidence {
      assert r[k] == sorted[k];
    }
  }

  /** A region as `detect_image_regions` records it. */
  datatype RegionRecord = RegionRecord(
    page: int,
    regionIndex: int,
    filename: string,
    bbox: seq<int>,
    width: int,
    height: int,
    confidence: real,
    hash: string)

  /** `page_{page}_region_{index}_{hash}.png`. */
  function RegionFilename(page: int, index: int, hash: string): string
  {
    PageFileName(page, "region_" + IntToDecimal(index) + "_" + hash + ".png")
  }

  /** The records of one page's regions; `pageNum` is 0-based and `hashes`
      are the regions' hashes, which come from image bytes and are opaque. */
  function RegionRecords(pageNum: int, regions: seq<Region>, hashes: seq<string>): (r: seq<RegionRecord>)
    requires |hashes| == |regions|
    ensures |r| == |regions|
    ensures forall k :: 0 <= k < |r| ==>
      && r[k].page == pageNum + 1 && r[k].regionIndex == k + 1
      && |r[k].bbox| == 4
      && r[k].bbox[2] - r[k].bbox[0] == r[k].width == regions[k].w
      && r[k].bbox[3] - r[k].bbox[1] == r[k].height == regions[k].h
      && r[k].filename == RegionFilename(pageNum + 1, k + 1, hashes[k])
    ensures forall k :: 0 <= k < |r| ==>
      && r[k].bbox == [regions[k].x, regions[k].y, regions[k].x + regions[k].w, regions[k].y + regions[k].h]
      && r[k].confidence == regions[k].confidence && r[k].hash == hashes[k]
  {
    seq(|regions|, k requires 0 <= k < |regions| =>
      var g := regions[k];
      RegionRecord(pageNum + 1, k + 1, RegionFilename(pageNum + 1, k + 1, hashes[k]),
        [g.x, g.y, g.x + g.w, g.y + g.h], g.w, g.h, g.confidence, hashes[k]))
  }

  /** The region a record describes: its corner, the sides read off the
      `[x, y, x + w, y + h]` box, and its fill. */
  function RegionOf(rec: RegionRecord): Region
    requires |rec.bbox| == 4
  {
    Region(rec.bbox[0], rec.bbox[1], rec.bbox[2] - rec.bbox[0], rec.bbox[3] - rec.bbox[1], rec.confidence)
  }

  /** A record keeps everything about its region: reading the box back gives
      the region, and the name reads back the record's own page. */
  lemma RegionRecordsReadBack(pageNum: int, regions: seq<Region>, hashes: seq<string>, k: nat)
    requires |hashes| == |regions| && k < |regions|
    ensures var rec := RegionRecords(pageNum, regions, hashes)[k];
      && |rec.bbox| == 4 && RegionOf(rec) == regions[k]
      && rec.width == rec.bbox[2] - rec.bbox[0] && rec.height == rec.bbox[3] - rec.bbox[1]
  {
  }
}

=== FILE: decimal.dfy ===
/**
 * Decimal numerals as the scripts write and read them: `str(n)` and
 * `f"{n:04d}"` for rendering, Python's `int(s)` for parsing (surrounding
 * whitespace, an optional sign, ASCII digits with single underscores between
 * them).
 */
module Decimal {
  import opened Basics
  import opened Text

  predicate IsDigit(c: char)
  {
    '0' <= c <= '9'
  }

  predicate AllDigits(s: string)
  {
    forall i :: 0 <= i < |s| ==> IsDigit(s[i])
  }

  function DigitChar(d: nat): (c: char)
    requires d < 10
    ensures IsDigit(c)
  {
    ('0' as int + d) as char
  }

  function DigitValue(c: char): nat
    requires IsDigit(c)
  {
    c as int - '0' as int
  }

  /** The value of a string of decimal digits (leading zeros allowed). */
  function DigitsValue(s: string): nat
    requires AllDigits(s)
  {
    if |s| == 0 then 0 else DigitsValue(s[..|s| - 1]) * 10 + DigitValue(s[|s| - 1])
  }

  function Pow10(k: nat): nat
  {
    if k == 0 then 1 else 10 * Pow10(k - 1)
  }

  /** `str(n)` for a natural number. */
  function NatToDecimal(n: nat): (r: string)
    ensures |r| >= 1 && AllDigits(r)
    ensures r[0] == '0' ==> n == 0
    decreases n
  {
    if n < 10 then [DigitChar(n)] else NatToDecimal(n / 10) + [DigitChar(n % 10)]
  }

  /** `str(n)` for any integer: a minus sign, then the digits of `|n|`. */
  function IntToDecimal(n: int): (r: string)
    ensures |r| >= 1
    ensures n >= 0 ==> AllDigits(r)
    ensures n < 0 ==> r[0] == '-' && AllDigits(r[1..])
  {
    if n < 0 then "-" + NatToDecimal(-n) else NatToDecimal(n)
  }

  /** `f"page_{page}_{rest}"`: the form of every file name the extractors
      write. */
  function PageFileName(page: int, rest: string): string
  {
    "page_" + IntToDecimal(page) + "_" + rest
  }

  /** `f"{n:04d}"` for a natural number: zero-padded to at least four digits,
      and exactly four below 10000. */
  function Pad4(n: nat): (r: string)
    ensures |r| >= 4 && AllDigits(r)
    ensures n < 10000 ==> |r| == 4
  {
    var d := NatToDecimal(n);
    assert n < 10000 ==> |d| <= 4 by {
      if n < 10000 {
        assert Pow10(4) == 10000;
        DecimalLength(n, 4);
      }
    }
    if |d| >= 4 then d else seq(4 - |d|, _ => '0') + d
  }

  /** A number below `10^k` has at most `k` digits. */
  lemma {:induction false} DecimalLength(n: nat, k: nat)
    requires k >= 1 && n < Pow10(k)
    ensures |NatToDecimal(n)| <= k
    decreases k
  {
    if n >= 10 {
      assert Pow10(1) == 10;
      DecimalLength(n / 10, k - 1);
    }
  }

  /** The digits of `str(n)` read back as `n`. */
  lemma {:induction false} DecimalValue(n: nat)
    ensures DigitsValue(NatToDecimal(n)) == n
    decreases n
  {
    if n >= 10 {
      var d := NatToDecimal(n);
      DecimalValue(n / 10);
      assert d[..|d| - 1] == NatToDecimal(n / 10);
    }
  }

  lemma AllDigitsConcat(a: string, b: string)
    requires AllDigits(a) && AllDigits(b)
    ensures AllDigits(a + b)
  {
    forall i | 0 <= i < |a + b| ensures IsDigit((a + b)[i]) {
      if i < |a| { assert (a + b)[i] == a[i]; } else { assert (a + b)[i] == b[i - |a|]; }
    }
  }

  /** Reading the digits of a concatenation. */
  lemma {:induction false} DigitsValueConcat(a: string, b: string)
    requires AllDigits(a) && AllDigits(b)
    ensures AllDigits(a + b)
    ensures DigitsValue(a + b) == DigitsValue(a) * Pow10(|b|) + DigitsValue(b)
    decreases |b|
  {
    AllDigitsConcat(a, b);
    if |b| == 0 {
      assert a + b == a;
    } else {
      var b' := b[..|b| - 1];
      var ab := a + b;
      assert AllDigits(b');
      assert ab[..|ab| - 1] == a + b' && ab[|ab| - 1] == b[|b| - 1];
      DigitsValueConcat(a, b');
      ShiftDigit(DigitsValue(a), Pow10(|b'|), DigitsValue(b'), DigitValue(b[|b| - 1]));
    }
  }

  lemma ShiftDigit(x: nat, p: nat, y: nat, c: nat)
    ensures (x * p + y) * 10 + c == x * (10 * p) + (y * 10 + c)
  {
  }

  /** Leading zeros do not change the value: `f"{n:04d}"` still denotes `n`. */
  lemma Pad4Value(n: nat)
    ensures DigitsValue(Pad4(n)) == n
  {
    var d := NatToDecimal(n);
    DecimalValue(n);
    if |d| < 4 {
      var z: string := seq(4 - |d|, _ => '0');
      ZerosValue(z);
      DigitsValueConcat(z, d);
    }
  }

  lemma {:induction false} ZerosValue(z: string)
    requires forall i :: 0 <= i < |z| ==> z[i] == '0'
    ensures AllDigits(z) && DigitsValue(z) == 0
    decreases |z|
  {
    if |z| > 0 {
      ZerosValue(z[..|z| - 1]);
    }
  }

  /** Distinct counters give distinct zero-padded labels. */
  lemma Pad4Injective(m: nat, n: nat)
    requires m != n
    ensures Pad4(m) != Pad4(n)
  {
    Pad4Value(m);
    Pad4Value(n);
  }

  /** Digits with single underscores between them, as `int()` accepts. */
  predicate ValidNumeral(s: string)
  {
    && |s| > 0 && IsDigit(s[0]) && IsDigit(s[|s| - 1])
    && (forall i :: 0 <= i < |s| ==> IsDigit(s[i]) || s[i] == '_')
    && (forall i :: 0 <= i < |s| - 1 ==> s[i] == '_' ==> s[i + 1] != '_')
  }

  function DropUnderscores(s: string): (r: string)
    requires forall i :: 0 <= i < |s| ==> IsDigit(s[i]) || s[i] == '_'
    ensures AllDigits(r)
    ensures AllDigits(s) ==> r == s
  {
    if |s| == 0 then []
    else (if s[0] == '_' then [] else [s[0]]) + DropUnderscores(s[1..])
  }

  /** An unsigned numeral, or `None`. */
  function ParseUnsigned(t: string): (r: Option<nat>)
    ensures r.Some? <==> ValidNumeral(t)
  {
    if ValidNumeral(t) then Some(DigitsValue(DropUnderscores(t))) else None
  }

  /** A numeral with an optional leading sign and no surrounding whitespace. */
  function ParseSigned(t: string): (r: Option<int>)
    ensures r.Some? && '-' !in t ==> r.value >= 0
  {
    if |t| > 0 && t[0] == '-' then
      match ParseUnsigned(t[1..])
      case Some(v) => Some(-(v as int))
      case None => None
    else if |t| > 0 && t[0] == '+' then
      match ParseUnsigned(t[1..])
      case Some(v) => Some(v as int)
      case None => None
    else
      match ParseUnsigned(t)
      case Some(v) => Some(v as int)
      case None => None
  }

  /** Python's `int(s)` on a string; `None` stands for the `ValueError`. */
  function ParseInt(s: string): (r: Option<int>)
    ensures r.Some? && '-' !in s ==> r.value >= 0
  {
    StripInfix(s);
    ParseSigned(Strip(s))
  }

  /** Every character of `strip(s)` is a character of `s`. */
  lemma StripInfix(s: string)
    ensures forall i :: 0 <= i < |Strip(s)| ==> Strip(s)[i] in s
  {
    var l := LStrip(s);
    var r := RStrip(l);
    assert Strip(s) == r;
    forall i | 0 <= i < |r| ensures r[i] in s {
      LStripAt(s, i);
    }
  }

  lemma LStripAt(s: string, i: nat)
    requires i < |RStrip(LStrip(s))|
    ensures RStrip(LStrip(s))[i] == s[|s| - |LStrip(s)| + i]
  {
    var l := LStrip(s);
    assert RStrip(l)[i] == l[i];
  }

  /** A plain digit string is a numeral whose value is its digits' value. */
  lemma DigitsAreNumeral(d: string)
    requires |d| > 0 && AllDigits(d)
    ensures ParseUnsigned(d) == Some(DigitsValue(d))
  {
  }

  lemma DigitNotSpace(c: char)
    requires IsDigit(c) || c == '-'
    ensures !IsSpace(c) && c != '+'
  {
  }

  /** `int(str(n)) == n`. */
  lemma ParseIntOfDecimal(n: int)
    ensures ParseInt(IntToDecimal(n)) == Some(n)
  {
    if n < 0 {
      ParseNegativeDecimal(n);
    } else {
      ParseNaturalDecimal(n);
    }
  }

  /** The digits of `str(m)` read as an unsigned numeral give `m`. */
  lemma UnsignedOfDecimal(m: nat)
    ensures ParseUnsigned(NatToDecimal(m)) == Some(m)
  {
    DecimalValue(m);
    DigitsAreNumeral(NatToDecimal(m));
  }

  lemma ParseNaturalDecimal(m: nat)
    ensures ParseInt(IntToDecimal(m)) == Some(m)
  {
    var d := NatToDecimal(m);
    UnsignedOfDecimal(m);
    assert IntToDecimal(m) == d;
    DigitNotSpace(d[0]);
    DigitNotSpace(d[|d| - 1]);
    StripUnspaced(d);
    assert ParseSigned(d) == Some(m);
  }

  lemma ParseNegativeDecimal(n: int)
    requires n < 0
    ensures ParseInt(IntToDecimal(n)) == Some(n)
  {
    var m: nat := -n;
    var d := NatToDecimal(m);
    UnsignedOfDecimal(m);
    var s := "-" + d;
    assert IntToDecimal(n) == s;
    assert s[1..] == d && s[0] == '-' && s[|s| - 1] == d[|d| - 1];
    DigitNotSpace(s[0]);
    DigitNotSpace(s[|s| - 1]);
    StripUnspaced(s);
    assert ParseSigned(s) == Some(n);
  }

  /** A rendered integer contains no whitespace, sign-free digits after an
      optional leading minus, and never the underscore or a dot. */
  lemma DecimalChars(n: int)
    ensures forall i :: 0 <= i < |IntToDecimal(n)| ==>
      IsDigit(IntToDecimal(n)[i]) || (i == 0 && n < 0 && IntToDecimal(n)[i] == '-')
  {
  }

  /** A rendered natural number has no minus sign. */
  lemma NaturalHasNoDash(n: nat)
    ensures '-' !in IntToDecimal(n)
  {
    DecimalChars(n);
  }

  /** `a, b = map(int, s.split('-'))`: exactly two parts, both integers;
      `None` stands for the `ValueError`. Neither part holds a dash, so
      neither integer is negative. */
  function ParseDashPair(s: string): (r: Option<(int, int)>)
    ensures r.Some? ==> r.value.0 >= 0 && r.value.1 >= 0
  {
    var parts := Split(s, '-');
    if |parts| != 2 then None
    else match (ParseInt(parts[0]), ParseInt(parts[1]))
      case (Some(a), Some(b)) => Some((a, b))
      case _ => None
  }

  /** `"a-b"` for naturals reads back as the pair `(a, b)`. */
  lemma NaturalSpan(a: nat, b: nat)
    ensures '-' in IntToDecimal(a) + "-" + IntToDecimal(b)
    ensures ParseDashPair(IntToDecimal(a) + "-" + IntToDecimal(b)) == Some((a as int, b as int))
  {
    var s := IntToDecimal(a) + "-" + IntToDecimal(b);
    NaturalHasNoDash(a);
    NaturalHasNoDash(b);
    SplitPair(IntToDecimal(a), '-', IntToDecimal(b));
    ParseIntOfDecimal(a);
    ParseIntOfDecimal(b);
    var parts := Split(s, '-');
    assert parts[0] == IntToDecimal(a) && parts[1] == IntToDecimal(b);
  }
}

=== FILE: direct.dfy ===
/**
 * Direct extraction of the images embedded in the PDF
 * (python/scripts/extract_images_comprehensive.py:48-107) and the `--pages`
 * argument of that script's command line (360-368).
 *
 * PyMuPDF is not modelled: a document is, per page, the list of what
 * `fitz.Pixmap` yields for each embedded image, `None` where extracting that
 * image raises. The md5 hash is an opaque string.
 */
module DirectExtraction {
  import opened Basics
  import opened Text
  import opened Decimal

  /** A decoded pixmap: its component count, alpha flag, hash, size and byte
      count. */
  datatype Pixmap = Pixmap(components: int, alpha: int, hash: string, width: nat, height: nat, sizeBytes: nat)

  /** The record kept for one saved image. */
  datatype DirectImage = DirectImage(
    page: int,          // 1-based
    index: nat,         // 1-based position among the page's images
    filename: string,
    width: nat,
    height: nat,
    sizeBytes: nat,
    hash: string)

  /** `pix.n - pix.alpha < 4`: grey or RGB; CMYK pixmaps are skipped. */
  predicate GrayOrRgb(p: Pixmap)
  {
    p.components - p.alpha < 4
  }

  /** The probe was extracted and is kept. */
  predicate Saved(probe: Option<Pixmap>)
  {
    probe.Some? && GrayOrRgb(probe.value)
  }

  /** `f"page_{page}_img_{index}_{hash}.png"`. */
  function ImgFilename(page: int, index: int, hash: string): string
  {
    PageFileName(page, "img_" + IntToDecimal(index) + "_" + hash + ".png")
  }

  /** `f"page_{page}_screenshot.png"`, the page image of region detection
      (python/scripts/extract_images_comprehensive.py:135). */
  function ScreenshotFilename(page: int): string
  {
    PageFileName(page, "screenshot.png")
  }

  /** The record of the image at 0-based position `j` of 0-based page
      `pageNum`. */
  function ImageRecord(pageNum: int, j: nat, px: Pixmap): DirectImage
  {
    DirectImage(pageNum + 1, j + 1, ImgFilename(pageNum + 1, j + 1, px.hash), px.width, px.height, px.sizeBytes, px.hash)
  }

  /** The inner loop over one page's images: a failed or CMYK image is
      skipped and the others keep their position on the page as index. */
  function PageImages(pageNum: int, probes: seq<Option<Pixmap>>): seq<DirectImage>
    decreases |probes|
  {
    if |probes| == 0 then []
    else
      var j := |probes| - 1;
      PageImages(pageNum, probes[..j]) + (if Saved(probes[j]) then [ImageRecord(pageNum, j, probes[j].value)] else [])
  }

  /** Every record comes from a kept image of the page. */
  lemma {:induction false} PageImagesSource(pageNum: int, probes: seq<Option<Pixmap>>, k: nat) returns (j: nat)
    requires k < |PageImages(pageNum, probes)|
    ensures j < |probes| && Saved(probes[j])
    ensures PageImages(pageNum, probes)[k] == ImageRecord(pageNum, j, probes[j].value)
    decreases |probes|
  {
    var init := probes[..|probes| - 1];
    var p := PageImages(pageNum, init);
    if k < |p| {
      j := PageImagesSource(pageNum, init, k);
      assert probes[j] == init[j];
    } else {
      j := |probes| - 1;
    }
  }

  /** Every kept image has its record. */
  lemma {:induction false} PageImagesKept(pageNum: int, probes: seq<Option<Pixmap>>, j: nat)
    requires j < |probes| && Saved(probes[j])
    ensures ImageRecord(pageNum, j, probes[j].value) in PageImages(pageNum, probes)
    decreases |probes|
  {
    var init := probes[..|probes| - 1];
    if j < |init| {
      PageImagesKept(pageNum, init, j);
      assert probes[j] == init[j];
    }
  }

  /** The indices of a page's records lie in `1..|probes|`. */
  lemma {:induction false} PageImagesIndexBound(pageNum: int, probes: seq<Option<Pixmap>>, k: nat)
    requires k < |PageImages(pageNum, probes)|
    ensures 1 <= PageImages(pageNum, probes)[k].index <= |probes|
  {
    var j := PageImagesSource(pageNum, probes, k);
  }

  /** Records come in page order with strictly increasing indices. */
  lemma {:induction false} PageImagesIncreasing(pageNum: int, probes: seq<Option<Pixmap>>, a: nat, b: nat)
    requires a < b < |PageImages(pageNum, probes)|
    ensures PageImages(pageNum, probes)[a].index < PageImages(pageNum, probes)[b].index
    decreases |probes|
  {
    var init := probes[..|probes| - 1];
    var p := PageImages(pageNum, init);
    if b < |p| {
      PageImagesIncreasing(pageNum, init, a, b);
    } else {
      PageImagesIndexBound(pageNum, init, a);
    }
  }

  /** `self.doc[p]`: a page number counts from the end when negative, and
      raises `IndexError` (`None`) outside `-n..n-1`. */
  function ResolvePage(p: int, n: nat): (r: Option<nat>)
    ensures r.Some? <==> -(n as int) <= p < n
    ensures 0 <= p < n ==> r == Some(p)
    ensures p < 0 && r.Some? ==> r.value == p + n
    ensures r.Some? ==> r.value < n
  {
    if 0 <= p < n then Some(p) else if -(n as int) <= p < 0 then Some(p + n) else None
  }

  /** The pages visited for `page_range` in a document of `n` pages:
      `range(start, min(end, n))`, with the whole document by default. */
  function VisitedPages(pageRange: Option<(int, int)>, n: nat): seq<int>
  {
    var start := if pageRange.Some? then pageRange.value.0 else 0;
    var end := if pageRange.Some? then pageRange.value.1 else n;
    Range(start, if end <= n then end else n)
  }

  /** Every visited page number indexes the document. */
  predicate AllResolve(pages: seq<int>, n: nat)
  {
    forall i :: 0 <= i < |pages| ==> ResolvePage(pages[i], n).Some?
  }

  /** The outer loop: each page's records in page order; an unresolvable
      page number raises out of the whole extraction. */
  function ExtractPages(doc: seq<seq<Option<Pixmap>>>, pages: seq<int>): Option<seq<DirectImage>>
    decreases |pages|
  {
    if |pages| == 0 then Some([])
    else match ResolvePage(pages[0], |doc|)
      case None => None
      case Some(i) =>
        match ExtractPages(doc, pages[1..])
        case None => None
        case Some(rest) => Some(PageImages(pages[0], doc[i]) + rest)
  }

  /** `extract_direct_images`. */
  function ExtractDirect(doc: seq<seq<Option<Pixmap>>>, pageRange: Option<(int, int)>): Option<seq<DirectImage>>
  {
    ExtractPages(doc, VisitedPages(pageRange, |doc|))
  }

  /** The extraction fails exactly when some visited page number does not
      index the document. */
  lemma {:induction false} ExtractPagesDefined(doc: seq<seq<Option<Pixmap>>>, pages: seq<int>)
    ensures ExtractPages(doc, pages).Some? <==> AllResolve(pages, |doc|)
    decreases |pages|
  {
    if |pages| > 0 {
      ExtractPagesDefined(doc, pages[1..]);
      if AllResolve(pages[1..], |doc|) && ResolvePage(pages[0], |doc|).Some? {
        forall i | 0 <= i < |pages| ensures ResolvePage(pages[i], |doc|).Some? {
          if i > 0 {
            assert pages[i] == pages[1..][i - 1];
          }
        }
      }
      if AllResolve(pages, |doc|) {
        forall i | 0 <= i < |pages[1..]| ensures ResolvePage(pages[1..][i], |doc|).Some? {
          assert pages[1..][i] == pages[i + 1];
        }
      }
    }
  }

  /** Every record of a successful extraction is the record of a kept image
      on one of the visited pages, labelled with that page number plus one. */
  lemma {:induction false} ExtractPagesSource(doc: seq<seq<Option<Pixmap>>>, pages: seq<int>, k: nat)
    returns (i: nat, j: nat)
    requires ExtractPages(doc, pages).Some? && k < |ExtractPages(doc, pages).value|
    ensures i < |pages| && ResolvePage(pages[i], |doc|).Some?
    ensures var probes := doc[ResolvePage(pages[i], |doc|).value];
      && j < |probes| && Saved(probes[j])
      && ExtractPages(doc, pages).value[k] == ImageRecord(pages[i], j, probes[j].value)
    decreases |pages|
  {
    var here := PageImages(pages[0], doc[ResolvePage(pages[0], |doc|).value]);
    var rest := ExtractPages(doc, pages[1..]).value;
    assert ExtractPages(doc, pages).value == here + rest;
    if k < |here| {
      i := 0;
      j := PageImagesSource(pages[0], doc[ResolvePage(pages[0], |doc|).value], k);
    } else {
      var i', j' := ExtractPagesSource(doc, pages[1..], k - |here|);
      assert pages[1..][i'] == pages[i' + 1];
      i, j := i' + 1, j';
    }
  }

  /** Every kept image on a visited page has its record. */
  lemma {:induction false} ExtractPagesKept(doc: seq<seq<Option<Pixmap>>>, pages: seq<int>, i: nat, j: nat)
    requires ExtractPages(doc, pages).Some? && i < |pages|
    requires ResolvePage(pages[i], |doc|).Some?
    requires j < |doc[ResolvePage(pages[i], |doc|).value]| && Saved(doc[ResolvePage(pages[i], |doc|).value][j])
    ensures ImageRecord(pages[i], j, doc[ResolvePage(pages[i], |doc|).value][j].value) in ExtractPages(doc, pages).value
    decreases |pages|
  {
    var here := PageImages(pages[0], doc[ResolvePage(pages[0], |doc|).value]);
    var rest := ExtractPages(doc, pages[1..]).value;
    assert ExtractPages(doc, pages).value == here + rest;
    if i == 0 {
      PageImagesKept(pages[0], doc[ResolvePage(pages[0], |doc|).value], j);
    } else {
      assert pages[1..][i - 1] == pages[i];
      ExtractPagesKept(doc, pages[1..], i - 1, j);
    }
  }

  /** Without a range every page is visited, so the extraction cannot fail. */
  lemma WholeDocument(doc: seq<seq<Option<Pixmap>>>)
    ensures VisitedPages(None, |doc|) == Range(0, |doc|)
    ensures ExtractDirect(doc, None).Some?
  {
    var pages := VisitedPages(None, |doc|);
    ExtractPagesDefined(doc, pages);
  }

  /** A range that starts at `-1`, which `--pages 0-b` produces, visits the
      last page first (PyMuPDF counts `-1` from the end) and labels its
      images page 0. */
  lemma ZeroStartVisitsLastPage(doc: seq<seq<Option<Pixmap>>>, b: int)
    requires |doc| > 0 && b > 0
    ensures var pages := VisitedPages(Some((-1, b)), |doc|);
      && |pages| > 0 && pages[0] == -1
      && ResolvePage(pages[0], |doc|) == Some(|doc| - 1)
      && ImageRecord(pages[0], 0, Pixmap(3, 0, "", 0, 0, 0)).page == 0
  {
  }

  /** `--pages`: absent or empty means the whole document; otherwise
      `start, end = map(int, s.split('-'))` must yield exactly two integers
      and gives the 0-based half-open `(start - 1, end)`, and anything else is
      exit code 1. */
  function CliPageRange(arg: Option<string>): (r: Result<Option<(int, int)>, int>)
    ensures r.Err? ==> r.error == 1
    ensures r.Ok? && r.value.Some? ==> r.value.value.0 >= -1 && r.value.value.1 >= 0
  {
    if arg.None? || arg.value == "" then Ok(None)
    else
      match ParseDashPair(arg.value)
      case Some((a, b)) => Ok(Some((a - 1, b)))
      case None => Err(1)
  }

  /** `"a-b"` for naturals `a` and `b` is accepted as `(a - 1, b)`. */
  lemma CliPageRangeOf(a: nat, b: nat)
    ensures CliPageRange(Some(IntToDecimal(a) + "-" + IntToDecimal(b))) == Ok(Some((a - 1, b)))
  {
    NaturalSpan(a, b);
    CliPageRangePair(IntToDecimal(a) + "-" + IntToDecimal(b), a, b);
  }

  /** A non-empty argument that reads as two integers `a` and `b` is accepted
      as `(a - 1, b)`. */
  lemma CliPageRangePair(s: string, a: int, b: int)
    requires s != "" && ParseDashPair(s) == Some((a, b))
    ensures CliPageRange(Some(s)) == Ok(Some((a - 1, b)))
  {
  }

  /** A non-empty argument without `-` does not unpack into two values. */
  lemma CliSingleNumberRejected(s: string)
    requires s != "" && '-' !in s
    ensures CliPageRange(Some(s)).Err?
  {
    SplitNone(s, '-');
  }

  /** With the range from `"a-b"`, the records are those of the 1-based
      pages `a` to `b`: every record's page lies in that interval. */
  lemma CliRangePages(doc: seq<seq<Option<Pixmap>>>, a: nat, b: nat, k: nat)
    requires 1 <= a
    requires var r := ExtractDirect(doc, Some((a - 1, b))); r.Some? && k < |r.value|
    ensures a <= ExtractDirect(doc, Some((a - 1, b))).value[k].page <= b
  {
    var pages := VisitedPages(Some((a - 1, b)), |doc|);
    var i, j := ExtractPagesSource(doc, pages, k);
  }

  /** Every range the `--pages` option yields starts at `-1` or later, so in a
      non-empty document every visited page number indexes it and the
      extraction succeeds: page numbers below `-n` never arise. */
  lemma CliRangesResolve(doc: seq<seq<Option<Pixmap>>>, arg: Option<string>, start: int, end: int)
    requires CliPageRange(arg) == Ok(Some((start, end))) && |doc| > 0
    ensures AllResolve(VisitedPages(Some((start, end)), |doc|), |doc|)
    ensures ExtractDirect(doc, Some((start, end))).Some?
  {
    var pages := VisitedPages(Some((start, end)), |doc|);
    assert forall i :: 0 <= i < |pages| ==> -1 <= pages[i] < |doc|;
    ExtractPagesDefined(doc, pages);
  }
}

=== FILE: image_quality.dfy ===
/**
 * The quality pass over the detected regions
 * (python/scripts/analyze_extracted_images.py): an additive banded score per
 * image, the split of the regions into likely images, likely text and
 * errors, the per-page breakdown, and the filtered manifest. PIL is not
 * modelled: opening an image gives its size and the channel-averaged
 * variance and mean, or the message of what it raised.
 */
module ImageQuality {
  import opened Basics
  import opened Text
  import opened Decimal
  import opened Sorting

  /** `img.size` and the averages of `ImageStat.Stat(img).var` and `.mean`. */
  datatype Stats = Stats(width: nat, height: nat, variance: real, brightness: real)

  /** Size band: more than 50000, 20000 or 10000 pixels. */
  function AreaPoints(area: int): nat
  {
    if area > 50000 then 30 else if area > 20000 then 20 else if area > 10000 then 10 else 0
  }

  /** Variance band: more than 2000, 1000 or 500. */
  function VariancePoints(variance: real): nat
  {
    if variance > 2000.0 then 25 else if variance > 1000.0 then 15 else if variance > 500.0 then 10 else 0
  }

  /** Shape band: longer side under 3 or under 5 times the shorter. */
  function AspectPoints(aspect: real): nat
  {
    if aspect < 3.0 then 15 else if aspect < 5.0 then 10 else 0
  }

  /** Brightness band: neither too dark nor too bright. */
  function BrightnessPoints(brightness: real): nat
  {
    if 50.0 < brightness < 200.0 then 10 else 0
  }

  /** The score of `analyze_image_content`: the four bands added up. */
  function Score(area: int, variance: real, aspect: real, brightness: real): (s: nat)
    ensures s <= 80
  {
    AreaPoints(area) + VariancePoints(variance) + AspectPoints(aspect) + BrightnessPoints(brightness)
  }

  /** More area, more variance or a squarer shape never lowers the score. */
  lemma ScoreMonotone(area: int, area': int, variance: real, variance': real, aspect: real, aspect': real, brightness: real)
    requires area <= area' && variance <= variance' && aspect' <= aspect
    ensures Score(area, variance, aspect, brightness) <= Score(area', variance', aspect', brightness)
  {
  }

  const LikelyThreshold := 40

  /** An image passes the threshold only if it is large or varied: without
      either, the bands add up to 40 at most. */
  lemma LikelyNeedsSizeOrVariance(area: int, variance: real, aspect: real, brightness: real)
    requires Score(area, variance, aspect, brightness) > LikelyThreshold
    ensures area > 10000 || variance > 1000.0
  {
  }

  /** The dictionary `analyze_image_content` returns. */
  datatype Analysis =
    | Scored(width: nat, height: nat, area: nat, variance: real, brightness: real,
             aspectRatio: real, score: nat, likelyImage: bool)
    | Failed(error: string)

  /** `analysis['likely_image']`, which an error result sets to False. */
  predicate LikelyImage(a: Analysis)
  {
    a.Scored? && a.likelyImage
  }

  lemma QuotientAtLeastOne(p: real, q: real)
    requires 0.0 < q <= p
    ensures p / q >= 1.0
  {
  }

  /** `max(width, height) / min(width, height)`: at least 1, and the longer
      side is that many times the shorter. */
  function LongToShort(width: nat, height: nat): (r: real)
    requires width > 0 && height > 0
    ensures r >= 1.0
    ensures r * (if width >= height then height else width) as real == (if width >= height then width else height) as real
  {
    var longer := if width >= height then width else height;
    var shorter := if width >= height then height else width;
    QuotientAtLeastOne(longer as real, shorter as real);
    longer as real / shorter as real
  }

  /** `analyze_image_content`: `stats` is what PIL gave, or the message of
      what it raised. `max(w, h) / min(w, h)` raises on an empty side. */
  function AnalyzeImageContent(stats: Result<Stats, string>): (a: Analysis)
    ensures stats.Err? ==> a == Failed(stats.error)
    ensures stats.Ok? && (stats.value.width == 0 || stats.value.height == 0) ==> a == Failed("division by zero")
    ensures a.Scored? ==>
      && stats.Ok? && a.width == stats.value.width > 0 && a.height == stats.value.height > 0
      && a.area == a.width * a.height
      && a.aspectRatio >= 1.0
      && a.score <= 80
      && (a.likelyImage <==> a.score > LikelyThreshold)
  {
    match stats
    case Err(e) => Failed(e)
    case Ok(s) =>
      if s.width == 0 || s.height == 0 then Failed("division by zero")
      else
        var area := s.width * s.height;
        var aspect := LongToShort(s.width, s.height);
        var score := Score(area, s.variance, aspect, s.brightness);
        Scored(s.width, s.height, area, s.variance, s.brightness, aspect, score, score > LikelyThreshold)
  }

  /** The two cases worked out in the source's thresholds: a 300x200 image
      of variance 2500 and brightness 100 takes every band; a 200x25 strip of
      variance 100 and brightness 250 takes none. */
  lemma WorkedExamples()
    ensures AnalyzeImageContent(Ok(Stats(300, 200, 2500.0, 100.0))).score == 80
    ensures LikelyImage(AnalyzeImageContent(Ok(Stats(300, 200, 2500.0, 100.0))))
    ensures AnalyzeImageContent(Ok(Stats(200, 25, 100.0, 250.0))).score == 0
    ensures !LikelyImage(AnalyzeImageContent(Ok(Stats(200, 25, 100.0, 250.0))))
  {
  }

  /** A detected region as the extraction results list it, with whether its
      file exists and what opening it gives. */
  datatype RegionFile = RegionFile(
    filepath: string,
    filename: string,
    page: int,
    regionIndex: int,
    onDisk: bool,
    stats: Result<Stats, string>)

  /** The analysis a region gets: a missing file is an error of its own. */
  function Analyze(region: RegionFile): Analysis
  {
    if region.onDisk then AnalyzeImageContent(region.stats) else Failed("File not found")
  }

  /** A `(region, analysis)` pair. */
  type Entry = (RegionFile, Analysis)

  function Entries(regions: seq<RegionFile>): (r: seq<Entry>)
    ensures |r| == |regions|
    ensures forall k :: 0 <= k < |r| ==> r[k] == (regions[k], Analyze(regions[k]))
  {
    seq(|regions|, k requires 0 <= k < |regions| => (regions[k], Analyze(regions[k])))
  }

  predicate IsError(e: Entry) { e.1.Failed? }
  predicate IsLikely(e: Entry) { e.1.Scored? && e.1.likelyImage }
  predicate IsText(e: Entry) { e.1.Scored? && !e.1.likelyImage }

  /** `x[1]['score']`, and `x[1].get('score', 0)`; the two agree on every
      entry that is not an error. */
  function ScoreKey(e: Entry): real
  {
    if e.1.Scored? then e.1.score as real else 0.0
  }

  datatype Partition = Partition(likelyImages: seq<Entry>, likelyText: seq<Entry>, errors: seq<Entry>)

  /** The categorising loop and the two sorts of `analyze_extraction_results`. */
  method AnalyzeExtractionResults(regions: seq<RegionFile>) returns (p: Partition)
    ensures p.errors == Filter(Entries(regions), IsError)
    ensures p.likelyImages == SortDesc(Filter(Entries(regions), IsLikely), ScoreKey)
    ensures p.likelyText == SortDesc(Filter(Entries(regions), IsText), ScoreKey)
  {
    var images: seq<Entry> := [];
    var text: seq<Entry> := [];
    var errors: seq<Entry> := [];
    var i := 0;
    while i < |regions|
      invariant 0 <= i <= |regions|
      invariant images == Filter(Entries(regions[..i]), IsLikely)
      invariant text == Filter(Entries(regions[..i]), IsText)
      invariant errors == Filter(Entries(regions[..i]), IsError)
    {
      var e := (regions[i], Analyze(regions[i]));
      PartitionStep(regions, i);
      if IsError(e) {
        errors := errors + [e];
      } else if IsLikely(e) {
        images := images + [e];
      } else {
        text := text + [e];
      }
      i := i + 1;
      assert images == Filter(Entries(regions[..i]), IsLikely);
      assert text == Filter(Entries(regions[..i]), IsText);
      assert errors == Filter(Entries(regions[..i]), IsError);
    }
    assert regions[..i] == regions;
    p := Partition(SortDesc(images, ScoreKey), SortDesc(text, ScoreKey), errors);
  }

  /** One more region extends exactly the list of its own kind. */
  lemma PartitionStep(regions: seq<RegionFile>, i: nat)
    requires i < |regions|
    ensures var e := (regions[i], Analyze(regions[i]));
      var es := Entries(regions[..i]);
      var es' := Entries(regions[..i + 1]);
      && Filter(es', IsLikely) == Filter(es, IsLikely) + (if IsLikely(e) then [e] else [])
      && Filter(es', IsText) == Filter(es, IsText) + (if IsText(e) then [e] else [])
      && Filter(es', IsError) == Filter(es, IsError) + (if IsError(e) then [e] else [])
  {
    var e := (regions[i], Analyze(regions[i]));
    EntriesSnoc(regions, i);
    FilterSnoc(Entries(regions[..i]), e, IsLikely);
    FilterSnoc(Entries(regions[..i]), e, IsText);
    FilterSnoc(Entries(regions[..i]), e, IsError);
  }

  lemma EntriesSnoc(regions: seq<RegionFile>, i: nat)
    requires i < |regions|
    ensures Entries(regions[..i + 1]) == Entries(regions[..i]) + [(regions[i], Analyze(regions[i]))]
  {
  }

  /** Every region lands in exactly one of the three lists, and each list
      holds only its own kind; both sorted lists run highest score first. */
  lemma PartitionExact(regions: seq<RegionFile>)
    ensures var es := Entries(regions);
      var images := SortDesc(Filter(es, IsLikely), ScoreKey);
      var text := SortDesc(Filter(es, IsText), ScoreKey);
      var errors := Filter(es, IsError);
      && multiset(images) + multiset(text) + multiset(errors) == multiset(es)
      && (forall k :: 0 <= k < |images| ==> IsLikely(images[k]))
      && (forall k :: 0 <= k < |text| ==> IsText(text[k]))
      && (forall k :: 0 <= k < |errors| ==> IsError(errors[k]))
      && SortedDesc(images, ScoreKey) && SortedDesc(text, ScoreKey)
  {
    var es := Entries(regions);
    var images := SortDesc(Filter(es, IsLikely), ScoreKey);
    var text := SortDesc(Filter(es, IsText), ScoreKey);
    FilterPartition3(es, IsLikely, IsText, IsError);
    forall k | 0 <= k < |images| ensures IsLikely(images[k]) {
      assert images[k] in multiset(Filter(es, IsLikely));
    }
    forall k | 0 <= k < |text| ensures IsText(text[k]) {
      assert text[k] in multiset(Filter(es, IsText));
    }
  }

  /** A missing file is always an error, whatever its contents would be. */
  lemma MissingFileIsError(regions: seq<RegionFile>, k: nat)
    requires k < |regions| && !regions[k].onDisk
    ensures (regions[k], Analyze(regions[k])) in Filter(Entries(regions), IsError)
  {
    assert Entries(regions)[k] == (regions[k], Failed("File not found"));
  }

  /** Likely images of equal score keep the order of the regions. */
  lemma LikelyImagesStable(regions: seq<RegionFile>, v: real)
    ensures WithKey(SortDesc(Filter(Entries(regions), IsLikely), ScoreKey), ScoreKey, v)
      == WithKey(Filter(Entries(regions), IsLikely), ScoreKey, v)
  {
    SortStable(Filter(Entries(regions), IsLikely), ScoreKey, v);
  }

  /** `pages[page]`: the likely images and likely text regions of a page. */
  datatype PageCount = PageCount(images: nat, text: nat)

  /** One step of the breakdown loop: the page's entry is created at zero if
      missing, then one of its two counts goes up. */
  function CountOn(d: seq<(int, PageCount)>, page: int, image: bool): seq<(int, PageCount)>
    decreases |d|
  {
    if |d| == 0 then [(page, if image then PageCount(1, 0) else PageCount(0, 1))]
    else if d[0].0 == page then
      [(page, if image then PageCount(d[0].1.images + 1, d[0].1.text) else PageCount(d[0].1.images, d[0].1.text + 1))] + d[1..]
    else [d[0]] + CountOn(d[1..], page, image)
  }

  function ImagesTotal(d: seq<(int, PageCount)>): nat
  {
    if |d| == 0 then 0 else d[0].1.images + ImagesTotal(d[1..])
  }

  function TextTotal(d: seq<(int, PageCount)>): nat
  {
    if |d| == 0 then 0 else d[0].1.text + TextTotal(d[1..])
  }

  lemma {:induction false} CountOnTotals(d: seq<(int, PageCount)>, page: int, image: bool)
    ensures ImagesTotal(CountOn(d, page, image)) == ImagesTotal(d) + (if image then 1 else 0)
    ensures TextTotal(CountOn(d, page, image)) == TextTotal(d) + (if image then 0 else 1)
    decreases |d|
  {
    var r := CountOn(d, page, image);
    if |d| == 0 {
      assert r[1..] == [];
    } else if d[0].0 == page {
      assert r[1..] == d[1..];
    } else {
      assert r[1..] == CountOn(d[1..], page, image);
      CountOnTotals(d[1..], page, image);
    }
  }

  /** The loop over `likely_images + likely_text`; an entry counts as an
      image when it is one of `likely_images`. */
  function Breakdown(all: seq<Entry>, images: seq<Entry>): seq<(int, PageCount)>
    decreases |all|
  {
    if |all| == 0 then []
    else
      var e := all[|all| - 1];
      CountOn(Breakdown(all[..|all| - 1], images), e.0.page, e in images)
  }

  /** How many entries of `s` occur in `m`. */
  function CountMembers<T(==)>(s: seq<T>, m: seq<T>): (n: nat)
    ensures n <= |s|
    decreases |s|
  {
    if |s| == 0 then 0 else CountMembers(s[..|s| - 1], m) + (if s[|s| - 1] in m then 1 else 0)
  }

  /** The image counts add up to the entries found in `images`, the text
      counts to the rest. */
  lemma {:induction false} BreakdownTotals(all: seq<Entry>, images: seq<Entry>)
    ensures ImagesTotal(Breakdown(all, images)) == CountMembers(all, images)
    ensures TextTotal(Breakdown(all, images)) == |all| - CountMembers(all, images)
    decreases |all|
  {
    if |all| > 0 {
      var init := all[..|all| - 1];
      var e := all[|all| - 1];
      BreakdownTotals(init, images);
      CountOnTotals(Breakdown(init, images), e.0.page, e in images);
    }
  }

  /** Entries all found in `m` are all counted. */
  lemma {:induction false} CountMembersAll<T>(s: seq<T>, m: seq<T>)
    requires forall k :: 0 <= k < |s| ==> s[k] in m
    ensures CountMembers(s, m) == |s|
    decreases |s|
  {
    if |s| > 0 {
      CountMembersAll(s[..|s| - 1], m);
    }
  }

  /** Appending entries none of which is in `m` adds nothing. */
  lemma {:induction false} CountMembersAppendNone<T>(s: seq<T>, t: seq<T>, m: seq<T>)
    requires forall k :: 0 <= k < |t| ==> t[k] !in m
    ensures CountMembers(s + t, m) == CountMembers(s, m)
    decreases |t|
  {
    if |t| == 0 {
      assert s + t == s;
    } else {
      var u := s + t;
      assert u[..|u| - 1] == s + t[..|t| - 1];
      CountMembersAppendNone(s, t[..|t| - 1], m);
    }
  }

  /** The breakdown of a partition: the image counts add up to the number of
      likely images and the text counts to the number of likely text
      regions; errors are not counted. */
  lemma BreakdownOfPartition(p: Partition)
    requires forall k :: 0 <= k < |p.likelyImages| ==> IsLikely(p.likelyImages[k])
    requires forall k :: 0 <= k < |p.likelyText| ==> IsText(p.likelyText[k])
    ensures var d := Breakdown(p.likelyImages + p.likelyText, p.likelyImages);
      ImagesTotal(d) == |p.likelyImages| && TextTotal(d) == |p.likelyText|
  {
    var images := p.likelyImages;
    BreakdownTotals(images + p.likelyText, images);
    CountMembersAll(images, images);
    TextNotImages(images, p.likelyText);
    CountMembersAppendNone(images, p.likelyText, images);
  }

  /** A likely text entry never equals a likely image entry: their analyses
      disagree on `likely_image`. */
  lemma TextNotImages(images: seq<Entry>, text: seq<Entry>)
    requires forall k :: 0 <= k < |images| ==> IsLikely(images[k])
    requires forall k :: 0 <= k < |text| ==> IsText(text[k])
    ensures forall k :: 0 <= k < |text| ==> text[k] !in images
  {
  }

  /** One row of the filtered manifest. */
  datatype ManifestEntry = ManifestEntry(
    filename: string,
    originalFilename: string,
    page: int,
    score: nat,
    dimensions: string,
    description: string)

  datatype Manifest = Manifest(filterCriteria: string, totalImages: nat, images: seq<ManifestEntry>)

  /** `Path(p).name`: the part after the last `/`. */
  function BaseName(path: string): string
  {
    var parts := Split(path, '/');
    parts[|parts| - 1]
  }

  /** `f"score_{score:.0f}_{name}"`. */
  function ScoredName(score: nat, name: string): string
  {
    "score_" + IntToDecimal(score) + "_" + name
  }

  predicate Selected(e: Entry, minScore: int)
  {
    e.1.Scored? && e.1.score >= minScore
  }

  function ManifestEntryOf(e: Entry): ManifestEntry
  {
    var score := if e.1.Scored? then e.1.score else 0;
    var w := if e.1.Scored? then e.1.width else 0;
    var h := if e.1.Scored? then e.1.height else 0;
    ManifestEntry(
      ScoredName(score, BaseName(e.0.filepath)),
      e.0.filename,
      e.0.page,
      score,
      IntToDecimal(w) + "x" + IntToDecimal(h),
      "Page " + IntToDecimal(e.0.page) + ", Region " + IntToDecimal(e.0.regionIndex))
  }

  /** The manifest of `create_filtered_results`; copying the files is not
      modelled. */
  function CreateFilteredResults(likelyImages: seq<Entry>, minScore: int): (m: Manifest)
    ensures m.totalImages == |m.images|
    ensures m.filterCriteria == "Score >= " + IntToDecimal(minScore)
  {
    var rows := MapFilter(likelyImages, (e: Entry) => Selected(e, minScore), ManifestEntryOf);
    Manifest("Score >= " + IntToDecimal(minScore), |rows|, rows)
  }

  /** Every manifest row is a likely image of at least the minimum score,
      named after its score and file. */
  lemma ManifestRowSource(likelyImages: seq<Entry>, minScore: int, k: nat) returns (i: nat)
    requires k < |CreateFilteredResults(likelyImages, minScore).images|
    ensures i < |likelyImages| && likelyImages[i].1.Scored? && likelyImages[i].1.score >= minScore
    ensures var row := CreateFilteredResults(likelyImages, minScore).images[k];
      && row.score == likelyImages[i].1.score
      && row.filename == ScoredName(row.score, BaseName(likelyImages[i].0.filepath))
      && row.originalFilename == likelyImages[i].0.filename
  {
    i := MapFilterSource(likelyImages, (e: Entry) => Selected(e, minScore), ManifestEntryOf, k);
  }

  /** Every likely image of at least the minimum score has its row. */
  lemma ManifestRowKept(likelyImages: seq<Entry>, minScore: int, i: nat)
    requires i < |likelyImages| && Selected(likelyImages[i], minScore)
    ensures ManifestEntryOf(likelyImages[i]) in CreateFilteredResults(likelyImages, minScore).images
  {
    MapFilterKeeps(likelyImages, (e: Entry) => Selected(e, minScore), ManifestEntryOf, i);
  }

  /** The manifest lists its rows in the order of `likely_images`. */
  lemma ManifestInOrder(likelyImages: seq<Entry>, e: Entry, minScore: int)
    ensures CreateFilteredResults(likelyImages + [e], minScore).images ==
      CreateFilteredResults(likelyImages, minScore).images + (if Selected(e, minScore) then [ManifestEntryOf(e)] else [])
  {
    MapFilterSnoc(likelyImages, e, (x: Entry) => Selected(x, minScore), ManifestEntryOf);
  }

  /** The score is the second `_`-separated token of a scored name and reads
      back as the score. */
  lemma ScoredNameReadBack(score: nat, name: string)
    ensures |Split(ScoredName(score, name), '_')| >= 2
    ensures ParseInt(Split(ScoredName(score, name), '_')[1]) == Some(score)
  {
    var d := IntToDecimal(score);
    DecimalChars(score);
    assert ScoredName(score, name) == "score" + ['_'] + (d + ['_'] + name);
    SplitCons("score", '_', d + ['_'] + name);
    SplitCons(d, '_', name);
    ParseIntOfDecimal(score);
  }
}

=== FILE: options.dfy ===
/**
 * The option extraction of the classifier, with the two option regexes
 * evaluated exactly rather than through the abstract engine:
 *
 *   `re.findall(r'[A-F]\.\s+([^\n]+)', text)` and
 *   `re.findall(r'\([A-F]\)\s+([^\n]+)', text)`
 *
 * (scripts/enhanced_image_extraction.py:153-158). Both are case-sensitive.
 * Greedy `\s+` followed by `[^\n]+` backtracks: the group starts at the last
 * position of the whitespace run (or just after it) that is not a newline,
 * and then runs to the end of the line.
 */
module OptionScan {
  import opened Basics
  import opened Text

  /** `[A-F]\.` or `\([A-F]\)`. */
  datatype Format = Dotted | Parenthesised

  predicate IsOptionLetter(c: char)
  {
    'A' <= c <= 'F'
  }

  function LabelLength(f: Format): nat
  {
    match f
    case Dotted => 2
    case Parenthesised => 3
  }

  predicate LabelAt(text: string, i: nat, f: Format)
  {
    && i + LabelLength(f) <= |text|
    && match f
       case Dotted => IsOptionLetter(text[i]) && text[i + 1] == '.'
       case Parenthesised => text[i] == '(' && IsOptionLetter(text[i + 1]) && text[i + 2] == ')'
  }

  /** Where the run of whitespace starting at `j` ends. */
  function SpaceRunEnd(text: string, j: nat): (k: nat)
    requires j <= |text|
    ensures j <= k <= |text|
    ensures forall q :: j <= q < k ==> IsSpace(text[q])
    ensures k == |text| || !IsSpace(text[k])
    decreases |text| - j
  {
    if j < |text| && IsSpace(text[j]) then SpaceRunEnd(text, j + 1) else j
  }

  /** The first newline at or after `m`, or the end of the text. */
  function LineEnd(text: string, m: nat): (e: nat)
    requires m <= |text|
    ensures m <= e <= |text|
    ensures forall q :: m <= q < e ==> text[q] != '\n'
    ensures e == |text| || text[e] == '\n'
    decreases |text| - m
  {
    if m == |text| || text[m] == '\n' then m else LineEnd(text, m + 1)
  }

  /** The last position in `[lo, hi]` inside the text that is not a newline:
      where `[^\n]+` can begin once `\s+` has given back characters. */
  function GroupStart(text: string, lo: nat, hi: nat): (r: Option<nat>)
    requires hi <= |text|
    ensures r.Some? ==>
      && lo <= r.value <= hi && r.value < |text| && text[r.value] != '\n'
      && forall q :: r.value < q <= hi && q < |text| ==> text[q] == '\n'
    ensures r.None? ==> forall q :: lo <= q <= hi && q < |text| ==> text[q] == '\n'
    decreases hi
  {
    if hi < lo then None
    else if hi < |text| && text[hi] != '\n' then Some(hi)
    else if hi == lo then None
    else GroupStart(text, lo, hi - 1)
  }

  /** A match of the option pattern at `i`: the span `[start, end)` of its
      group. */
  function MatchAt(text: string, f: Format, i: nat): (r: Option<(nat, nat)>)
    ensures r.Some? ==>
      && i < r.value.0 < r.value.1 <= |text|
      && (forall q :: r.value.0 <= q < r.value.1 ==> text[q] != '\n')
      && (r.value.1 == |text| || text[r.value.1] == '\n')
  {
    if !LabelAt(text, i, f) then None
    else
      var p := i + LabelLength(f);
      var k := SpaceRunEnd(text, p);
      if k == p then None
      else match GroupStart(text, p + 1, k)
        case None => None
        case Some(m) => Some((m, LineEnd(text, m)))
  }

  /** A group span: non-empty, free of newlines, and ending at a line end. */
  predicate LineTail(text: string, span: (nat, nat))
  {
    && span.0 < span.1 <= |text|
    && (forall q :: span.0 <= q < span.1 ==> text[q] != '\n')
    && (span.1 == |text| || text[span.1] == '\n')
  }

  /** `re.findall` from position `pos`: after a match the search resumes at
      its end, otherwise one character further. */
  function Scan(text: string, f: Format, pos: nat): (spans: seq<(nat, nat)>)
    requires pos <= |text|
    ensures forall k :: 0 <= k < |spans| ==> pos < spans[k].0 && LineTail(text, spans[k])
    ensures forall k :: 0 <= k < |spans| - 1 ==> spans[k].1 < spans[k + 1].0
    decreases |text| - pos
  {
    if pos == |text| then []
    else match MatchAt(text, f, pos)
      case Some(span) => [span] + Scan(text, f, span.1)
      case None => Scan(text, f, pos + 1)
  }

  /** The captured option strings of one format, in order. */
  function FindAll(text: string, f: Format): (opts: seq<string>)
    ensures forall k :: 0 <= k < |opts| ==> |opts[k]| > 0 && '\n' !in opts[k]
  {
    var spans := Scan(text, f, 0);
    seq(|spans|, k requires 0 <= k < |spans| => text[spans[k].0..spans[k].1])
  }

  /** Each option found is a whole line tail: it begins after the label and
      its whitespace, and the next character is a newline or the end. */
  lemma OptionsAreLineTails(text: string, f: Format)
    ensures |FindAll(text, f)| == |Scan(text, f, 0)|
    ensures forall k :: 0 <= k < |Scan(text, f, 0)| ==>
      var s := Scan(text, f, 0)[k];
      LineTail(text, s) && FindAll(text, f)[k] == text[s.0..s.1]
  {
  }

  /** The worked example "Select all that apply: A. Fever B. Cough" yields a
      single option: the dotted pattern takes the rest of the line. */
  lemma SingleLineOptions(t: string)
    requires t == "Select all that apply: A. Fever B. Cough"
    ensures FindAll(t, Dotted) == ["Fever B. Cough"]
  {
    assert Scan(t, Dotted, 0) == [(26, 40)] by {
      assert Scan(t, Dotted, 0) == Scan(t, Dotted, 23) by {
        NoLabelBeforeA(t);
        ScanSkips(t, Dotted, 0, 23);
      }
      assert Scan(t, Dotted, 23) == [(26, 40)] by {
        assert Scan(t, Dotted, 40) == [];
        FirstOptionMatch(t);
      }
    }
    assert t[26..40] == "Fever B. Cough";
    OneSpan(t, Dotted);
  }

  lemma OneSpan(t: string, f: Format)
    requires |Scan(t, f, 0)| == 1
    ensures var s := Scan(t, f, 0)[0]; FindAll(t, f) == [t[s.0..s.1]]
  {
  }

  lemma NoLabelBeforeA(t: string)
    requires t == "Select all that apply: A. Fever B. Cough"
    ensures forall i :: 0 <= i < 23 ==> !LabelAt(t, i, Dotted)
  {
    forall i | 0 <= i < 23 ensures !LabelAt(t, i, Dotted) {
      assert !IsOptionLetter(t[i]);
    }
  }

  lemma FirstOptionMatch(t: string)
    requires t == "Select all that apply: A. Fever B. Cough"
    ensures MatchAt(t, Dotted, 23) == Some((26, 40))
  {
    assert LabelAt(t, 23, Dotted);
    assert SpaceRunEnd(t, 25) == 26 by {
      assert IsSpace(t[25]) && !IsSpace(t[26]);
    }
    assert GroupStart(t, 26, 26) == Some(26);
    assert LineEnd(t, 26) == 40 by {
      assert forall q :: 26 <= q < |t| ==> t[q] != '\n';
      LineEndNoNewline(t, 26);
    }
  }

  lemma {:induction false} LineEndNoNewline(text: string, m: nat)
    requires m <= |text| && forall q :: m <= q < |text| ==> text[q] != '\n'
    ensures LineEnd(text, m) == |text|
    decreases |text| - m
  {
    if m < |text| {
      LineEndNoNewline(text, m + 1);
    }
  }

  /** No label anywhere from `pos` on: nothing more is found. */
  lemma {:induction false} ScanNoLabel(text: string, f: Format, pos: nat)
    requires pos <= |text|
    requires forall i :: pos <= i < |text| ==> !LabelAt(text, i, f)
    ensures Scan(text, f, pos) == []
    decreases |text| - pos
  {
    if pos < |text| {
      ScanNoLabel(text, f, pos + 1);
    }
  }

  /** Positions without a label are skipped one at a time. */
  lemma {:induction false} ScanSkips(text: string, f: Format, pos: nat, to: nat)
    requires pos <= to <= |text|
    requires forall i :: pos <= i < to ==> !LabelAt(text, i, f)
    ensures Scan(text, f, pos) == Scan(text, f, to)
    decreases |text| - pos
  {
    if pos < to {
      ScanSkips(text, f, pos + 1, to);
    }
  }
}

=== FILE: page_analysis.dfy ===
/**
 * The page analysis command line (python/scripts/analyze_page_cli.py): the
 * left/right split of a page's text blocks, the content summary drawn from
 * the unstructured.io elements, and the extraction strategy decided from
 * both. PyMuPDF's page reading and unstructured.io's partitioning are not
 * modelled: what they return, or the message of what they raised, is the
 * input.
 */
module PageAnalysis {
  import opened Basics
  import opened Text
  import opened Decimal
  import opened Counting
  import TextCli

  // ---------------------------------------------------------------- layout

  /** A block of `page.get_text("dict")`: text blocks carry lines of spans,
      image blocks carry no `lines` and are skipped. */
  datatype Block = TextBlock(x0: real, y0: real, x1: real, y1: real, lines: seq<seq<string>>) | ImageBlock

  /** `span["text"] + " "` for each span of one line. */
  function SpansText(spans: seq<string>): string
    decreases |spans|
  {
    if |spans| == 0 then "" else spans[0] + " " + SpansText(spans[1..])
  }

  /** The `text_content` of a block: every span of every line, each followed
      by a space. */
  function LinesText(lines: seq<seq<string>>): string
    decreases |lines|
  {
    if |lines| == 0 then "" else SpansText(lines[0]) + LinesText(lines[1..])
  }

  /** One entry of `text_blocks_info` (the block's width and height left
      out). */
  datatype BlockInfo = BlockInfo(x0: real, preview: string, textLength: nat)

  function InfoOf(b: Block): BlockInfo
    requires b.TextBlock?
  {
    var content := LinesText(b.lines);
    BlockInfo(b.x0, Strip(content[..if |content| < 100 then |content| else 100]), |Strip(content)|)
  }

  predicate IsTextBlock(b: Block) { b.TextBlock? }

  /** The text blocks' entries, in page order. */
  function BlockInfos(blocks: seq<Block>): (r: seq<BlockInfo>)
    ensures |r| == Count(blocks, IsTextBlock)
    decreases |blocks|
  {
    if |blocks| == 0 then []
    else (if blocks[0].TextBlock? then [InfoOf(blocks[0])] else []) + BlockInfos(blocks[1..])
  }

  /** `layout_analysis`. */
  datatype Layout = Layout(leftBlocks: nat, rightBlocks: nat, leftText: nat, rightText: nat)

  function LeftOf(mid: real): BlockInfo -> bool { (b: BlockInfo) => b.x0 < mid }
  function RightOf(mid: real): BlockInfo -> bool { (b: BlockInfo) => b.x0 >= mid }
  function TextLength(b: BlockInfo): nat { b.textLength }

  /** The split at `mid_x = width / 2`. */
  function SplitLayout(infos: seq<BlockInfo>, width: real): Layout
  {
    var left := Filter(infos, LeftOf(width / 2.0));
    var right := Filter(infos, RightOf(width / 2.0));
    Layout(|left|, |right|, SumOf(left, TextLength), SumOf(right, TextLength))
  }

  /** Every block goes to exactly one side, so both the block counts and the
      text lengths of the two sides add up to the page's. */
  lemma SplitIsPartition(infos: seq<BlockInfo>, width: real)
    ensures var l := SplitLayout(infos, width);
      && l.leftBlocks + l.rightBlocks == |infos|
      && l.leftText + l.rightText == SumOf(infos, TextLength)
  {
    FilterSplitSum(infos, LeftOf(width / 2.0), RightOf(width / 2.0), TextLength);
  }

  /** What PyMuPDF gives for the page: its size, its blocks and how many
      images it embeds. */
  datatype PageData = PageData(width: real, height: real, blocks: seq<Block>, images: nat)

  /** The record of `analyze_pdf_structure`. */
  datatype Structure =
    | StructureError(pdfPage: int, error: string)
    | Structure(pdfPage: int, width: real, height: real, infos: seq<BlockInfo>, totalTextBlocks: nat,
                embeddedImages: nat, layout: Layout)

  function AnalyzePdfStructure(pdfPage: int, page: Result<PageData, string>): (r: Structure)
    ensures r.pdfPage == pdfPage
    ensures r.StructureError? <==> page.Err?
    ensures page.Err? ==> r.StructureError? && r.error == "Failed to analyze PDF structure: " + page.error
    ensures r.Structure? ==> r.totalTextBlocks == |r.infos| == Count(page.value.blocks, IsTextBlock)
  {
    match page
    case Err(e) => StructureError(pdfPage, "Failed to analyze PDF structure: " + e)
    case Ok(d) =>
      var infos := BlockInfos(d.blocks);
      Structure(pdfPage, d.width, d.height, infos, |infos|, d.images, SplitLayout(infos, d.width))
  }

  /** The layout of an analysed page accounts for every text block and every
      character of their text, once. */
  lemma LayoutAccountsForBlocks(pdfPage: int, page: PageData)
    ensures var r := AnalyzePdfStructure(pdfPage, Ok(page));
      && r.layout.leftBlocks + r.layout.rightBlocks == r.totalTextBlocks
      && r.layout.leftText + r.layout.rightText == SumOf(r.infos, TextLength)
  {
    SplitIsPartition(BlockInfos(page.blocks), page.width);
  }

  // --------------------------------------------------------------- content

  /** A concept or question candidate: its text and element type (the
      confidence is always "medium"). */
  datatype Candidate = Candidate(text: string, kind: string)

  /** The record of `analyze_content_structure`. */
  datatype ContentRecord =
    | ContentError(pdfPage: int, error: string)
    | ContentAnalysis(
        pdfPage: int,
        totalElements: nat,
        contentTypes: seq<(string, nat)>,
        concepts: seq<Candidate>,
        questions: seq<Candidate>,
        medicalTerms: seq<string>)

  const ConceptTypes: seq<string> := ["Title", "Header", "NarrativeText"]
  const ConceptKeywords: seq<string> := ["concept", "disorder", "disease", "syndrome", "condition"]
  const MedicalKeywords: seq<string> := [
    "patient", "diagnosis", "treatment", "symptom", "medication",
    "nursing", "assessment", "intervention", "outcome", "care plan",
    "laboratory", "vital signs", "blood pressure", "heart rate",
    "respiratory", "cardiac", "neurological", "gastrointestinal"]

  /** `any(keyword in text for keyword in keywords)`. */
  predicate AnyIn(keywords: seq<string>, text: string)
  {
    exists i :: 0 <= i < |keywords| && Contains(text, keywords[i])
  }

  /** The concept test, on the stripped text. */
  function ConceptOf(text: string, kind: string, conceptTypes: seq<string>, keywords: seq<string>): Option<Candidate>
  {
    if kind in conceptTypes && |text| < 200 && AnyIn(keywords, Lower(text)) then Some(Candidate(text, kind)) else None
  }

  /** The question test, on the stripped text: a `?` or a trailing `:`, and
      a length strictly between 20 and 500. */
  predicate LooksLikeQuestion(text: string)
  {
    ('?' in text || EndsWith(Strip(text), ":")) && 20 < |text| < 500
  }

  /** The stored form of a question: cut at 200 characters with `...`
      appended when longer. */
  function Shortened(text: string): (r: string)
    ensures |r| <= 203
    ensures text[..if |text| < 200 then |text| else 200] <= r
  {
    if |text| > 200 then text[..200] + "..." else text
  }

  /** A question candidate, when the text passes the question test. */
  function QuestionOf(text: string, kind: string): (r: Option<Candidate>)
    ensures r.Some? <==> LooksLikeQuestion(text)
    ensures r.Some? ==> r.value == Candidate(Shortened(text), kind)
  {
    if LooksLikeQuestion(text) then Some(Candidate(Shortened(text), kind)) else None
  }

  /** The keyword loop for one element: each keyword the text holds that is
      not listed yet is appended. */
  function AddTerms(terms: seq<string>, text: string, keywords: seq<string>): (r: seq<string>)
    decreases |keywords|
  {
    if |keywords| == 0 then terms
    else
      var kw := keywords[0];
      AddTerms(if Contains(text, kw) && kw !in terms then terms + [kw] else terms, text, keywords[1..])
  }

  predicate NoDuplicates(s: seq<string>)
  {
    forall i, j :: 0 <= i < j < |s| ==> s[i] != s[j]
  }

  /** The list only grows at its end and never repeats a term. */
  lemma {:induction false} AddTermsGrows(terms: seq<string>, text: string, keywords: seq<string>)
    requires NoDuplicates(terms)
    ensures terms <= AddTerms(terms, text, keywords)
    ensures NoDuplicates(AddTerms(terms, text, keywords))
    decreases |keywords|
  {
    if |keywords| > 0 {
      var kw := keywords[0];
      var next := if Contains(text, kw) && kw !in terms then terms + [kw] else terms;
      AddTermsGrows(next, text, keywords[1..]);
    }
  }

  /** The list gains exactly the keywords the text holds. */
  lemma {:induction false} AddTermsHas(terms: seq<string>, text: string, keywords: seq<string>, w: string)
    ensures w in AddTerms(terms, text, keywords) <==> w in terms || (w in keywords && Contains(text, w))
    decreases |keywords|
  {
    if |keywords| > 0 {
      var kw := keywords[0];
      var next := if Contains(text, kw) && kw !in terms then terms + [kw] else terms;
      AddTermsHas(next, text, keywords[1..], w);
      assert keywords == [kw] + keywords[1..];
    }
  }

  /** The texts the loop looks at: each element's text, stripped. */
  function Stripped(items: seq<TextCli.Item>): (r: seq<string>)
    ensures |r| == |items|
  {
    seq(|items|, k requires 0 <= k < |items| => Strip(items[k].text))
  }

  /** `medical_terms` after the elements `texts`, in order (an empty text is
      skipped). */
  function MedicalTerms(texts: seq<string>, keywords: seq<string>): seq<string>
    decreases |texts|
  {
    if |texts| == 0 then []
    else
      var before := MedicalTerms(texts[..|texts| - 1], keywords);
      var t := texts[|texts| - 1];
      if t == "" then before else AddTerms(before, Lower(t), keywords)
  }

  /** Some non-empty text holds `w` once lowercased. */
  predicate Mentioned(texts: seq<string>, w: string)
  {
    exists i :: 0 <= i < |texts| && texts[i] != "" && Contains(Lower(texts[i]), w)
  }

  lemma MentionedSnoc(texts: seq<string>, w: string)
    requires |texts| > 0
    ensures var t := texts[|texts| - 1];
      Mentioned(texts, w) <==> Mentioned(texts[..|texts| - 1], w) || (t != "" && Contains(Lower(t), w))
  {
    var init := texts[..|texts| - 1];
    if Mentioned(init, w) {
      var i :| 0 <= i < |init| && init[i] != "" && Contains(Lower(init[i]), w);
      assert texts[i] == init[i];
    }
    if Mentioned(texts, w) {
      var i :| 0 <= i < |texts| && texts[i] != "" && Contains(Lower(texts[i]), w);
      if i < |init| {
        assert init[i] == texts[i];
      }
    }
  }

  /** `medical_terms` holds exactly the keywords some element's text
      contains. */
  lemma {:induction false} MedicalTermsHas(texts: seq<string>, keywords: seq<string>, w: string)
    ensures w in MedicalTerms(texts, keywords) <==> w in keywords && Mentioned(texts, w)
    decreases |texts|
  {
    if |texts| > 0 {
      var init := texts[..|texts| - 1];
      var t := texts[|texts| - 1];
      MedicalTermsHas(init, keywords, w);
      MentionedSnoc(texts, w);
      if t != "" {
        AddTermsHas(MedicalTerms(init, keywords), Lower(t), keywords, w);
      }
    }
  }

  /** `medical_terms` has no duplicates, and only ever grows at its end, so
      its terms stand in the order they were first found. */
  lemma {:induction false} MedicalTermsGrow(texts: seq<string>, keywords: seq<string>, n: nat)
    requires n <= |texts|
    ensures NoDuplicates(MedicalTerms(texts, keywords))
    ensures MedicalTerms(texts[..n], keywords) <= MedicalTerms(texts, keywords)
    decreases |texts|
  {
    if |texts| > 0 {
      var init := texts[..|texts| - 1];
      var t := texts[|texts| - 1];
      MedicalTermsGrow(init, keywords, if n < |texts| then n else 0);
      if t != "" {
        AddTermsGrows(MedicalTerms(init, keywords), Lower(t), keywords);
      }
      if n < |texts| {
        assert texts[..n] == init[..n];
      } else {
        assert texts[..n] == texts;
      }
    }
  }

  /** An element whose stripped text is non-empty and passes the concept
      test. */
  function IsConcept(conceptTypes: seq<string>, keywords: seq<string>): TextCli.Item -> bool
  {
    (item: TextCli.Item) => Strip(item.text) != "" && ConceptOf(Strip(item.text), item.typeName, conceptTypes, keywords).Some?
  }

  function ConceptCandidate(item: TextCli.Item): Candidate
  {
    Candidate(Strip(item.text), item.typeName)
  }

  /** The concept candidates found by the loop, in element order. */
  function Concepts(items: seq<TextCli.Item>, conceptTypes: seq<string>, keywords: seq<string>): seq<Candidate>
  {
    MapFilter(items, IsConcept(conceptTypes, keywords), ConceptCandidate)
  }

  /** Every stored concept is the stripped text of an element of a concept
      type, shorter than 200 characters, holding a concept keyword once
      lowercased. */
  lemma ConceptSource(items: seq<TextCli.Item>, conceptTypes: seq<string>, keywords: seq<string>, k: nat)
    returns (i: nat)
    requires k < |Concepts(items, conceptTypes, keywords)|
    ensures i < |items|
    ensures var c := Concepts(items, conceptTypes, keywords)[k];
      && c == Candidate(Strip(items[i].text), items[i].typeName)
      && c.text != "" && |c.text| < 200 && c.kind in conceptTypes && AnyIn(keywords, Lower(c.text))
  {
    i := MapFilterSource(items, IsConcept(conceptTypes, keywords), ConceptCandidate, k);
  }

  /** Every element that passes the concept test is stored. */
  lemma ConceptKept(items: seq<TextCli.Item>, conceptTypes: seq<string>, keywords: seq<string>, i: nat)
    requires i < |items| && Strip(items[i].text) != ""
    requires items[i].typeName in conceptTypes && |Strip(items[i].text)| < 200
    requires AnyIn(keywords, Lower(Strip(items[i].text)))
    ensures Candidate(Strip(items[i].text), items[i].typeName) in Concepts(items, conceptTypes, keywords)
  {
    MapFilterKeeps(items, IsConcept(conceptTypes, keywords), ConceptCandidate, i);
  }

  /** An element whose stripped text is non-empty and passes the question
      test. */
  predicate IsQuestion(item: TextCli.Item)
  {
    Strip(item.text) != "" && LooksLikeQuestion(Strip(item.text))
  }

  function QuestionCandidate(item: TextCli.Item): Candidate
  {
    Candidate(Shortened(Strip(item.text)), item.typeName)
  }

  /** The question candidates found by the loop, in element order. */
  function Questions(items: seq<TextCli.Item>): seq<Candidate>
  {
    MapFilter(items, IsQuestion, QuestionCandidate)
  }

  /** Every stored question comes from an element that passed the question
      test, is that element's candidate, and is at most 203 characters
      long. */
  lemma QuestionSource(items: seq<TextCli.Item>, k: nat) returns (i: nat)
    requires k < |Questions(items)|
    ensures i < |items| && Strip(items[i].text) != ""
    ensures QuestionOf(Strip(items[i].text), items[i].typeName) == Some(Questions(items)[k])
    ensures |Questions(items)[k].text| <= 203
  {
    i := MapFilterSource(items, IsQuestion, QuestionCandidate, k);
  }

  /** Every element that passes the question test is stored. */
  lemma QuestionKept(items: seq<TextCli.Item>, i: nat)
    requires i < |items| && Strip(items[i].text) != ""
    requires QuestionOf(Strip(items[i].text), items[i].typeName).Some?
    ensures QuestionOf(Strip(items[i].text), items[i].typeName).value in Questions(items)
  {
    MapFilterKeeps(items, IsQuestion, QuestionCandidate, i);
  }

  function TypeNames(items: seq<TextCli.Item>): (r: seq<string>)
    ensures |r| == |items|
  {
    seq(|items|, k requires 0 <= k < |items| => items[k].typeName)
  }

  /** `analyze_content_structure`, given what extracting the page's content
      gives. */
  function AnalyzeContentStructure(pdfPage: int, content: Result<seq<TextCli.Item>, string>): (r: ContentRecord)
    ensures r.pdfPage == pdfPage
    ensures r.ContentError? <==> content.Err? || content.value == []
    ensures content.Err? ==> r.ContentError? && r.error == "Failed to analyze content structure: " + content.error
    ensures content.Ok? && content.value == [] ==> r.ContentError? && r.error == "No content extracted"
    ensures r.ContentAnalysis? ==> r.totalElements == |content.value| > 0
  {
    match content
    case Err(e) => ContentError(pdfPage, "Failed to analyze content structure: " + e)
    case Ok(items) =>
      if items == [] then ContentError(pdfPage, "No content extracted")
      else
        ContentAnalysis(pdfPage, |items|, Tally(TypeNames(items)), Concepts(items, ConceptTypes, ConceptKeywords),
          Questions(items), MedicalTerms(Stripped(items), MedicalKeywords))
  }

  /** The type counts of an analysis add up to its element count, one key per
      type. */
  lemma ContentTypesSum(pdfPage: int, items: seq<TextCli.Item>)
    requires items != []
    ensures var r := AnalyzeContentStructure(pdfPage, Ok(items));
      CountTotal(r.contentTypes) == r.totalElements && DistinctKeys(r.contentTypes)
  {
    TallySound(TypeNames(items));
  }

  /** The medical terms of a page are exactly the keywords some element's
      stripped text contains, without repeats. */
  lemma MedicalTermsOfContent(pdfPage: int, items: seq<TextCli.Item>, w: string)
    requires items != []
    ensures var r := AnalyzeContentStructure(pdfPage, Ok(items));
      && r.ContentAnalysis?
      && NoDuplicates(r.medicalTerms)
      && (w in r.medicalTerms <==> (w in MedicalKeywords && Mentioned(Stripped(items), w)))
  {
    MedicalTermsHas(Stripped(items), MedicalKeywords, w);
    MedicalTermsGrow(Stripped(items), MedicalKeywords, 0);
  }


  // -------------------------------------------------------------- strategy

  datatype Approach = Standard | ImageFocused | QuestionFocused
  datatype Level = Low | Medium | High

  datatype Strategy = Strategy(
    approach: Approach,
    confidence: Level,
    reasons: seq<string>,
    specialHandling: seq<string>,
    complexity: Level)

  const SplitNote := "Split extraction needed for left/right pages"
  const ImageNote := "Image-heavy page - use comprehensive image extraction"
  const RichReason := "Rich structured content available"
  const MedicalReason := "High medical terminology density"

  /** `min(l, r) / max(l, r) > 0.3` for positive text lengths. */
  predicate Balanced(left: nat, right: nat)
  {
    left > 0 && right > 0 &&
    (if left <= right then left as real / right as real else right as real / left as real) > 0.3
  }

  /** The first half of `determine_extraction_strategy`: the page layout. */
  function LayoutStep(s: Strategy, pdf: Structure): Strategy
  {
    if !pdf.Structure? then s
    else
      var s1 := if Balanced(pdf.layout.leftText, pdf.layout.rightText)
        then s.(specialHandling := s.specialHandling + [SplitNote], complexity := High) else s;
      if pdf.embeddedImages > 3
        then s1.(specialHandling := s1.specialHandling + [ImageNote], approach := ImageFocused) else s1
  }

  /** The second half: the content, unless its record is an error. */
  function ContentStep(s: Strategy, content: ContentRecord): Strategy
  {
    if !content.ContentAnalysis? then s
    else
      var s1 := if content.totalElements > 10
        then s.(reasons := s.reasons + [RichReason], confidence := High) else s;
      var n := |content.questions|;
      var s2 := if n > 2
        then s1.(specialHandling := s1.specialHandling + ["Multiple questions detected (" + IntToDecimal(n) + ")"],
                 approach := QuestionFocused) else s1;
      if |content.medicalTerms| > 5
        then s2.(reasons := s2.reasons + [MedicalReason], confidence := High) else s2
  }

  /** `determine_extraction_strategy`. */
  function DetermineStrategy(pdf: Structure, content: ContentRecord): (r: Strategy)
    ensures |r.specialHandling| <= 3
    ensures r.complexity == Low <==> r.specialHandling == []
    ensures |r.specialHandling| > 2 ==> r.complexity == High
  {
    var s0 := Strategy(Standard, Medium, [], [], Medium);
    var s := ContentStep(LayoutStep(s0, pdf), content);
    var count := |s.specialHandling|;
    if count == 0 then s.(complexity := Low)
    else if count > 2 then s.(complexity := High)
    else s
  }

  predicate SplitAdvised(pdf: Structure)
  {
    pdf.Structure? && Balanced(pdf.layout.leftText, pdf.layout.rightText)
  }

  /** The split note is given exactly for a balanced two-sided page, comes
      first when given, and then the complexity is high whatever else is
      noted. */
  lemma SplitMeansHigh(pdf: Structure, content: ContentRecord)
    ensures var r := DetermineStrategy(pdf, content);
      && (SplitAdvised(pdf) <==> SplitNote in r.specialHandling)
      && (SplitAdvised(pdf) ==> r.specialHandling[0] == SplitNote && r.complexity == High)
  {
    var s0 := Strategy(Standard, Medium, [], [], Medium);
    var s := ContentStep(LayoutStep(s0, pdf), content);
    ContentStepKeeps(LayoutStep(s0, pdf), content);
  }

  /** The content step only appends to the notes, never the split note, and
      sets no complexity. */
  lemma ContentStepKeeps(s: Strategy, content: ContentRecord)
    ensures var r := ContentStep(s, content);
      && |s.specialHandling| <= |r.specialHandling|
      && r.specialHandling[..|s.specialHandling|] == s.specialHandling
      && (SplitNote in r.specialHandling <==> SplitNote in s.specialHandling)
      && r.complexity == s.complexity
  {
    if content.ContentAnalysis? && |content.questions| > 2 {
      var note := "Multiple questions detected (" + IntToDecimal(|content.questions|) + ")";
      assert note[0] == 'M';
      assert note != SplitNote;
    }
  }

  /** Which approach is recommended: questions first, then images. */
  lemma ApproachRule(pdf: Structure, content: ContentRecord)
    ensures var r := DetermineStrategy(pdf, content);
      var questions := content.ContentAnalysis? && |content.questions| > 2;
      var images := pdf.Structure? && pdf.embeddedImages > 3;
      && (r.approach == QuestionFocused <==> questions)
      && (r.approach == ImageFocused <==> images && !questions)
      && (r.approach == Standard <==> !images && !questions)
  {
  }

  /** Confidence is high exactly when the content record is an analysis
      with more than 10 elements or more than 5 medical terms. */
  lemma ConfidenceRule(pdf: Structure, content: ContentRecord)
    ensures DetermineStrategy(pdf, content).confidence == High <==>
      content.ContentAnalysis? && (content.totalElements > 10 || |content.medicalTerms| > 5)
    ensures DetermineStrategy(pdf, content).confidence != Low
  {
  }

  /** A page with only many images and nothing else to note stays at medium
      complexity: the image note alone does not raise it. */
  lemma ImageNoteAloneIsMedium(pdf: Structure, content: ContentRecord)
    requires pdf.Structure? && pdf.embeddedImages > 3 && !SplitAdvised(pdf)
    requires !content.ContentAnalysis?
    ensures DetermineStrategy(pdf, content).complexity == Medium
    ensures DetermineStrategy(pdf, content).specialHandling == [ImageNote]
  {
  }

  /** The whole analysis of `analyze_pdf_page` (the timestamp left out). */
  datatype PageAnalysisRecord = PageAnalysisRecord(pdfPage: int, structure: Structure, content: ContentRecord, strategy: Strategy)

  function AnalyzePdfPage(pdfPage: int, page: Result<PageData, string>,
                          partition: Result<seq<TextCli.Element>, string>): (r: PageAnalysisRecord)
    ensures r.structure.pdfPage == r.content.pdfPage == r.pdfPage == pdfPage
    ensures r.content.ContentAnalysis? <==> partition.Ok? && TextCli.PageContent(partition.value, pdfPage) != []
    ensures partition.Err? ==>
      (r.content.ContentError? &&
       r.content.error == "Failed to analyze content structure: " + TextCli.ContentFailure(pdfPage, partition.error))
  {
    var structure := AnalyzePdfStructure(pdfPage, page);
    var content := AnalyzeContentStructure(pdfPage, TextCli.ExtractPageContent(partition, pdfPage));
    PageAnalysisRecord(pdfPage, structure, content, DetermineStrategy(structure, content))
  }
}

=== FILE: page_ranges.dfy ===
/**
 * The page arithmetic of the command-line front ends: `parse_page_range`
 * (python/scripts/extract_images_cli.py:24-30, and its identical copy at
 * python/scripts/extract_text_cli.py:28-34), the `--pages` argument handed to
 * the comprehensive extractor (extract_images_cli.py:58-61),
 * `extract_page_from_filename` (191-202) and the grouping of the extracted
 * files by page (108-159).
 */
module PageRanges {
  import opened Basics
  import opened Text
  import opened Decimal
  import DirectExtraction
  import Contours

  /** `parse_page_range`: `"n"` gives `[n]` and `"a-b"` gives
      `list(range(a, b + 1))`; `None` stands for the `ValueError` raised by
      a part that is not an integer or by a split into more than two parts. */
  function ParsePageRange(s: string): (r: Option<seq<int>>)
    ensures r.Some? ==> forall k :: 0 <= k < |r.value| ==> r.value[k] >= 0
  {
    if '-' in s then
      match ParseDashPair(s)
      case Some((a, b)) => Some(Range(a, b + 1))
      case None => None
    else
      match ParseInt(s)
      case Some(n) => Some([n])
      case None => None
  }

  /** A run of consecutive pages. */
  predicate Consecutive(ps: seq<int>)
  {
    forall k :: 0 <= k < |ps| ==> ps[k] == ps[0] + k
  }

  /** Whatever `parse_page_range` returns is a run of consecutive pages:
      one page, or the pages from `a` to `b` (none when `a > b`). */
  lemma ParsedIsConsecutive(s: string)
    requires ParsePageRange(s).Some?
    ensures Consecutive(ParsePageRange(s).value)
    ensures |ParsePageRange(s).value| > 0 ==> ParsePageRange(s).value[0] >= 0
  {
  }

  /** A rendered page number parses back as that single page. */
  lemma ParseSinglePage(n: nat)
    ensures ParsePageRange(IntToDecimal(n)) == Some([n])
  {
    DecimalChars(n);
    ParseIntOfDecimal(n);
  }

  /** `"a-b"` parses as the pages from `a` to `b` inclusive. */
  lemma ParsePageSpan(a: nat, b: nat)
    ensures ParsePageRange(IntToDecimal(a) + "-" + IntToDecimal(b)) == Some(Range(a, b + 1))
  {
    NaturalSpan(a, b);
  }

  /** `"1-2-3"` splits into three parts and does not unpack into two. */
  lemma ThreePartsRejected(a: string, b: string, c: string)
    requires '-' !in a && '-' !in b && '-' !in c
    ensures ParsePageRange(a + "-" + b + "-" + c).None?
  {
    var s := a + "-" + b + "-" + c;
    assert s == a + ['-'] + (b + ['-'] + c);
    assert s[|a|] == '-';
    SplitCons(a, '-', b + ['-'] + c);
    SplitCons(b, '-', c);
    SplitNone(c, '-');
  }

  /** `min(pages)` and `max(pages)`. */
  function SeqMin(ps: seq<int>): (m: int)
    requires |ps| > 0
    ensures m in ps && forall k :: 0 <= k < |ps| ==> m <= ps[k]
  {
    if |ps| == 1 then ps[0]
    else var r := SeqMin(ps[1..]); if ps[0] <= r then ps[0] else r
  }

  function SeqMax(ps: seq<int>): (m: int)
    requires |ps| > 0
    ensures m in ps && forall k :: 0 <= k < |ps| ==> ps[k] <= m
  {
    if |ps| == 1 then ps[0]
    else var r := SeqMax(ps[1..]); if ps[0] >= r then ps[0] else r
  }

  /** The `ValueError` of `min([])`, as CPython before 3.12 words it. */
  const MinOfEmpty: string := "min() arg is an empty sequence"

  /** The message `extract_images_from_pages` re-raises it with. */
  const EmptyRangeError: string := "Image extraction pipeline failed: " + MinOfEmpty

  /** The `--pages` argument built for the comprehensive extractor: `p-p`
      for one page, `min-max` otherwise, and the pipeline's error for an
      empty list (which `"5-3"` parses to). */
  function PageArg(ps: seq<int>): (r: Result<string, string>)
    ensures r.Err? <==> |ps| == 0
    ensures r.Err? ==> r.error == EmptyRangeError
  {
    if |ps| == 0 then Err(EmptyRangeError)
    else if |ps| == 1 then Ok(IntToDecimal(ps[0]) + "-" + IntToDecimal(ps[0]))
    else Ok(IntToDecimal(SeqMin(ps)) + "-" + IntToDecimal(SeqMax(ps)))
  }

  /** A reversed span such as `"5-3"` parses to no pages, and the argument
      for no pages is the pipeline's error. */
  lemma ReversedSpanFails(a: nat, b: nat)
    requires a > b
    ensures ParsePageRange(IntToDecimal(a) + "-" + IntToDecimal(b)) == Some([])
    ensures PageArg([]) == Err(EmptyRangeError)
  {
    ParsePageSpan(a, b);
  }

  /** A run of consecutive pages starts at its minimum and ends at its
      maximum. */
  lemma ConsecutiveEnds(ps: seq<int>)
    requires |ps| > 0 && Consecutive(ps)
    ensures SeqMin(ps) == ps[0] && SeqMax(ps) == ps[|ps| - 1]
  {
  }

  /** Re-parsing the argument built for a run of consecutive non-negative
      pages gives the run back. */
  lemma PageArgRoundTrip(ps: seq<int>)
    requires |ps| > 0 && Consecutive(ps) && ps[0] >= 0
    ensures PageArg(ps).Ok? && ParsePageRange(PageArg(ps).value) == Some(ps)
  {
    var lo: nat := ps[0];
    var hi: nat := ps[|ps| - 1];
    PageArgOfRun(ps);
    assert Range(lo, hi + 1) == ps;
    ParsePageSpan(lo, hi);
  }

  /** For a run, the argument names its first and last pages. */
  lemma PageArgOfRun(ps: seq<int>)
    requires |ps| > 0 && Consecutive(ps)
    ensures PageArg(ps) == Ok(IntToDecimal(ps[0]) + "-" + IntToDecimal(ps[|ps| - 1]))
  {
    ConsecutiveEnds(ps);
  }

  /** So re-parsing the argument gives back any non-empty list that
      `parse_page_range` produced. */
  lemma ParsedPageArgRoundTrip(s: string, ps: seq<int>)
    requires ParsePageRange(s) == Some(ps) && |ps| > 0
    ensures PageArg(ps).Ok? && ParsePageRange(PageArg(ps).value) == Some(ps)
  {
    ParsedIsConsecutive(s);
    PageArgRoundTrip(ps);
  }

  /** The comprehensive extractor reads that argument as the 0-based
      half-open range from the smallest page minus one to the largest. */
  lemma PageArgForExtractor(ps: seq<int>)
    requires |ps| > 0 && forall k :: 0 <= k < |ps| ==> ps[k] >= 0
    ensures PageArg(ps).Ok?
    ensures DirectExtraction.CliPageRange(Some(PageArg(ps).value)) == Ok(Some((SeqMin(ps) - 1, SeqMax(ps))))
  {
    PageArgMinMax(ps);
    NaturalEnds(ps);
    SpanForExtractor(SeqMin(ps), SeqMax(ps));
  }

  /** The ends of a list of non-negative pages are non-negative. */
  lemma NaturalEnds(ps: seq<int>)
    requires |ps| > 0 && forall k :: 0 <= k < |ps| ==> ps[k] >= 0
    ensures SeqMin(ps) >= 0 && SeqMax(ps) >= 0
  {
  }

  /** `"a-b"` reaches the extractor as `(a - 1, b)`. */
  lemma SpanForExtractor(a: nat, b: nat)
    ensures DirectExtraction.CliPageRange(Some(IntToDecimal(a) + "-" + IntToDecimal(b))) == Ok(Some((a - 1, b)))
  {
    var s := IntToDecimal(a) + "-" + IntToDecimal(b);
    NaturalSpan(a, b);
    DirectExtraction.CliPageRangePair(s, a, b);
  }

  /** The argument always names the smallest and the largest page. */
  lemma PageArgMinMax(ps: seq<int>)
    requires |ps| > 0
    ensures PageArg(ps) == Ok(IntToDecimal(SeqMin(ps)) + "-" + IntToDecimal(SeqMax(ps)))
  {
  }

  /** The loop `for i, part in enumerate(parts)`: at the first `page` part
      that has a successor, `int` of that successor, `None` when it is not an
      integer; later parts are not tried. */
  function PageAfterToken(parts: seq<string>): Option<int>
    decreases |parts|
  {
    if |parts| < 2 then None
    else if parts[0] == "page" then ParseInt(parts[1])
    else PageAfterToken(parts[1..])
  }

  /** `extract_page_from_filename`. */
  function PageFromFilename(name: string): (r: Option<int>)
    ensures !Contains(name, "page_") ==> r.None?
  {
    if Contains(name, "page_") then PageAfterToken(Split(name, '_')) else None
  }

  /** For a name starting with `page_`, the first part is `page`, so the
      page is `int` of whatever comes before the next underscore. */
  lemma PageOfPageName(rest: string)
    ensures PageFromFilename("page_" + rest) == ParseInt(Split(rest, '_')[0])
  {
    var name := "page_" + rest;
    assert name[0..5] == "page_";
    ContainsAt(name, "page_", 0);
    assert name == "page" + ['_'] + rest;
    SplitCons("page", '_', rest);
  }

  /** A name written as `page_{p}_...` gives `p` back, whatever follows. */
  lemma PageOfPageFileName(p: int, rest: string)
    ensures PageFromFilename(PageFileName(p, rest)) == Some(p)
  {
    var d := IntToDecimal(p);
    DecimalChars(p);
    SplitCons(d, '_', rest);
    assert PageFileName(p, rest) == "page_" + (d + ['_'] + rest);
    PageOfPageName(d + ['_'] + rest);
    ParseIntOfDecimal(p);
  }

  /** The region names written by region detection give their page back. */
  lemma PageOfRegionFilename(page: int, index: int, hash: string)
    ensures PageFromFilename(Contours.RegionFilename(page, index, hash)) == Some(page)
  {
    PageOfPageFileName(page, "region_" + IntToDecimal(index) + "_" + hash + ".png");
  }

  /** The names written by direct extraction give their page back. */
  lemma PageOfImgFilename(page: int, index: int, hash: string)
    ensures PageFromFilename(DirectExtraction.ImgFilename(page, index, hash)) == Some(page)
  {
    PageOfPageFileName(page, "img_" + IntToDecimal(index) + "_" + hash + ".png");
  }

  /** The page screenshots give their page back. */
  lemma PageOfScreenshotFilename(page: int)
    ensures PageFromFilename(DirectExtraction.ScreenshotFilename(page)) == Some(page)
  {
    PageOfPageFileName(page, "screenshot.png");
  }

  /** `page_89.png`: the part after `page` is `89.png`, which is not an
      integer, so there is no page; later parts are not tried. */
  lemma PageWithExtensionIsNone(digits: string)
    requires |digits| > 0 && AllDigits(digits)
    ensures PageFromFilename("page_" + digits + ".png").None?
  {
    ExtensionTail(digits);
    SplitNone(digits + ".png", '_');
    assert "page_" + digits + ".png" == "page_" + (digits + ".png");
    PageOfPageName(digits + ".png");
  }

  /** `digits.png` has no underscore and is not an integer. */
  lemma ExtensionTail(digits: string)
    requires |digits| > 0 && AllDigits(digits)
    ensures '_' !in digits + ".png"
    ensures ParseInt(digits + ".png").None?
  {
    var tail := digits + ".png";
    assert forall i :: 0 <= i < |tail| ==> tail[i] == '.' || IsDigit(tail[i]) || tail[i] in "png";
    DigitNotSpace(tail[0]);
    StripUnspaced(tail);
    assert tail[|digits|] == '.';
  }

  /** A listed file: its name, the method tag of its directory and its size. */
  datatype Listed = Listed(filename: string, tag: string, sizeBytes: nat)

  /** `if page_num:` keeps a file whose page is present and non-zero. */
  predicate OnPage(f: Listed, p: int)
  {
    p != 0 && PageFromFilename(f.filename) == Some(p)
  }

  /** The grouping loop: each file goes to the end of its page's list. */
  function GroupByPage(files: seq<Listed>): map<int, seq<Listed>>
    decreases |files|
  {
    if |files| == 0 then map[]
    else
      var m := GroupByPage(files[..|files| - 1]);
      var f := files[|files| - 1];
      match PageFromFilename(f.filename)
      case Some(p) =>
        if p != 0 then m[p := (if p in m then m[p] else []) + [f]] else m
      case None => m
  }

  function IsOn(p: int): Listed -> bool { (f: Listed) => OnPage(f, p) }

  /** The files of page `p`, in listing order. */
  function FilesOn(files: seq<Listed>, p: int): seq<Listed>
  {
    Filter(files, IsOn(p))
  }

  lemma FilesOnSnoc(files: seq<Listed>, f: Listed, p: int)
    ensures FilesOn(files + [f], p) == FilesOn(files, p) + (if OnPage(f, p) then [f] else [])
  {
    FilterSnoc(files, f, IsOn(p));
  }

  /** Each page's group is exactly the files on that page, in listing order,
      and a page has a group only when some file is on it. */
  lemma {:induction false} GroupByPageSpec(files: seq<Listed>, p: int)
    ensures p in GroupByPage(files) <==> FilesOn(files, p) != []
    ensures p in GroupByPage(files) ==> GroupByPage(files)[p] == FilesOn(files, p)
    decreases |files|
  {
    if |files| > 0 {
      var init := files[..|files| - 1];
      GroupByPageSpec(init, p);
      assert files == init + [files[|files| - 1]];
      GroupStep(init, files[|files| - 1], p);
    }
  }

  /** One step of the grouping loop keeps the grouping exact for page `p`. */
  lemma GroupStep(init: seq<Listed>, f: Listed, p: int)
    requires p in GroupByPage(init) <==> FilesOn(init, p) != []
    requires p in GroupByPage(init) ==> GroupByPage(init)[p] == FilesOn(init, p)
    ensures p in GroupByPage(init + [f]) <==> FilesOn(init + [f], p) != []
    ensures p in GroupByPage(init + [f]) ==> GroupByPage(init + [f])[p] == FilesOn(init + [f], p)
  {
    GroupUnfold(init, f, p);
    FilesOnSnoc(init, f, p);
  }

  /** The group of page `p` after one more file: that file appended when it
      is on page `p`, unchanged otherwise. */
  lemma GroupUnfold(init: seq<Listed>, f: Listed, p: int)
    ensures var g := GroupByPage(init); var g' := GroupByPage(init + [f]);
      && (p in g' <==> p in g || OnPage(f, p))
      && (p in g' ==> g'[p] == (if p in g then g[p] else []) + (if OnPage(f, p) then [f] else []))
  {
    assert (init + [f])[..|init|] == init;
  }

  /** A file with no page, or page 0, is in no group. */
  lemma PagelessFileDropped(files: seq<Listed>, k: nat, p: int)
    requires k < |files|
    requires PageFromFilename(files[k].filename) in {None, Some(0)}
    ensures p in GroupByPage(files) ==> files[k] !in GroupByPage(files)[p]
  {
    GroupByPageSpec(files, p);
  }

  /** Tags each listed name and size with its directory's method tag. */
  function Tagged(names: seq<(string, nat)>, tag: string): (r: seq<Listed>)
    ensures |r| == |names|
    ensures forall k :: 0 <= k < |r| ==> r[k] == Listed(names[k].0, tag, names[k].1)
  {
    seq(|names|, k requires 0 <= k < |names| => Listed(names[k].0, tag, names[k].1))
  }

  /** `images_by_page` of `collect_extraction_results`: the direct
      extraction directory first, then the detected regions; a missing
      directory contributes nothing. */
  function ImagesByPage(direct: Option<seq<(string, nat)>>, detected: Option<seq<(string, nat)>>): map<int, seq<Listed>>
  {
    var a := if direct.Some? then Tagged(direct.value, "direct_extraction") else [];
    var b := if detected.Some? then Tagged(detected.value, "computer_vision_detection") else [];
    GroupByPage(a + b)
  }

  /** Within a page's group, the direct images come before the detected
      regions, each in listing order. */
  lemma ImagesByPageOrder(direct: seq<(string, nat)>, detected: seq<(string, nat)>, p: int)
    ensures var g := ImagesByPage(Some(direct), Some(detected));
      p in g ==> g[p] == FilesOn(Tagged(direct, "direct_extraction"), p) + FilesOn(Tagged(detected, "computer_vision_detection"), p)
  {
    var a := Tagged(direct, "direct_extraction");
    var b := Tagged(detected, "computer_vision_detection");
    GroupByPageSpec(a + b, p);
    FilterConcat(a, b, IsOn(p));
  }
}

=== FILE: quick_start.dfy ===
/**
 * The quick-start extractor (scripts/quick_start_extraction.py) and its copy
 * under python/scripts/, which differs in one place: its checkbox glyphs were
 * saved through a Mac Roman round trip, so the pattern at line 74 looks for
 * `‚òê` and `‚ñ°` instead of `☐` and `□`.
 */
module QuickStart {
  import opened Basics
  import opened Text
  import opened Regex
  import opened Classifier
  import opened Subjects
  import opened Counting
  import Topics

  /** The checkbox glyphs as the python/scripts copy spells them: the UTF-8
      bytes of U+2610 and U+25A1 read back as Mac Roman. */
  const MisencodedGlyphs: seq<string> := ["\U{201a}\U{f2}\U{ea}", "\U{201a}\U{f1}\U{b0}"]

  /** `QuickQuestionClassifier.classify` of scripts/quick_start_extraction.py:
      the shared table with no image bonus. */
  function QuickClassify(e: Engine, text: string): (r: Detection)
    ensures r.confidence <= 10
    ensures r.kind == Unknown <==> r.confidence == 0
    ensures r.options != [] ==> r.kind == MultipleChoice || r.kind == Sata
  {
    ClassifySound(e, ScoringTable(CheckboxGlyphs), text, 0);
    Classify(e, ScoringTable(CheckboxGlyphs), text, 0)
  }

  /** The quick classifier is the enhanced one on a page without images. */
  lemma QuickIsEnhancedWithoutImages(e: Engine, text: string)
    ensures QuickClassify(e, text) == EnhancedClassify(e, text, false)
  {
    assert ImageBonus(e, text, false) == 0;
  }

  /** The same classifier in python/scripts/quick_start_extraction.py, as
      written there: its checkbox rule carries the misencoded glyphs. */
  function AsWrittenClassify(e: Engine, text: string): (r: Detection)
    ensures r.confidence <= 10
    ensures r.kind == Unknown <==> r.confidence == 0
    ensures r.options != [] ==> r.kind == MultipleChoice || r.kind == Sata
  {
    ClassifySound(e, ScoringTable(MisencodedGlyphs), text, 0);
    Classify(e, ScoringTable(MisencodedGlyphs), text, 0)
  }

  /** A text holding a checkbox glyph scores at least 0.7 for sata, so the
      corrected classifier never calls it unknown. */
  lemma CheckboxCounts(e: Engine, text: string)
    requires AnyContains(text, CheckboxGlyphs)
    ensures RuleScore(e, ScoringTable(CheckboxGlyphs)[1], text) >= 7
    ensures QuickClassify(e, text).kind != Unknown
  {
    var row := ScoringTable(CheckboxGlyphs)[1];
    assert Holds(e, row[3].test, text);
    assert RuleScore(e, row[3..], text) == 7;
    assert RuleScore(e, row[2..], text) >= 7;
    assert RuleScore(e, row[1..], text) >= 7;
    ClassifySound(e, ScoringTable(CheckboxGlyphs), text, 0);
  }

  /** With no regex matching and no glyph present, every type scores 0. */
  lemma NothingScores(e: Engine, glyphs: seq<string>, text: string)
    requires forall p :: !Found(e, p, text)
    requires !AnyContains(text, glyphs)
    ensures forall i :: 0 <= i < |ScoredTypes| ==> RuleScore(e, ScoringTable(glyphs)[i], text) == 0
  {
    var table: seq<seq<Rule>> := ScoringTable(glyphs);
    forall i: nat, j: nat | i < |table| && j < |table[i]| ensures !Holds(e, table[i][j].test, text) {
    }
  }

  lemma FeverHasCheckbox(text: string)
    requires text == "\U{2610} Fever"
    ensures AnyContains(text, CheckboxGlyphs)
    ensures !AnyContains(text, MisencodedGlyphs)
  {
    assert Contains(text, CheckboxGlyphs[0]) by {
      ContainsAt(text, CheckboxGlyphs[0], 0);
    }
    forall i | 0 <= i < |MisencodedGlyphs| ensures !Contains(text, MisencodedGlyphs[i]) {
      if Contains(text, MisencodedGlyphs[i]) {
        ContainsFirstChar(text, MisencodedGlyphs[i]);
        assert false;
      }
    }
  }

  /** A text in which no regex of the table matches and no misencoded
      glyph occurs is unknown to the python/scripts copy, whatever checkbox
      it shows. */
  lemma MisencodedCheckboxMissed(e: Engine, text: string)
    requires forall p :: !Found(e, p, text)
    requires !AnyContains(text, MisencodedGlyphs)
    ensures AsWrittenClassify(e, text).kind == Unknown
  {
    NothingScores(e, MisencodedGlyphs, text);
    ClassifySound(e, ScoringTable(MisencodedGlyphs), text, 0);
  }

  /** With no regex matching, only the glyph rule can score for sata. */
  lemma SataRowScore(e: Engine, text: string)
    requires forall p :: !Found(e, p, text)
    requires AnyContains(text, CheckboxGlyphs)
    ensures RuleScore(e, ScoringTable(CheckboxGlyphs)[1], text) == 7
  {
    var row := ScoringTable(CheckboxGlyphs)[1];
    assert Holds(e, row[3].test, text);
    assert row[3..][1..] == [];
    assert RuleScore(e, row[3..], text) == 7;
    assert row[2..][1..] == row[3..];
    assert RuleScore(e, row[2..], text) == 7;
    assert row[1..][1..] == row[2..];
    assert RuleScore(e, row[1..], text) == 7;
  }

  /** With no regex matching, the types without a glyph rule score 0. */
  lemma OtherRowZero(e: Engine, glyphs: seq<string>, text: string, i: nat)
    requires forall p :: !Found(e, p, text)
    requires i < |ScoredTypes| && i != 1
    ensures RuleScore(e, ScoringTable(glyphs)[i], text) == 0
  {
    var row := ScoringTable(glyphs)[i];
    forall j: nat | j < |row| ensures !Holds(e, row[j].test, text) {
    }
  }

  /** Sata alone scoring 0.7 makes it the winner at 0.7. */
  lemma SataWins(e: Engine, table: seq<seq<Rule>>, text: string)
    requires |table| == |ScoredTypes|
    requires RuleScore(e, table[1], text) == 7
    requires RuleScore(e, table[0], text) == 0
    requires RuleScore(e, table[2], text) == 0
    requires RuleScore(e, table[3], text) == 0
    ensures Classify(e, table, text, 0).kind == Sata && Classify(e, table, text, 0).confidence == 7
  {
    var good := Scores(e, table, text, 0);
    OnlySecond(good);
    ClassifyWinner(e, table, text, 0, 1);
  }

  /** Four scores of which only the second is positive peak there. */
  lemma OnlySecond(s: seq<nat>)
    requires |s| == 4 && s[0] == 0 && s[1] > 0 && s[2] == 0 && s[3] == 0
    ensures FirstMaxAt(s, 1)
  {
  }

  /** A text showing a proper checkbox glyph and matching no regex of the
      table is a sata question at 0.7 for the scripts/ copy. */
  lemma CheckboxReadAsSata(e: Engine, text: string)
    requires forall p :: !Found(e, p, text)
    requires AnyContains(text, CheckboxGlyphs)
    ensures QuickClassify(e, text).kind == Sata && QuickClassify(e, text).confidence == 7
  {
    SataRowScore(e, text);
    OtherRowZero(e, CheckboxGlyphs, text, 0);
    OtherRowZero(e, CheckboxGlyphs, text, 2);
    OtherRowZero(e, CheckboxGlyphs, text, 3);
    SataWins(e, ScoringTable(CheckboxGlyphs), text);
  }

  /** "☐ Fever", on which no regex of the table matches: the scripts/ copy
      reads a sata question at 0.7, the python/scripts copy finds nothing. */
  lemma MojibakeCounterexample(e: Engine, text: string)
    requires text == "\U{2610} Fever"
    requires forall p :: !Found(e, p, text)
    ensures QuickClassify(e, text).kind == Sata && QuickClassify(e, text).confidence == 7
    ensures AsWrittenClassify(e, text).kind == Unknown
  {
    FeverHasCheckbox(text);
    CheckboxReadAsSata(e, text);
    MisencodedCheckboxMissed(e, text);
  }

  /** A quick-start topic: no id and no images. */
  datatype QuickBlock = QuickBlock(
    kind: QuestionType,
    content: string,
    options: seq<string>,
    answer: Option<string>,
    rationale: Option<string>,
    subject: Option<string>,
    page: Option<int>,
    confidence: nat)

  function BlockOf(e: Engine, el: Topics.Element): QuickBlock
  {
    var d := QuickClassify(e, el.text);
    QuickBlock(d.kind, el.text, d.options, d.answer, d.rationale, QuickExtractSubject(e, el.text), el.page, d.confidence)
  }

  /** `_enhance_with_pymupdf`: one block per element with at least 50
      non-blank characters, in element order. */
  function Enhance(e: Engine, elements: seq<Topics.Element>): (r: seq<QuickBlock>)
    ensures var kept := Filter(elements, Topics.Substantial);
      && |r| == |kept|
      && forall k :: 0 <= k < |r| ==> r[k] == BlockOf(e, kept[k])
  {
    var make := (el: Topics.Element, n: nat) => BlockOf(e, el);
    Topics.BuildFromSpec(elements, Topics.Substantial, make, 0);
    Topics.BuildFrom(elements, Topics.Substantial, make, 0)
  }

  datatype QuickReport =
    | NoTopics
    | Report(
        totalTopics: nat,
        validTopics: nat,
        successRate: real,
        distribution: seq<(string, nat)>,
        averageConfidence: real,    // tenths
        minConfidence: nat,
        maxConfidence: nat)

  /** `validate_extraction`. */
  function Validate(blocks: seq<QuickBlock>): (r: QuickReport)
    ensures r.NoTopics? <==> |blocks| == 0
    ensures r.Report? ==>
      && r.totalTopics == |blocks|
      && CountTotal(r.distribution) == r.totalTopics
      && DistinctKeys(r.distribution)
      && (forall n :: HasKey(r.distribution, n) <==> n in Map(blocks, (b: QuickBlock) => TypeName(b.kind)))
      && (forall n :: Get(r.distribution, n) == Occurrences(Map(blocks, (b: QuickBlock) => TypeName(b.kind)), n))
      && r.validTopics == Count(blocks, (b: QuickBlock) => Topics.ValidTopic(b.subject, b.confidence))
      && r.validTopics <= r.totalTopics
      && r.successRate == r.validTopics as real / r.totalTopics as real
      && 0.0 <= r.successRate <= 1.0
      && r.averageConfidence == Sum(Map(blocks, (b: QuickBlock) => b.confidence)) as real / |blocks| as real
      && r.minConfidence in Map(blocks, (b: QuickBlock) => b.confidence) && r.maxConfidence in Map(blocks, (b: QuickBlock) => b.confidence)
      && (forall k :: 0 <= k < |blocks| ==> r.minConfidence <= blocks[k].confidence <= r.maxConfidence)
      && r.minConfidence as real <= r.averageConfidence <= r.maxConfidence as real
  {
    if |blocks| == 0 then NoTopics
    else
      var total := |blocks|;
      var valid := Count(blocks, (b: QuickBlock) => Topics.ValidTopic(b.subject, b.confidence));
      var names := Map(blocks, (b: QuickBlock) => TypeName(b.kind));
      var cs := Map(blocks, (b: QuickBlock) => b.confidence);
      TallySound(names);
      Report(total, valid, Ratio(valid, total), Tally(names), Mean(cs), MinOf(cs), MaxOf(cs))
  }
}

=== FILE: regex.dfy ===
/**
 * The regular expressions of the question classifier and its extractors,
 * named, and the engine that evaluates them taken as a parameter.
 *
 * `Engine(p, text)` stands for `re.search(p, text, flags)` with the flags the
 * source passes: `None` when nothing matches, otherwise the text of group 1
 * of the leftmost match (the whole match for patterns without a group).
 */
module Regex {
  import opened Basics
  import opened Text

  datatype Pattern =
      // scripts/enhanced_image_extraction.py:92-112, the type-scoring table
    | LetterDot        // [A-D]\.\s+[A-Z]
    | LetterParen      // \([A-D]\)\s+[A-Z]
    | WhichFollowing   // (?i)which.*following
    | ChooseCorrect    // (?i)choose.*correct
    | SelectAll        // (?i)select all that apply
    | ChooseAll        // (?i)choose all.*correct
    | MarkAll          // (?i)mark all.*appropriate
    | EmptyBrackets    // \[\s*\]   (the regex part of the checkbox rule)
    | Underscores      // _{3,}
    | Brackets         // \[.*?\]
    | Parens           // \(.*?\)
    | MatchColumn      // (?i)match.*column
    | DragDrop         // (?i)drag.*drop
    | Grid             // (?i)grid
    | TableWord        // (?i)table
      // scripts/enhanced_image_extraction.py:118-124, visual references
    | ShownImage | PictureShows | PhotographDemonstrates | FigureIllustrates
    | SeeImage | ObserveCondition | VisualExamination
      // scripts/enhanced_image_extraction.py:172-174, answer letter
    | CorrectAnswer    // (?i)correct answer:?\s*([A-F])
    | AnswerLabel      // (?i)answer:?\s*([A-F])
    | AnswerIs         // (?i)the answer is\s*([A-F])
      // scripts/enhanced_image_extraction.py:185-187, rationale sentence
    | RationaleLabel   // (?i)rationale:?\s*([^.]+\.)
    | ExplanationLabel // (?i)explanation:?\s*([^.]+\.)
    | BecauseLabel     // (?i)because:?\s*([^.]+\.)
      // scripts/enhanced_image_extraction.py:510-512, subject line
    | SubjectUpper     // SUBJECT[:\s]+([^\n]+)
    | SubjectAny       // (?i)subject[:\s]+([^\n]+)
    | CapsHeading      // ^([A-Z][A-Z\s]{5,50}):
      // scripts/quick_start_extraction.py:258-260, subject line (quick start)
    | QuickSubjectUpper  // SUBJECT:\s*([^\n]+)
    | QuickSubjectAny    // (?i)subject:\s*([^\n]+)
    | QuickCapsHeading   // ^([A-Z][A-Z\s]{10,50}):

  /** `re.search` for the named patterns; see the module comment. */
  type Engine = (Pattern, string) -> Option<string>

  predicate Found(e: Engine, p: Pattern, text: string)
  {
    e(p, text).Some?
  }

  predicate IsAsciiLetter(c: char)
  {
    ('A' <= c <= 'Z') || ('a' <= c <= 'z')
  }

  /** The class `[A-Z]` under IGNORECASE: the 52 ASCII letters and the four
      letters whose case mapping lands among them, 'İ' (U+0130), 'ı' (U+0131),
      'ſ' (U+017F) and the Kelvin sign (U+212A). */
  predicate IsFoldedLetter(c: char)
  {
    IsAsciiLetter(c) || c == '\U{130}' || c == '\U{131}' || c == '\U{17f}' || c == '\U{212a}'
  }

  /** Under IGNORECASE the class `[A-F]` also admits `a`-`f`, and no letter
      outside ASCII folds into it. */
  predicate IsAnswerLetterAnyCase(c: char)
  {
    ('A' <= c <= 'F') || ('a' <= c <= 'f')
  }

  /** What group 1 of each pattern can look like, read off its regex. */
  predicate CaptureShaped(p: Pattern, c: string)
  {
    match p
    case CorrectAnswer | AnswerLabel | AnswerIs =>
      |c| == 1 && IsAnswerLetterAnyCase(c[0])
    case RationaleLabel | ExplanationLabel | BecauseLabel =>
      |c| >= 2 && c[|c| - 1] == '.' && forall i :: 0 <= i < |c| - 1 ==> c[i] != '.'
    case SubjectUpper | SubjectAny | QuickSubjectUpper | QuickSubjectAny =>
      |c| >= 1 && forall i :: 0 <= i < |c| ==> c[i] != '\n'
    case CapsHeading =>
      6 <= |c| <= 51 && IsFoldedLetter(c[0])
      && forall i :: 1 <= i < |c| ==> IsFoldedLetter(c[i]) || IsSpace(c[i])
    case QuickCapsHeading =>
      11 <= |c| <= 51 && IsFoldedLetter(c[0])
      && forall i :: 1 <= i < |c| ==> IsFoldedLetter(c[i]) || IsSpace(c[i])
    case _ => true
  }

  /** An engine that honours the capture groups of the patterns, with the
      flags the source passes (IGNORECASE and MULTILINE for the subject and
      heading searches). */
  ghost predicate Faithful(e: Engine)
  {
    forall p: Pattern, text: string :: e(p, text).Some? ==> CaptureShaped(p, e(p, text).value)
  }

  /** A heading that begins with the Kelvin sign is one the IGNORECASE
      search `^([A-Z][A-Z\s]{5,50}):` can capture. */
  lemma KelvinHeadingShaped()
    ensures CaptureShaped(CapsHeading, "\U{212a}ELVIN SCALE")
    ensures !IsAsciiLetter('\U{212a}')
  {
  }

  /** No pattern among the first `n` matches. */
  predicate NoneFound(e: Engine, pats: seq<Pattern>, text: string, n: nat)
    requires n <= |pats|
  {
    forall j :: 0 <= j < n ==> !Found(e, pats[j], text)
  }

  /** The loop `for pattern in patterns: m = re.search(...); if m: return ...`:
      the index and capture of the first pattern that matches. */
  function FirstCapture(e: Engine, pats: seq<Pattern>, text: string): (r: Option<(nat, string)>)
    ensures r.Some? ==>
      && r.value.0 < |pats|
      && e(pats[r.value.0], text) == Some(r.value.1)
      && NoneFound(e, pats, text, r.value.0)
    ensures r.None? ==> NoneFound(e, pats, text, |pats|)
    decreases |pats|
  {
    if |pats| == 0 then None
    else match e(pats[0], text)
      case Some(c) => Some((0, c))
      case None =>
        match FirstCapture(e, pats[1..], text)
        case None => NoneFoundCons(e, pats, text, |pats| - 1); None
        case Some(hit) => NoneFoundCons(e, pats, text, hit.0); Some((hit.0 + 1, hit.1))
  }

  lemma NoneFoundCons(e: Engine, pats: seq<Pattern>, text: string, n: nat)
    requires n < |pats| && !Found(e, pats[0], text) && NoneFound(e, pats[1..], text, n)
    ensures NoneFound(e, pats, text, n + 1)
  {
    forall j | 0 <= j < n + 1 ensures !Found(e, pats[j], text) {
      if j > 0 {
        assert pats[j] == pats[1..][j - 1];
      }
    }
  }

  /** The first pattern that matches is the one the loop reports. */
  lemma FirstMatchUnique(e: Engine, pats: seq<Pattern>, text: string, j: nat)
    requires j < |pats| && NoneFound(e, pats, text, j) && Found(e, pats[j], text)
    ensures FirstCapture(e, pats, text) == Some((j, e(pats[j], text).value))
  {
    var r := FirstCapture(e, pats, text);
    assert !NoneFound(e, pats, text, |pats|);
    assert r.value.0 >= j;
  }
}

=== FILE: sorting.dfy ===
/**
 * `list.sort(key=..., reverse=True)`: Python's sort is stable, and with
 * `reverse=True` elements of equal key keep their original order. Modelled
 * as an insertion sort over any element type with a real-valued key.
 */
module Sorting {

  /** Non-increasing in the key. */
  predicate SortedDesc<T>(s: seq<T>, key: T -> real)
  {
    forall i, j :: 0 <= i < j < |s| ==> key(s[i]) >= key(s[j])
  }

  /** Places `x` after every element whose key is at least its own, which
      keeps equal keys in arrival order. */
  function Insert<T>(x: T, s: seq<T>, key: T -> real): (r: seq<T>)
    ensures |r| == |s| + 1
    decreases |s|
  {
    if |s| == 0 then [x]
    else if key(s[0]) >= key(x) then [s[0]] + Insert(x, s[1..], key)
    else [x] + s
  }

  lemma {:induction false} InsertMultiset<T>(x: T, s: seq<T>, key: T -> real)
    ensures multiset(Insert(x, s, key)) == multiset(s) + multiset{x}
    decreases |s|
  {
    if |s| > 0 {
      assert s == [s[0]] + s[1..];
      if key(s[0]) >= key(x) {
        InsertMultiset(x, s[1..], key);
      }
    }
  }

  /** Inserting below a bound stays below it. */
  lemma {:induction false} InsertBounded<T>(x: T, s: seq<T>, key: T -> real, t: real)
    requires key(x) <= t && forall k :: 0 <= k < |s| ==> key(s[k]) <= t
    ensures forall k :: 0 <= k < |Insert(x, s, key)| ==> key(Insert(x, s, key)[k]) <= t
    decreases |s|
  {
    if |s| > 0 && key(s[0]) >= key(x) {
      InsertBounded(x, s[1..], key, t);
      var rest := Insert(x, s[1..], key);
      assert Insert(x, s, key) == [s[0]] + rest;
    }
  }

  lemma {:induction false} InsertSorted<T>(x: T, s: seq<T>, key: T -> real)
    requires SortedDesc(s, key)
    ensures SortedDesc(Insert(x, s, key), key)
    decreases |s|
  {
    if |s| > 0 {
      var r := Insert(x, s, key);
      if key(s[0]) >= key(x) {
        var rest := Insert(x, s[1..], key);
        assert r == [s[0]] + rest;
        assert SortedDesc(rest, key) by {
          InsertSorted(x, s[1..], key);
        }
        assert forall k :: 0 <= k < |rest| ==> key(rest[k]) <= key(s[0]) by {
          InsertBounded(x, s[1..], key, key(s[0]));
        }
        forall i, j | 0 <= i < j < |r| ensures key(r[i]) >= key(r[j]) {
          assert r[j] == rest[j - 1];
          if i > 0 {
            assert r[i] == rest[i - 1];
          }
        }
      } else {
        assert r == [x] + s;
        forall i, j | 0 <= i < j < |r| ensures key(r[i]) >= key(r[j]) {
          assert r[j] == s[j - 1];
          if i > 0 {
            assert r[i] == s[i - 1];
          }
        }
      }
    }
  }

  /** The sort itself: a permutation of `s`, non-increasing in the key. */
  function SortDesc<T>(s: seq<T>, key: T -> real): (r: seq<T>)
    ensures |r| == |s| && multiset(r) == multiset(s) && SortedDesc(r, key)
    decreases |s|
  {
    if |s| == 0 then []
    else
      var init := s[..|s| - 1];
      var last := s[|s| - 1];
      var sorted := SortDesc(init, key);
      InsertMultiset(last, sorted, key);
      InsertSorted(last, sorted, key);
      assert s == init + [last];
      Insert(last, sorted, key)
  }

  /** The elements whose key is `v`, in order. */
  function WithKey<T>(s: seq<T>, key: T -> real, v: real): (r: seq<T>)
    ensures |r| <= |s|
    decreases |s|
  {
    if |s| == 0 then []
    else (if key(s[0]) == v then [s[0]] else []) + WithKey(s[1..], key, v)
  }

  lemma {:induction false} WithKeyConcat<T>(a: seq<T>, b: seq<T>, key: T -> real, v: real)
    ensures WithKey(a + b, key, v) == WithKey(a, key, v) + WithKey(b, key, v)
    decreases |a|
  {
    if |a| == 0 {
      assert a + b == b;
    } else {
      var head := if key(a[0]) == v then [a[0]] else [];
      assert (a + b)[1..] == a[1..] + b && (a + b)[0] == a[0];
      assert WithKey(a + b, key, v) == head + WithKey(a[1..] + b, key, v);
      assert WithKey(a, key, v) == head + WithKey(a[1..], key, v);
      WithKeyConcat(a[1..], b, key, v);
    }
  }

  lemma {:induction false} WithKeyNone<T>(s: seq<T>, key: T -> real, v: real)
    requires forall k :: 0 <= k < |s| ==> key(s[k]) < v
    ensures WithKey(s, key, v) == []
    decreases |s|
  {
    if |s| > 0 {
      WithKeyNone(s[1..], key, v);
    }
  }

  /** Inserting `x` into a sorted sequence puts it last among the elements
      of its key. */
  lemma {:induction false} InsertStable<T>(x: T, s: seq<T>, key: T -> real, v: real)
    requires SortedDesc(s, key)
    ensures WithKey(Insert(x, s, key), key, v) == WithKey(s, key, v) + (if key(x) == v then [x] else [])
    decreases |s|
  {
    if |s| == 0 {
      assert Insert(x, s, key) == [x];
      assert WithKey([x], key, v) == (if key(x) == v then [x] else []) + WithKey([], key, v);
    } else if key(s[0]) >= key(x) {
      InsertStable(x, s[1..], key, v);
      assert Insert(x, s, key) == [s[0]] + Insert(x, s[1..], key);
      WithKeyConcat([s[0]], Insert(x, s[1..], key), key, v);
      WithKeyConcat([s[0]], s[1..], key, v);
      assert [s[0]] + s[1..] == s;
    } else {
      assert Insert(x, s, key) == [x] + s;
      WithKeyConcat([x], s, key, v);
      assert WithKey([x], key, v) == (if key(x) == v then [x] else []) + WithKey([], key, v);
      if key(x) == v {
        WithKeyNone(s, key, v);
      }
    }
  }

  /** The sort is stable: the elements of any one key keep their relative
      order. */
  lemma {:induction false} SortStable<T>(s: seq<T>, key: T -> real, v: real)
    ensures WithKey(SortDesc(s, key), key, v) == WithKey(s, key, v)
    decreases |s|
  {
    if |s| > 0 {
      var init := s[..|s| - 1];
      var last := s[|s| - 1];
      var sorted := SortDesc(init, key);
      var tail := if key(last) == v then [last] else [];
      assert SortDesc(s, key) == Insert(last, sorted, key) by {
        assert s[..|s| - 1] == init;
      }
      assert WithKey(sorted, key, v) == WithKey(init, key, v) by {
        SortStable(init, key, v);
      }
      assert WithKey(Insert(last, sorted, key), key, v) == WithKey(sorted, key, v) + tail by {
        InsertStable(last, sorted, key, v);
      }
      assert WithKey(init + [last], key, v) == WithKey(init, key, v) + tail by {
        WithKeyConcat(init, [last], key, v);
        assert WithKey([last], key, v) == tail + WithKey([], key, v);
      }
      assert init + [last] == s;
    }
  }
}

=== FILE: subjects.dfy ===
/**
 * Subject-line extraction: the enhanced extractor's version with its
 * character cleanup and length filter
 * (scripts/enhanced_image_extraction.py:507-523), and the quick-start
 * version, which keeps the first stripped capture as it is
 * (scripts/quick_start_extraction.py:255-267).
 */
module Subjects {
  import opened Basics
  import opened Text
  import opened Regex

  /** `\w` restricted to ASCII: letters, digits and the underscore. */
  predicate IsWordChar(c: char)
  {
    IsAsciiLetter(c) || ('0' <= c <= '9') || c == '_'
  }

  /** The characters `re.sub(r'[^\w\s\'-]', '', s)` keeps. */
  predicate Kept(c: char)
  {
    IsWordChar(c) || IsSpace(c) || c == '\'' || c == '-'
  }

  /** Deletes every character outside `[\w\s'-]`, keeping the rest in order. */
  function Clean(s: string): (r: string)
    ensures |r| <= |s|
    ensures forall i :: 0 <= i < |r| ==> Kept(r[i])
    ensures (forall i :: 0 <= i < |s| ==> Kept(s[i])) ==> r == s
  {
    CleanIdentity(s);
    Filter(s, Kept)
  }

  lemma CleanIdentity(s: string)
    ensures (forall i :: 0 <= i < |s| ==> Kept(s[i])) ==> Filter(s, Kept) == s
  {
    if forall i :: 0 <= i < |s| ==> Kept(s[i]) {
      FilterAll(s, Kept);
    }
  }

  /** The candidate a pattern yields: its capture, stripped and cleaned. */
  function Candidate(e: Engine, p: Pattern, text: string): Option<string>
  {
    match e(p, text)
    case None => None
    case Some(c) => Some(Clean(Strip(c)))
  }

  /** A pattern whose cleaned candidate is long enough to be accepted. */
  predicate Accepted(e: Engine, p: Pattern, text: string)
  {
    Candidate(e, p, text).Some? && |Candidate(e, p, text).value| > 5
  }

  const SubjectPatterns: seq<Pattern> := [SubjectUpper, SubjectAny, CapsHeading]

  /** No pattern among the first `n` yields an accepted candidate. */
  predicate NoneAccepted(e: Engine, pats: seq<Pattern>, text: string, n: nat)
    requires n <= |pats|
  {
    forall j :: 0 <= j < n ==> !Accepted(e, pats[j], text)
  }

  /** The loop over the subject patterns: the index and candidate of the first
      accepted one; a match whose candidate is too short is passed over. */
  function SubjectSearch(e: Engine, pats: seq<Pattern>, text: string): (r: Option<(nat, string)>)
    ensures r.Some? ==>
      && r.value.0 < |pats| && Accepted(e, pats[r.value.0], text)
      && Candidate(e, pats[r.value.0], text) == Some(r.value.1)
      && NoneAccepted(e, pats, text, r.value.0)
    ensures r.None? ==> NoneAccepted(e, pats, text, |pats|)
    decreases |pats|
  {
    if |pats| == 0 then None
    else if Accepted(e, pats[0], text) then Some((0, Candidate(e, pats[0], text).value))
    else match SubjectSearch(e, pats[1..], text)
      case None => NoneAcceptedCons(e, pats, text, |pats| - 1); None
      case Some(hit) => NoneAcceptedCons(e, pats, text, hit.0); Some((hit.0 + 1, hit.1))
  }

  lemma NoneAcceptedCons(e: Engine, pats: seq<Pattern>, text: string, n: nat)
    requires n < |pats| && !Accepted(e, pats[0], text) && NoneAccepted(e, pats[1..], text, n)
    ensures NoneAccepted(e, pats, text, n + 1)
  {
    forall j | 0 <= j < n + 1 ensures !Accepted(e, pats[j], text) {
      if j > 0 {
        assert pats[j] == pats[1..][j - 1];
      }
    }
  }

  /** `_extract_subject` of the enhanced extractor. */
  function ExtractSubject(e: Engine, text: string): (r: Option<string>)
    ensures r.Some? ==> |r.value| > 5 && forall i :: 0 <= i < |r.value| ==> Kept(r.value[i])
    ensures r.None? <==> NoneAccepted(e, SubjectPatterns, text, |SubjectPatterns|)
  {
    match SubjectSearch(e, SubjectPatterns, text)
    case None => None
    case Some(hit) => Some(hit.1)
  }

  /** The subject is the cleaned candidate of the first pattern whose
      candidate is accepted. */
  lemma SubjectOfFirstAccepted(e: Engine, text: string, j: nat)
    requires j < |SubjectPatterns| && NoneAccepted(e, SubjectPatterns, text, j)
    requires Accepted(e, SubjectPatterns[j], text)
    ensures ExtractSubject(e, text) == Candidate(e, SubjectPatterns[j], text)
  {
    var r := SubjectSearch(e, SubjectPatterns, text);
    assert !NoneAccepted(e, SubjectPatterns, text, |SubjectPatterns|);
    assert r.value.0 >= j;
  }

  /** The quick subject is the stripped capture of the first pattern that
      matches. */
  lemma QuickSubjectOfFirstMatch(e: Engine, text: string, j: nat)
    requires j < |QuickSubjectPatterns| && NoneFound(e, QuickSubjectPatterns, text, j)
    requires Found(e, QuickSubjectPatterns[j], text)
    ensures QuickExtractSubject(e, text) == Some(Strip(e(QuickSubjectPatterns[j], text).value))
  {
    FirstMatchUnique(e, QuickSubjectPatterns, text, j);
  }

  /** A first pattern whose candidate is too short does not stop the search:
      the next pattern's candidate is taken. */
  lemma ShortCandidateFallsThrough(e: Engine, text: string)
    requires e(SubjectUpper, text).Some? && !Accepted(e, SubjectUpper, text)
    requires Accepted(e, SubjectAny, text)
    ensures ExtractSubject(e, text) == Candidate(e, SubjectAny, text)
  {
    var r := SubjectSearch(e, SubjectPatterns, text);
    assert r.Some? && r.value.0 == 1;
  }

  const QuickSubjectPatterns: seq<Pattern> := [QuickSubjectUpper, QuickSubjectAny, QuickCapsHeading]

  /** `_extract_subject` of the quick-start extractor: the first capture,
      stripped, with no cleanup and no length filter. */
  function QuickExtractSubject(e: Engine, text: string): (r: Option<string>)
    ensures r.None? <==> NoneFound(e, QuickSubjectPatterns, text, |QuickSubjectPatterns|)
    ensures r.Some? ==>
      exists j :: 0 <= j < |QuickSubjectPatterns| && NoneFound(e, QuickSubjectPatterns, text, j) &&
        (Found(e, QuickSubjectPatterns[j], text) && r.value == Strip(e(QuickSubjectPatterns[j], text).value))
    ensures r.Some? ==> r.value == [] || (!IsSpace(r.value[0]) && !IsSpace(r.value[|r.value| - 1]))
  {
    match FirstCapture(e, QuickSubjectPatterns, text)
    case None => None
    case Some(hit) => Some(Strip(hit.1))
  }

  /** With no length filter, a subject line of blanks gives an empty subject,
      which the enhanced extractor would reject. */
  lemma QuickSubjectMayBeEmpty(e: Engine, text: string)
    requires e(QuickSubjectUpper, text) == Some(" ")
    ensures QuickExtractSubject(e, text) == Some("")
  {
    assert FirstCapture(e, QuickSubjectPatterns, text) == Some((0, " "));
  }
}

=== FILE: tally.dfy ===
/**
 * The counting dictionaries of the validation reports,
 * `counts[k] = counts.get(k, 0) + 1`, and the min / max / mean of a list of
 * scores. A Python dict keeps insertion order, so the counts are a list of
 * (key, count) pairs in first-occurrence order.
 */
module Counting {
  import opened Basics

  /** Whether the dictionary has an entry for `k`. */
  predicate HasKey<K(==)>(t: seq<(K, nat)>, k: K)
    decreases |t|
  {
    |t| > 0 && (t[0].0 == k || HasKey(t[1..], k))
  }

  /** No key has two entries. */
  predicate DistinctKeys<K(==)>(t: seq<(K, nat)>)
    decreases |t|
  {
    |t| == 0 || (!HasKey(t[1..], t[0].0) && DistinctKeys(t[1..]))
  }

  /** `counts.get(k, 0)`. */
  function Get<K(==)>(t: seq<(K, nat)>, k: K): nat
    decreases |t|
  {
    if |t| == 0 then 0 else if t[0].0 == k then t[0].1 else Get(t[1..], k)
  }

  function CountTotal<K>(t: seq<(K, nat)>): nat
  {
    if |t| == 0 then 0 else t[0].1 + CountTotal(t[1..])
  }

  function Occurrences<K(==)>(xs: seq<K>, k: K): (n: nat)
    ensures n <= |xs|
  {
    if |xs| == 0 then 0 else (if xs[0] == k then 1 else 0) + Occurrences(xs[1..], k)
  }

  /** One step of `counts[k] = counts.get(k, 0) + 1`: the entry for `k` is
      updated in place, or appended when there is none. */
  function Bump<K(==)>(t: seq<(K, nat)>, k: K): (r: seq<(K, nat)>)
    decreases |t|
  {
    if |t| == 0 then [(k, 1)]
    else if t[0].0 == k then [(k, t[0].1 + 1)] + t[1..]
    else [t[0]] + Bump(t[1..], k)
  }

  /** The dictionary after counting every element of `xs`, in order. */
  function Tally<K(==)>(xs: seq<K>): (t: seq<(K, nat)>)
    decreases |xs|
  {
    if |xs| == 0 then [] else Bump(Tally(xs[..|xs| - 1]), xs[|xs| - 1])
  }

  lemma {:induction false} BumpTotal<K>(t: seq<(K, nat)>, k: K)
    ensures CountTotal(Bump(t, k)) == CountTotal(t) + 1
    decreases |t|
  {
    if |t| > 0 && t[0].0 != k {
      BumpTotal(t[1..], k);
      assert Bump(t, k)[1..] == Bump(t[1..], k);
    } else if |t| > 0 {
      assert Bump(t, k)[1..] == t[1..];
    }
  }

  /** After the bump, `counts.get(j, 0)` is one more for `k` and unchanged
      for every other key. */
  lemma {:induction false} BumpGet<K>(t: seq<(K, nat)>, k: K, j: K)
    ensures Get(Bump(t, k), j) == Get(t, j) + (if j == k then 1 else 0)
    decreases |t|
  {
    var b := Bump(t, k);
    if |t| == 0 {
      assert b[1..] == [];
    } else if t[0].0 == k {
      assert b[1..] == t[1..];
    } else {
      assert b[1..] == Bump(t[1..], k);
      BumpGet(t[1..], k, j);
    }
  }

  /** The bumped dictionary has the old keys and `k`. */
  lemma {:induction false} BumpHasKey<K>(t: seq<(K, nat)>, k: K, j: K)
    ensures HasKey(Bump(t, k), j) <==> HasKey(t, j) || j == k
    decreases |t|
  {
    var b := Bump(t, k);
    if |t| == 0 {
      assert b[1..] == [];
    } else if t[0].0 == k {
      assert b[1..] == t[1..];
    } else {
      assert b[1..] == Bump(t[1..], k);
      BumpHasKey(t[1..], k, j);
    }
  }

  /** Bumping never creates a second entry for a key. */
  lemma {:induction false} BumpDistinct<K>(t: seq<(K, nat)>, k: K)
    requires DistinctKeys(t)
    ensures DistinctKeys(Bump(t, k))
    decreases |t|
  {
    var b := Bump(t, k);
    if |t| == 0 {
      assert b[1..] == [];
    } else if t[0].0 == k {
      assert b[1..] == t[1..];
    } else {
      assert b[1..] == Bump(t[1..], k);
      BumpDistinct(t[1..], k);
      BumpHasKey(t[1..], k, t[0].0);
    }
  }

  /** The tally has one entry per distinct element of `xs`, `counts.get(x, 0)`
      is the number of occurrences of `x`, and the counts add up to the
      length of the input. */
  lemma {:induction false} TallySound<K>(xs: seq<K>)
    ensures DistinctKeys(Tally(xs))
    ensures forall x :: HasKey(Tally(xs), x) <==> x in xs
    ensures forall x :: Get(Tally(xs), x) == Occurrences(xs, x)
    ensures CountTotal(Tally(xs)) == |xs|
    decreases |xs|
  {
    if |xs| > 0 {
      var init := xs[..|xs| - 1];
      var k := xs[|xs| - 1];
      var t := Tally(init);
      TallySound(init);
      BumpTotal(t, k);
      BumpDistinct(t, k);
      assert xs == init + [k];
      forall x ensures HasKey(Bump(t, k), x) <==> x in xs {
        BumpHasKey(t, k, x);
        assert x in xs <==> x in init || x == k;
      }
      forall x ensures Get(Bump(t, k), x) == Occurrences(xs, x) {
        BumpGet(t, k, x);
        OccurrencesSnoc(init, k, x);
      }
    }
  }

  lemma {:induction false} OccurrencesSnoc<K>(xs: seq<K>, k: K, j: K)
    ensures Occurrences(xs + [k], j) == Occurrences(xs, j) + (if k == j then 1 else 0)
    decreases |xs|
  {
    if |xs| == 0 {
      assert (xs + [k])[1..] == [];
    } else {
      assert (xs + [k])[1..] == xs[1..] + [k];
      OccurrencesSnoc(xs[1..], k, j);
    }
  }

  /** `min(xs)` and `max(xs)` of a non-empty list. */
  function MinOf(xs: seq<nat>): (m: nat)
    requires |xs| > 0
    ensures m in xs && forall i :: 0 <= i < |xs| ==> m <= xs[i]
  {
    if |xs| == 1 then xs[0]
    else var r := MinOf(xs[1..]); if xs[0] <= r then xs[0] else r
  }

  function MaxOf(xs: seq<nat>): (m: nat)
    requires |xs| > 0
    ensures m in xs && forall i :: 0 <= i < |xs| ==> xs[i] <= m
  {
    if |xs| == 1 then xs[0]
    else var r := MaxOf(xs[1..]); if xs[0] >= r then xs[0] else r
  }

  function Sum(xs: seq<nat>): nat
  {
    if |xs| == 0 then 0 else xs[0] + Sum(xs[1..])
  }

  /** The sum lies between `|xs|` times the minimum and `|xs|` times the
      maximum, so the mean lies between the two. */
  lemma {:induction false} SumBetween(xs: seq<nat>, lo: nat, hi: nat)
    requires forall i :: 0 <= i < |xs| ==> lo <= xs[i] <= hi
    ensures |xs| * lo <= Sum(xs) <= |xs| * hi
    decreases |xs|
  {
    if |xs| > 0 {
      var n := |xs| - 1;
      SumBetween(xs[1..], lo, hi);
      assert |xs| * lo == n * lo + lo && |xs| * hi == n * hi + hi;
    }
  }

  /** `sum(xs) / len(xs)` over the reals, which lies between the minimum
      and the maximum. */
  function Mean(xs: seq<nat>): (m: real)
    requires |xs| > 0
    ensures m == Sum(xs) as real / |xs| as real
    ensures MinOf(xs) as real <= m <= MaxOf(xs) as real
  {
    SumBetween(xs, MinOf(xs), MaxOf(xs));
    MeanBounds(Sum(xs), |xs|, MinOf(xs), MaxOf(xs));
    Sum(xs) as real / |xs| as real
  }

  lemma MeanBounds(s: nat, n: nat, lo: nat, hi: nat)
    requires n > 0 && n * lo <= s <= n * hi
    ensures lo as real <= s as real / n as real <= hi as real
  {
    assert (n * lo) as real == n as real * lo as real;
    assert (n * hi) as real == n as real * hi as real;
  }

  /** `part / whole` for a part of a non-empty whole, which lies in
      [0, 1]. */
  function Ratio(part: nat, whole: nat): (r: real)
    requires 0 < whole && part <= whole
    ensures r == part as real / whole as real
    ensures 0.0 <= r <= 1.0
  {
    RatioBounds(part, whole);
    part as real / whole as real
  }

  lemma RatioBounds(part: nat, whole: nat)
    requires 0 < whole && part <= whole
    ensures 0.0 <= part as real / whole as real <= 1.0
  {
    assert part as real <= whole as real;
  }
}

=== FILE: text.dfy ===
/**
 * The handful of Python string operations the scripts rely on, written out:
 * whitespace (`str.isspace`), `strip`, ASCII `lower`, the `in` substring test,
 * `split(sep)` with its inverse `join`, `endswith` and `replace`.
 */
module Text {

  /** Characters for which Python's `str.isspace()` holds (and which `\s`
      matches in a `str` pattern). */
  predicate IsSpace(c: char)
  {
    || c == ' '
    || ('\U{9}' <= c <= '\U{d}')
    || ('\U{1c}' <= c <= '\U{1f}')
    || c == '\U{85}' || c == '\U{a0}' || c == '\U{1680}'
    || ('\U{2000}' <= c <= '\U{200a}')
    || c == '\U{2028}' || c == '\U{2029}' || c == '\U{202f}'
    || c == '\U{205f}' || c == '\U{3000}'
  }

  predicate NoSpace(s: string)
  {
    forall i :: 0 <= i < |s| ==> !IsSpace(s[i])
  }

  /** `s.lstrip()`: drops the leading whitespace and nothing else. */
  function LStrip(s: string): (r: string)
    ensures |r| <= |s| && r == s[|s| - |r|..]
    ensures r == [] || !IsSpace(r[0])
    ensures forall i :: 0 <= i < |s| - |r| ==> IsSpace(s[i])
  {
    if |s| > 0 && IsSpace(s[0]) then LStrip(s[1..]) else s
  }

  /** `s.rstrip()`: drops the trailing whitespace and nothing else. */
  function RStrip(s: string): (r: string)
    ensures |r| <= |s| && r == s[..|r|]
    ensures r == [] || !IsSpace(r[|r| - 1])
    ensures forall i :: |r| <= i < |s| ==> IsSpace(s[i])
  {
    if |s| > 0 && IsSpace(s[|s| - 1]) then RStrip(s[..|s| - 1]) else s
  }

  /** `s.strip()`. */
  function Strip(s: string): (r: string)
    ensures |r| <= |s|
    ensures r == [] || (!IsSpace(r[0]) && !IsSpace(r[|r| - 1]))
  {
    RStrip(LStrip(s))
  }

  /** Stripping a string that has no surrounding whitespace changes nothing. */
  lemma StripUnspaced(s: string)
    requires s == [] || (!IsSpace(s[0]) && !IsSpace(s[|s| - 1]))
    ensures Strip(s) == s
  {
  }

  /** When the last character is not whitespace, `strip` removes only a
      whitespace prefix: the result is a suffix of `s`. */
  lemma StripKeepsSuffix(s: string)
    requires |s| > 0 && !IsSpace(s[|s| - 1])
    ensures |Strip(s)| > 0 && Strip(s) == s[|s| - |Strip(s)|..]
    ensures forall i :: 0 <= i < |s| - |Strip(s)| ==> IsSpace(s[i])
  {
    var l := LStrip(s);
    assert l[|l| - 1] == s[|s| - 1];
    assert RStrip(l) == l;
  }

  /** ASCII lower-casing of one character. */
  function LowerChar(c: char): char
  {
    if 'A' <= c <= 'Z' then (c as int + 32) as char else c
  }

  /** `s.lower()`, restricted to ASCII letters. */
  function Lower(s: string): (r: string)
    ensures |r| == |s|
    ensures forall i :: 0 <= i < |s| ==> r[i] == LowerChar(s[i])
  {
    seq(|s|, i requires 0 <= i < |s| => LowerChar(s[i]))
  }

  /** Python's `sub in s`. */
  predicate Contains(s: string, sub: string)
    decreases |s|
  {
    (|sub| <= |s| && s[..|sub|] == sub) || (|s| > 0 && Contains(s[1..], sub))
  }

  /** `sub in s` holds exactly when `sub` occurs at some offset of `s`. */
  lemma {:induction false} ContainsAt(s: string, sub: string, i: nat)
    requires i + |sub| <= |s| && s[i..i + |sub|] == sub
    ensures Contains(s, sub)
    decreases i
  {
    if i > 0 {
      assert s[1..][i - 1..i - 1 + |sub|] == s[i..i + |sub|];
      ContainsAt(s[1..], sub, i - 1);
    }
  }

  /** A substring of `s` that is an occurrence found by `Contains` is made of
      characters of `s`. */
  lemma {:induction false} ContainsChar(s: string, c: char)
    ensures Contains(s, [c]) <==> c in s
    decreases |s|
  {
    if |s| > 0 {
      ContainsChar(s[1..], c);
      assert c in s <==> c == s[0] || c in s[1..];
    }
  }

  /** An occurrence of a non-empty `sub` starts with a character of `s`. */
  lemma {:induction false} ContainsFirstChar(s: string, sub: string)
    requires |sub| > 0 && Contains(s, sub)
    ensures sub[0] in s
    decreases |s|
  {
    if !(|sub| <= |s| && s[..|sub|] == sub) {
      ContainsFirstChar(s[1..], sub);
    } else {
      assert s[0] == sub[0];
    }
  }

  /** `s.endswith(suffix)`. */
  predicate EndsWith(s: string, suffix: string)
  {
    |suffix| <= |s| && s[|s| - |suffix|..] == suffix
  }

  /** `s.split(sep)` with a one-character separator: every piece, empty ones
      included. */
  function Split(s: string, sep: char): (r: seq<string>)
    ensures |r| >= 1
    ensures |r| == 1 <==> sep !in s
    ensures forall k :: 0 <= k < |r| ==> sep !in r[k]
    decreases |s|
  {
    if |s| == 0 then [""]
    else if s[0] == sep then [""] + Split(s[1..], sep)
    else
      var t := Split(s[1..], sep);
      [[s[0]] + t[0]] + t[1..]
  }

  /** `sep.join(parts)`. */
  function Join(parts: seq<string>, sep: char): string
    requires |parts| >= 1
    decreases |parts|
  {
    if |parts| == 1 then parts[0] else parts[0] + [sep] + Join(parts[1..], sep)
  }

  /** Splitting and joining back is the identity. */
  lemma {:induction false} JoinSplit(s: string, sep: char)
    ensures Join(Split(s, sep), sep) == s
    decreases |s|
  {
    if |s| > 0 {
      var t := Split(s[1..], sep);
      JoinSplit(s[1..], sep);
      if s[0] != sep {
        if |t| == 1 {
          assert s == [s[0]] + s[1..];
        } else {
          assert Join([[s[0]] + t[0]] + t[1..], sep) == [s[0]] + t[0] + [sep] + Join(t[1..], sep);
          assert Join(t, sep) == t[0] + [sep] + Join(t[1..], sep);
          assert s == [s[0]] + s[1..];
        }
      } else {
        assert s == [sep] + s[1..];
      }
    }
  }

  /** Splitting a string built from a separator-free head: the head is the
      first piece and the rest is split on its own. */
  lemma {:induction false} SplitCons(head: string, sep: char, rest: string)
    requires sep !in head
    ensures Split(head + [sep] + rest, sep) == [head] + Split(rest, sep)
    decreases |head|
  {
    if |head| == 0 {
      assert head + [sep] + rest == [sep] + rest;
      assert ([sep] + rest)[1..] == rest;
    } else {
      var s := head + [sep] + rest;
      assert s[0] == head[0];
      assert s[1..] == head[1..] + [sep] + rest;
      SplitCons(head[1..], sep, rest);
      assert [head[0]] + head[1..] == head;
    }
  }

  /** A string without the separator splits into itself alone. */
  lemma {:induction false} SplitNone(s: string, sep: char)
    requires sep !in s
    ensures Split(s, sep) == [s]
    decreases |s|
  {
    if |s| > 0 {
      SplitNone(s[1..], sep);
      assert [s[0]] + s[1..] == s;
    }
  }

  /** Two separator-free pieces joined by the separator split back into the
      two. */
  lemma SplitPair(x: string, sep: char, y: string)
    requires sep !in x && sep !in y
    ensures Split(x + [sep] + y, sep) == [x, y]
    ensures sep in x + [sep] + y
  {
    SplitCons(x, sep, y);
    SplitNone(y, sep);
    assert (x + [sep] + y)[|x|] == sep;
  }

  /** The last piece after a separator is whatever follows the last separator. */
  lemma {:induction false} SplitLast(head: string, sep: char, tail: string)
    requires sep !in tail
    ensures var r := Split(head + [sep] + tail, sep); r[|r| - 1] == tail
    decreases |head|
  {
    if |head| == 0 {
      assert head + [sep] + tail == [sep] + tail;
      assert ([sep] + tail)[1..] == tail;
      SplitNone(tail, sep);
    } else {
      var s := head + [sep] + tail;
      assert s[1..] == head[1..] + [sep] + tail;
      SplitLast(head[1..], sep, tail);
    }
  }

  /** `s.replace(pat, rep)` for a non-empty `pat`: left-to-right,
      non-overlapping occurrences. */
  function Replace(s: string, pat: string, rep: string): string
    requires |pat| > 0
    decreases |s|
  {
    if |s| < |pat| then s
    else if s[..|pat|] == pat then rep + Replace(s[|pat|..], pat, rep)
    else [s[0]] + Replace(s[1..], pat, rep)
  }

  /** Replacing something that does not occur leaves the string unchanged. */
  lemma {:induction false} ReplaceAbsent(s: string, pat: string, rep: string)
    requires |pat| > 0 && !Contains(s, pat)
    ensures Replace(s, pat, rep) == s
    decreases |s|
  {
    if |s| >= |pat| {
      ReplaceAbsent(s[1..], pat, rep);
      assert [s[0]] + s[1..] == s;
    }
  }
}

=== FILE: text_cli.dfy ===
/**
 * The text-extraction command line (python/scripts/extract_text_cli.py):
 * the page filter and type naming applied to the elements unstructured.io
 * returns, one status record per requested page, and the success / error
 * summary. The page range is parsed by `PageRanges.ParsePageRange`, which
 * this file's `parse_page_range` (lines 28-34) repeats word for word.
 * `partition_pdf` is not modelled: its outcome for each page is a parameter.
 */
module TextCli {
  import opened Basics
  import opened Text
  import opened Decimal
  import PageRanges

  /** An element as `partition_pdf` returns it: the `repr` of its class, its
      text, and the page number its metadata gives, if any. */
  datatype Element = Element(classRepr: string, text: string, page: Option<int>)

  /** One entry of a page's `content` list (metadata left out). */
  datatype Item = Item(typeName: string, text: string)

  /** `str(type(element)).split(".")[-1].replace("'>", "")`. */
  function TypeName(classRepr: string): string
  {
    var parts := Split(classRepr, '.');
    Replace(parts[|parts| - 1], "'>", "")
  }

  /** Replacing with nothing never brings in a character. */
  lemma {:induction false} ReplaceKeepsOut(s: string, pat: string, rep: string, c: char)
    requires |pat| > 0 && c !in s && c !in rep
    ensures c !in Replace(s, pat, rep)
    decreases |s|
  {
    if |s| >= |pat| {
      if s[..|pat|] == pat {
        ReplaceKeepsOut(s[|pat|..], pat, rep, c);
      } else {
        ReplaceKeepsOut(s[1..], pat, rep, c);
      }
    }
  }

  /** Dropping a trailing `'>` from a name without quotes. */
  lemma {:induction false} DropReprTail(name: string)
    requires '\'' !in name
    ensures Replace(name + "'>", "'>", "") == name
    decreases |name|
  {
    var s := name + "'>";
    if |name| == 0 {
      assert s == "'>";
    } else {
      assert s[0] == name[0];
      assert s[1..] == name[1..] + "'>";
      DropReprTail(name[1..]);
      assert [name[0]] + name[1..] == name;
    }
  }

  /** The type name of `<class 'pkg.mod.Name'>` is `Name`. */
  lemma ClassReprName(qualifier: string, name: string)
    requires '.' !in name && '\'' !in name && '>' !in name
    ensures TypeName("<class '" + qualifier + "." + name + "'>") == name
  {
    var repr := "<class '" + qualifier + "." + name + "'>";
    assert repr == ("<class '" + qualifier) + ['.'] + (name + "'>");
    SplitLast("<class '" + qualifier, '.', name + "'>");
    DropReprTail(name);
  }

  /** A type name never holds a dot. */
  lemma TypeNameHasNoDot(classRepr: string)
    ensures '.' !in TypeName(classRepr)
  {
    var parts := Split(classRepr, '.');
    ReplaceKeepsOut(parts[|parts| - 1], "'>", "", '.');
  }

  /** Whether an element survives the filter for `page`: its page is unknown
      or is `page`. */
  predicate Wanted(el: Element, page: int)
  {
    el.page.None? || el.page.value == page
  }

  function ItemOf(el: Element): Item
  {
    Item(TypeName(el.classRepr), el.text)
  }

  /** The `content` list built for `page` from the partitioned elements. */
  function PageContent(elements: seq<Element>, page: int): seq<Item>
  {
    MapFilter(elements, (el: Element) => Wanted(el, page), ItemOf)
  }

  /** Appending an element appends its item exactly when it is wanted: the
      filter keeps the elements' order. */
  lemma PageContentSnoc(elements: seq<Element>, el: Element, page: int)
    ensures PageContent(elements + [el], page) ==
      PageContent(elements, page) + (if Wanted(el, page) then [ItemOf(el)] else [])
  {
    MapFilterSnoc(elements, el, (e: Element) => Wanted(e, page), ItemOf);
  }

  /** Exactly the wanted elements contribute: each wanted element's item is
      there, and every item comes from a wanted element, so nothing from
      another known page gets in. */
  lemma PageContentSource(elements: seq<Element>, page: int, k: nat) returns (i: nat)
    requires k < |PageContent(elements, page)|
    ensures i < |elements| && Wanted(elements[i], page)
    ensures PageContent(elements, page)[k] == ItemOf(elements[i])
  {
    i := MapFilterSource(elements, (e: Element) => Wanted(e, page), ItemOf, k);
  }

  lemma PageContentKeeps(elements: seq<Element>, page: int, i: nat)
    requires i < |elements| && Wanted(elements[i], page)
    ensures ItemOf(elements[i]) in PageContent(elements, page)
  {
    MapFilterKeeps(elements, (e: Element) => Wanted(e, page), ItemOf, i);
  }

  /** When every element's page is known and none is `page`, the page is
      empty. */
  lemma OtherPagesOnly(elements: seq<Element>, page: int)
    requires forall i :: 0 <= i < |elements| ==> elements[i].page.Some? && elements[i].page.value != page
    ensures PageContent(elements, page) == []
  {
    MapFilterNone(elements, (e: Element) => Wanted(e, page), ItemOf);
  }

  /** The `RuntimeError` message of `extract_page_content_unstructured`. */
  function ContentFailure(page: int, e: string): string
  {
    "Failed to extract content from page " + IntToDecimal(page) + ": " + e
  }

  /** The `error` of a failed page record. */
  function PageFailure(page: int, e: string): string
  {
    "Failed to extract from PDF page " + IntToDecimal(page) + ": " + e
  }

  /** `extract_page_content_unstructured`: the elements of the page, or the
      `RuntimeError` message wrapping what `partition_pdf` raised. */
  function ExtractPageContent(partition: Result<seq<Element>, string>, page: int): Result<seq<Item>, string>
  {
    match partition
    case Ok(elements) => Ok(PageContent(elements, page))
    case Err(e) => Err(ContentFailure(page, e))
  }

  datatype Status = Success | Failure

  /** The record stored under `results[pdf_page]`. */
  datatype PageRecord = PageRecord(pdfPage: int, content: Option<seq<Item>>, status: Status, error: Option<string>)

  /** The record of one page, given what partitioning the PDF for it gives. */
  function RecordFor(page: int, partition: Result<seq<Element>, string>): (r: PageRecord)
    ensures r.pdfPage == page
    ensures r.status == Success <==> partition.Ok?
    ensures partition.Ok? ==> r.content == Some(PageContent(partition.value, page)) && r.error.None?
    ensures partition.Err? ==>
      r.content.None? && r.error == Some(PageFailure(page, ContentFailure(page, partition.error)))
  {
    match ExtractPageContent(partition, page)
    case Ok(content) => PageRecord(page, Some(content), Success, None)
    case Err(e) => PageRecord(page, None, Failure, Some(PageFailure(page, e)))
  }

  /** The `results` dictionary, in insertion order. */
  type Results = seq<(int, PageRecord)>

  /** `results[k]`, if present. */
  function Lookup(d: Results, k: int): Option<PageRecord>
    decreases |d|
  {
    if |d| == 0 then None else if d[0].0 == k then Some(d[0].1) else Lookup(d[1..], k)
  }

  /** `results[k] = v`: an existing entry is overwritten where it stands,
      a new key goes at the end. */
  function Put(d: Results, k: int, v: PageRecord): Results
    decreases |d|
  {
    if |d| == 0 then [(k, v)]
    else if d[0].0 == k then [(k, v)] + d[1..]
    else [d[0]] + Put(d[1..], k, v)
  }

  lemma {:induction false} PutLookup(d: Results, k: int, v: PageRecord, j: int)
    ensures Lookup(Put(d, k, v), j) == if j == k then Some(v) else Lookup(d, j)
    decreases |d|
  {
    var r := Put(d, k, v);
    if |d| == 0 {
      assert r[1..] == [];
    } else if d[0].0 == k {
      assert r[1..] == d[1..];
    } else {
      assert r[1..] == Put(d[1..], k, v);
      PutLookup(d[1..], k, v, j);
    }
  }

  /** A key not yet present is appended. */
  lemma {:induction false} PutNew(d: Results, k: int, v: PageRecord)
    requires Lookup(d, k).None?
    ensures Put(d, k, v) == d + [(k, v)]
    decreases |d|
  {
    if |d| > 0 {
      PutNew(d[1..], k, v);
      assert d == [d[0]] + d[1..];
    }
  }

  /** The loop of `extract_text_content` over the requested pages. */
  function Collect(pages: seq<int>, partition: int -> Result<seq<Element>, string>): Results
    decreases |pages|
  {
    if |pages| == 0 then []
    else
      var p := pages[|pages| - 1];
      Put(Collect(pages[..|pages| - 1], partition), p, RecordFor(p, partition(p)))
  }

  /** Every requested page has its record and no other page has one. */
  lemma {:induction false} CollectLookup(pages: seq<int>, partition: int -> Result<seq<Element>, string>, p: int)
    ensures Lookup(Collect(pages, partition), p) == if p in pages then Some(RecordFor(p, partition(p))) else None
    decreases |pages|
  {
    if |pages| > 0 {
      var init := pages[..|pages| - 1];
      var last := pages[|pages| - 1];
      CollectLookup(init, partition, p);
      PutLookup(Collect(init, partition), last, RecordFor(last, partition(last)), p);
      assert pages == init + [last];
    }
  }

  predicate NoRepeats(pages: seq<int>)
  {
    forall i, j :: 0 <= i < j < |pages| ==> pages[i] != pages[j]
  }

  /** Pages each named once give one record per page, in request order. */
  lemma {:induction false} CollectInOrder(pages: seq<int>, partition: int -> Result<seq<Element>, string>)
    requires NoRepeats(pages)
    ensures var r := Collect(pages, partition);
      && |r| == |pages|
      && forall k :: 0 <= k < |r| ==> r[k] == (pages[k], RecordFor(pages[k], partition(pages[k])))
    decreases |pages|
  {
    if |pages| > 0 {
      var init := pages[..|pages| - 1];
      var last := pages[|pages| - 1];
      forall i, j | 0 <= i < j < |init| ensures init[i] != init[j] {
        assert init[i] == pages[i] && init[j] == pages[j];
      }
      forall i | 0 <= i < |init| ensures init[i] != last {
        assert init[i] == pages[i];
      }
      CollectInOrder(init, partition);
      CollectLookup(init, partition, last);
      var r := Collect(pages, partition);
      var rec := (last, RecordFor(last, partition(last)));
      assert r == Collect(init, partition) + [rec] by {
        PutNew(Collect(init, partition), last, rec.1);
      }
      forall k | 0 <= k < |r| ensures r[k] == (pages[k], RecordFor(pages[k], partition(pages[k]))) {
        if k < |init| {
          assert pages[k] == init[k];
        }
      }
    }
  }

  /** A parsed page range names each page once. */
  lemma ParsedPagesUnrepeated(s: string)
    requires PageRanges.ParsePageRange(s).Some?
    ensures NoRepeats(PageRanges.ParsePageRange(s).value)
  {
    PageRanges.ParsedIsConsecutive(s);
  }

  /** `extract_text_content`: a missing PDF raises `FileNotFoundError`
      before any page is looked at. */
  function ExtractTextContent(pdfPath: string, pdfExists: bool, pages: seq<int>,
                              partition: int -> Result<seq<Element>, string>): (r: Result<Results, string>)
    ensures r.Err? <==> !pdfExists
    ensures r.Err? ==> r.error == "PDF file not found: " + pdfPath
  {
    if !pdfExists then Err("PDF file not found: " + pdfPath) else Ok(Collect(pages, partition))
  }

  predicate Succeeded(entry: (int, PageRecord))
  {
    entry.1.status == Success
  }

  /** The summary of `main`: the successes counted, and the errors as the
      remainder. */
  function Summary(results: Results): (counts: (nat, nat))
  {
    var ok := Count(results, Succeeded);
    (ok, |results| - ok)
  }

  /** The remainder is exactly the number of error records. */
  lemma SummaryCountsErrors(results: Results)
    ensures Summary(results).1 == Count(results, (e: (int, PageRecord)) => !Succeeded(e))
    ensures Summary(results).0 + Summary(results).1 == |results|
  {
    CountComplement(results, Succeeded);
  }

  /** With pages named once, the successes are the pages whose partitioning
      succeeded. */
  lemma {:induction false} SuccessesArePartitioned(pages: seq<int>, partition: int -> Result<seq<Element>, string>)
    requires NoRepeats(pages)
    ensures Summary(Collect(pages, partition)).0 == Count(pages, (p: int) => partition(p).Ok?)
  {
    CollectInOrder(pages, partition);
    CountRecords(pages, partition, Collect(pages, partition));
  }

  lemma {:induction false} CountRecords(pages: seq<int>, partition: int -> Result<seq<Element>, string>, r: Results)
    requires |r| == |pages|
    requires forall k :: 0 <= k < |r| ==> r[k] == (pages[k], RecordFor(pages[k], partition(pages[k])))
    ensures Count(r, Succeeded) == Count(pages, (p: int) => partition(p).Ok?)
    decreases |pages|
  {
    if |pages| > 0 {
      CountRecords(pages[1..], partition, r[1..]);
    }
  }

  /** `main`: exit code 1 when the range does not parse or the PDF is
      missing, the results otherwise. */
  function Main(arg: string, pdfPath: string, pdfExists: bool,
                partition: int -> Result<seq<Element>, string>): (r: Result<Results, int>)
    ensures r.Err? ==> r.error == 1
    ensures r.Err? <==> PageRanges.ParsePageRange(arg).None? || !pdfExists
  {
    match PageRanges.ParsePageRange(arg)
    case None => Err(1)
    case Some(pages) =>
      match ExtractTextContent(pdfPath, pdfExists, pages, partition)
      case Err(_) => Err(1)
      case Ok(results) => Ok(results)
  }

  /** A run that gets going records every requested page once, in order. */
  lemma MainRecordsEveryPage(arg: string, pdfPath: string, partition: int -> Result<seq<Element>, string>)
    requires PageRanges.ParsePageRange(arg).Some?
    ensures var pages := PageRanges.ParsePageRange(arg).value;
      var r := Main(arg, pdfPath, true, partition);
      && r.Ok? && |r.value| == |pages|
      && forall k :: 0 <= k < |pages| ==> r.value[k] == (pages[k], RecordFor(pages[k], partition(pages[k])))
  {
    var pages := PageRanges.ParsePageRange(arg).value;
    ParsedPagesUnrepeated(arg);
    CollectInOrder(pages, partition);
  }
}

=== FILE: text_mask.dfy ===
/**
 * The text-suppression step of region detection
 * (python/scripts/extract_images_comprehensive.py:179-211): the OCR word
 * boxes worth masking, and the mask that blanks them out. Tesseract itself is
 * not modelled; its per-word table is the input.
 */
module TextMask {
  import opened Basics
  import opened Decimal

  /** A confidence cell of Tesseract's table, as `int()` receives it. */
  datatype Conf = Whole(n: int) | Fraction(x: real) | Numeral(s: string)

  /** Truncation toward zero, what `int()` does to a float. */
  function Trunc(x: real): (n: int)
    ensures x >= 0.0 ==> n as real <= x < n as real + 1.0
    ensures x < 0.0 ==> n as real - 1.0 < x <= n as real
  {
    if x >= 0.0 then x.Floor else -((-x).Floor)
  }

  /** `int(conf)`: None where it raises. */
  function IntOf(c: Conf): Option<int>
  {
    match c
    case Whole(n) => Some(n)
    case Fraction(x) => Some(Trunc(x))
    case Numeral(s) => ParseInt(s)
  }

  /** One word of the table: its confidence and bounding box. */
  datatype OcrRow = OcrRow(conf: Conf, left: int, top: int, width: int, height: int)

  /** A text box `(x, y, w, h)`. */
  datatype Box = Box(x: int, y: int, w: int, h: int)

  const MinConfidence := 30
  const MinBoxSide := 10

  predicate Readable(row: OcrRow)
  {
    IntOf(row.conf).Some?
  }

  /** A word read with confidence above 30 whose box exceeds 10 px each way. */
  predicate Confident(row: OcrRow)
  {
    && IntOf(row.conf).Some? && IntOf(row.conf).value > MinConfidence
    && row.width > MinBoxSide && row.height > MinBoxSide
  }

  function BoxOf(row: OcrRow): Box
  {
    Box(row.left, row.top, row.width, row.height)
  }

  /** The boxes of the confident words, in table order. */
  function ConfidentBoxes(rows: seq<OcrRow>): (r: seq<Box>)
    decreases |rows|
  {
    if |rows| == 0 then []
    else
      var last := rows[|rows| - 1];
      ConfidentBoxes(rows[..|rows| - 1]) + (if Confident(last) then [BoxOf(last)] else [])
  }

  /** The `k`-th box kept comes from a confident word. */
  lemma {:induction false} ConfidentBoxSource(rows: seq<OcrRow>, k: nat) returns (i: nat)
    requires k < |ConfidentBoxes(rows)|
    ensures i < |rows| && Confident(rows[i]) && ConfidentBoxes(rows)[k] == BoxOf(rows[i])
    decreases |rows|
  {
    var init := rows[..|rows| - 1];
    var last := rows[|rows| - 1];
    var p := ConfidentBoxes(init);
    assert ConfidentBoxes(rows) == p + (if Confident(last) then [BoxOf(last)] else []);
    if k < |p| {
      i := ConfidentBoxSource(init, k);
      assert rows[i] == init[i];
    } else {
      i := |rows| - 1;
    }
  }

  /** A confident word's box is kept. */
  lemma {:induction false} ConfidentBoxKept(rows: seq<OcrRow>, i: nat)
    requires i < |rows| && Confident(rows[i])
    ensures BoxOf(rows[i]) in ConfidentBoxes(rows)
    decreases |rows|
  {
    var init := rows[..|rows| - 1];
    var last := rows[|rows| - 1];
    var p := ConfidentBoxes(init);
    assert ConfidentBoxes(rows) == p + (if Confident(last) then [BoxOf(last)] else []);
    if i < |init| {
      ConfidentBoxKept(init, i);
      assert rows[i] == init[i];
    }
  }

  /** `b` is the box of some confident word of `rows`. */
  predicate FromConfidentRow(rows: seq<OcrRow>, b: Box)
  {
    exists i :: 0 <= i < |rows| && Confident(rows[i]) && b == BoxOf(rows[i])
  }

  /** Exactly the confident words' boxes are kept. */
  lemma ConfidentBoxesExact(rows: seq<OcrRow>)
    ensures forall k :: 0 <= k < |ConfidentBoxes(rows)| ==> FromConfidentRow(rows, ConfidentBoxes(rows)[k])
    ensures forall i :: 0 <= i < |rows| && Confident(rows[i]) ==> BoxOf(rows[i]) in ConfidentBoxes(rows)
  {
    forall k | 0 <= k < |ConfidentBoxes(rows)| ensures FromConfidentRow(rows, ConfidentBoxes(rows)[k]) {
      var i := ConfidentBoxSource(rows, k);
    }
    forall i | 0 <= i < |rows| && Confident(rows[i]) ensures BoxOf(rows[i]) in ConfidentBoxes(rows) {
      ConfidentBoxKept(rows, i);
    }
  }

  lemma ConfidentBoxesSnoc(rows: seq<OcrRow>, row: OcrRow)
    ensures ConfidentBoxes(rows + [row]) == ConfidentBoxes(rows) + (if Confident(row) then [BoxOf(row)] else [])
  {
    assert (rows + [row])[..|rows|] == rows;
  }

  /** One pass of the row loop: whether `int(conf)` succeeds, and the box
      appended, if any. */
  method ReadRow(row: OcrRow) returns (ok: bool, kept: seq<Box>)
    ensures ok == Readable(row)
    ensures ok ==> kept == if Confident(row) then [BoxOf(row)] else []
  {
    var conf := IntOf(row.conf);
    if conf.None? {
      return false, [];
    }
    kept := [];
    if conf.value > MinConfidence {
      if row.width > MinBoxSide && row.height > MinBoxSide {
        kept := [Box(row.left, row.top, row.width, row.height)];
      }
    }
    ok := true;
  }

  /** Every confidence in the table is one `int()` accepts. */
  predicate AllReadable(rows: seq<OcrRow>)
  {
    forall i :: 0 <= i < |rows| ==> Readable(rows[i])
  }

  /** `_detect_text_regions` after the Tesseract call: `data` is None when the
      call raises. A confidence `int()` cannot read raises too, and the whole
      result is then empty, boxes already found included. */
  method DetectTextRegions(data: Option<seq<OcrRow>>) returns (boxes: seq<Box>)
    ensures data.None? ==> boxes == []
    ensures data.Some? && !AllReadable(data.value) ==> boxes == []
    ensures data.Some? && AllReadable(data.value) ==> boxes == ConfidentBoxes(data.value)
  {
    if data.None? {
      return [];
    }
    var rows := data.value;
    boxes := [];
    var i := 0;
    while i < |rows|
      invariant 0 <= i <= |rows|
      invariant AllReadable(rows[..i])
      invariant boxes == ConfidentBoxes(rows[..i])
    {
      var ok, kept := ReadRow(rows[i]);
      if !ok {
        assert !AllReadable(rows);
        return [];
      }
      boxes := boxes + kept;
      assert rows[..i + 1] == rows[..i] + [rows[i]];
      ConfidentBoxesSnoc(rows[..i], rows[i]);
      i := i + 1;
    }
    assert rows[..i] == rows;
  }

  const Padding := 5

  function Max(a: int, b: int): int { if a >= b then a else b }
  function Min(a: int, b: int): int { if a <= b then a else b }

  /** Where a slice bound lands in an axis of length `n`: NumPy counts a
      negative bound from the end and clamps the result to `[0, n]`. */
  function SliceBound(b: int, n: nat): (r: nat)
    ensures r <= n
    ensures 0 <= b <= n ==> r == b
  {
    if b < 0 then (if b + n < 0 then 0 else b + n) else if b > n then n else b
  }

  /** Whether `mask[y1:y2, x1:x2] = 0` for `box`, padded by 5 px and clamped to
      the image, reaches pixel `(row, col)`. */
  predicate Covers(box: Box, height: nat, width: nat, row: nat, col: nat)
  {
    var y1 := Max(0, box.y - Padding);
    var y2 := Min(height, box.y + box.h + Padding);
    var x1 := Max(0, box.x - Padding);
    var x2 := Min(width, box.x + box.w + Padding);
    && SliceBound(y1, height) <= row < SliceBound(y2, height)
    && SliceBound(x1, width) <= col < SliceBound(x2, width)
  }

  /** The value the painting loop leaves at one pixel: 255 to begin with, 0
      once any box has covered it. */
  function MaskAt(height: nat, width: nat, boxes: seq<Box>, row: nat, col: nat): (v: nat)
    ensures v == 0 || v == 255
    ensures v == 0 <==> exists k :: 0 <= k < |boxes| && Covers(boxes[k], height, width, row, col)
    decreases |boxes|
  {
    if |boxes| == 0 then 255
    else if Covers(boxes[|boxes| - 1], height, width, row, col) then 0
    else MaskAt(height, width, boxes[..|boxes| - 1], row, col)
  }

  /** `_create_text_mask`: an image-shaped array, 0 under some padded box and
      255 elsewhere; all 255 when there are no boxes. */
  function Mask(height: nat, width: nat, boxes: seq<Box>): (m: seq<seq<nat>>)
    ensures |m| == height && forall r :: 0 <= r < height ==> |m[r]| == width
    ensures forall r, c :: 0 <= r < height && 0 <= c < width ==> (m[r][c] == 0 || m[r][c] == 255)
    ensures forall r, c :: 0 <= r < height && 0 <= c < width ==>
      (m[r][c] == 0 <==> exists k :: 0 <= k < |boxes| && Covers(boxes[k], height, width, r, c))
    ensures |boxes| == 0 ==> forall r, c :: 0 <= r < height && 0 <= c < width ==> m[r][c] == 255
  {
    seq(height, r requires 0 <= r < height => seq(width, c requires 0 <= c < width => MaskAt(height, width, boxes, r, c)))
  }

  /** Painting the same boxes in any order gives the same mask. */
  lemma MaskOrderIrrelevant(height: nat, width: nat, a: seq<Box>, b: seq<Box>)
    requires multiset(a) == multiset(b)
    ensures Mask(height, width, a) == Mask(height, width, b)
  {
    var ma := Mask(height, width, a);
    var mb := Mask(height, width, b);
    forall r, c | 0 <= r < height && 0 <= c < width ensures ma[r][c] == mb[r][c] {
      if exists k :: 0 <= k < |a| && Covers(a[k], height, width, r, c) {
        var k :| 0 <= k < |a| && Covers(a[k], height, width, r, c);
        assert a[k] in multiset(b);
        var j :| 0 <= j < |b| && b[j] == a[k];
      }
      if exists k :: 0 <= k < |b| && Covers(b[k], height, width, r, c) {
        var k :| 0 <= k < |b| && Covers(b[k], height, width, r, c);
        assert b[k] in multiset(a);
        var j :| 0 <= j < |a| && a[j] == b[k];
      }
    }
    forall r | 0 <= r < height ensures ma[r] == mb[r] {
    }
  }

  /** Inside the image, a box whose far edges are not left of or above it
      covers exactly the pixels of the box grown by 5 px on every side. */
  lemma CoversPaddedBox(box: Box, height: nat, width: nat, row: nat, col: nat)
    requires row < height && col < width
    requires box.y + box.h + Padding >= 0 && box.x + box.w + Padding >= 0
    ensures Covers(box, height, width, row, col) <==>
      box.y - Padding <= row < box.y + box.h + Padding && box.x - Padding <= col < box.x + box.w + Padding
  {
  }

  /** A box lying wholly left of the image still blanks columns: its clamped
      right edge is negative and NumPy reads it from the far end. Tesseract
      reports no negative coordinates, so this does not arise from its boxes. */
  lemma NegativeEdgeCountsFromEnd(box: Box)
    requires box == Box(-100, 0, 11, 11)
    ensures Covers(box, 100, 100, 0, 0)
    ensures !(box.x - Padding <= 0 < box.x + box.w + Padding)
  {
  }
}

=== FILE: topics.dfy ===
/**
 * The enhanced extractor's pipeline after the partitioner: turning elements
 * into topics (scripts/enhanced_image_extraction.py:455-505), associating
 * page images with topics (248-282) and the validation report (525-573).
 *
 * A topic's image list holds indices into the image list: in the source the
 * topic and the image list share the same image objects, whose back-reference
 * is then overwritten, so an index is what stays meaningful.
 */
module Topics {
  import opened Basics
  import opened Text
  import opened Decimal
  import opened Regex
  import opened Classifier
  import opened Subjects
  import opened Counting

  /** A partitioned element: its text (`str(element)`) and its page number.
      An element without metadata, or whose metadata has no `page_number`
      attribute, has page `Some(0)`; `None` is a `page_number` that is
      present but `None`, which `getattr` passes through. */
  datatype Element = Element(text: string, page: Option<int>)

  datatype ExtractedImage = ExtractedImage(
    imageId: string,
    filename: string,
    elementType: string,
    page: Option<int>,          // `None` when the metadata holds a null page
    bbox: Option<seq<real>>,
    topicId: Option<string>)

  datatype Topic = Topic(
    kind: QuestionType,
    content: string,
    options: seq<string>,
    answer: Option<string>,
    rationale: Option<string>,
    subject: Option<string>,
    page: Option<int>,
    confidence: nat,      // tenths
    images: seq<nat>,     // indices into the image list
    topicId: string)

  /** Elements whose stripped text is shorter than this are noise. */
  const MinContentLength: nat := 50

  predicate Substantial(el: Element)
  {
    |Strip(el.text)| >= MinContentLength
  }

  /** `img.page_number == page_num` for some image; `None == None` holds
      in Python as it does here. */
  predicate PageHasImage(images: seq<ExtractedImage>, page: Option<int>)
  {
    exists i :: 0 <= i < |images| && images[i].page == page
  }

  /** `f"topic_{n:04d}"`. */
  function TopicId(n: nat): (id: string)
    ensures |id| >= 10 && id[..6] == "topic_"
    ensures n < 10000 ==> |id| == 10
    ensures AllDigits(id[6..]) && DigitsValue(id[6..]) == n
  {
    Pad4Value(n);
    assert ("topic_" + Pad4(n))[6..] == Pad4(n);
    "topic_" + Pad4(n)
  }

  lemma TopicIdInjective(m: nat, n: nat)
    requires m != n
    ensures TopicId(m) != TopicId(n)
  {
    Pad4Injective(m, n);
    assert TopicId(m)[6..] == Pad4(m) && TopicId(n)[6..] == Pad4(n);
  }

  /** The topic built from a kept element as the `n`-th topic. */
  function MakeTopic(e: Engine, el: Element, images: seq<ExtractedImage>, n: nat): Topic
  {
    var d := EnhancedClassify(e, el.text, PageHasImage(images, el.page));
    Topic(d.kind, el.text, d.options, d.answer, d.rationale, ExtractSubject(e, el.text),
          el.page, d.confidence, [], TopicId(n))
  }

  /** The loop of `_elements_to_topics`, with `topic_counter` at `counter`:
      elements failing `keep` are skipped, and `make(el, n)` builds the `n`-th
      topic. */
  function BuildFrom<E, T>(elements: seq<E>, keep: E -> bool, make: (E, nat) -> T, counter: nat): seq<T>
    decreases |elements|
  {
    if |elements| == 0 then []
    else if !keep(elements[0]) then BuildFrom(elements[1..], keep, make, counter)
    else [make(elements[0], counter)] + BuildFrom(elements[1..], keep, make, counter + 1)
  }

  /** The loop builds one topic per kept element. */
  lemma {:induction false} BuildFromLength<E, T>(elements: seq<E>, keep: E -> bool, make: (E, nat) -> T, counter: nat)
    ensures |BuildFrom(elements, keep, make, counter)| == |Filter(elements, keep)|
    decreases |elements|
  {
    if |elements| > 0 {
      BuildFromLength(elements[1..], keep, make, if keep(elements[0]) then counter + 1 else counter);
    }
  }

  /** The loop numbers the kept elements consecutively from `counter`. */
  lemma {:induction false} BuildFromAt<E, T>(elements: seq<E>, keep: E -> bool, make: (E, nat) -> T, counter: nat, k: nat)
    requires k < |Filter(elements, keep)|
    ensures k < |BuildFrom(elements, keep, make, counter)|
    ensures BuildFrom(elements, keep, make, counter)[k] == make(Filter(elements, keep)[k], counter + k)
    decreases |elements|
  {
    BuildFromLength(elements, keep, make, counter);
    var kept := Filter(elements, keep);
    var rest := Filter(elements[1..], keep);
    if keep(elements[0]) {
      assert kept == [elements[0]] + rest;
      if k > 0 {
        BuildFromAt(elements[1..], keep, make, counter + 1, k - 1);
      }
    } else {
      assert kept == rest;
      BuildFromAt(elements[1..], keep, make, counter, k);
    }
  }

  /** The loop's output: the kept elements, in order, each made with its
      consecutive number. */
  lemma BuildFromSpec<E, T>(elements: seq<E>, keep: E -> bool, make: (E, nat) -> T, counter: nat)
    ensures |BuildFrom(elements, keep, make, counter)| == |Filter(elements, keep)|
    ensures forall k :: 0 <= k < |Filter(elements, keep)| ==>
      BuildFrom(elements, keep, make, counter)[k] == make(Filter(elements, keep)[k], counter + k)
  {
    BuildFromLength(elements, keep, make, counter);
    forall k | 0 <= k < |Filter(elements, keep)|
      ensures BuildFrom(elements, keep, make, counter)[k] == make(Filter(elements, keep)[k], counter + k)
    {
      BuildFromAt(elements, keep, make, counter, k);
    }
  }

  /** `_elements_to_topics`: one topic per element with at least 50
      non-blank characters, in order, numbered `topic_0001`, `topic_0002`, ...,
      with no images yet; `has_images` holds when an image shares the page. */
  function BuildTopics(e: Engine, elements: seq<Element>, images: seq<ExtractedImage>): (r: seq<Topic>)
    ensures var kept := Filter(elements, Substantial);
      && |r| == |kept|
      && forall k :: 0 <= k < |r| ==> r[k] == MakeTopic(e, kept[k], images, k + 1)
  {
    var make := (el: Element, n: nat) => MakeTopic(e, el, images, n);
    BuildFromSpec(elements, Substantial, make, 1);
    BuildFrom(elements, Substantial, make, 1)
  }

  /** Each topic comes from a kept element, which it records, under the id
      of its position; it has no images yet and is classified knowing whether
      its page has any. */
  lemma BuiltTopicFields(e: Engine, elements: seq<Element>, images: seq<ExtractedImage>, k: nat)
    requires k < |BuildTopics(e, elements, images)|
    ensures var kept := Filter(elements, Substantial); var t := BuildTopics(e, elements, images)[k];
      && t.content == kept[k].text && t.page == kept[k].page
      && |Strip(t.content)| >= MinContentLength
      && t.topicId == TopicId(k + 1)
      && t.images == []
      && t.kind == EnhancedClassify(e, kept[k].text, PageHasImage(images, kept[k].page)).kind
  {
  }

  /** Topics numbered by position, as `BuildTopics` numbers them, have
      pairwise distinct ids. */
  lemma NumberedIdsDistinct(ts: seq<Topic>)
    requires forall k :: 0 <= k < |ts| ==> ts[k].topicId == TopicId(k + 1)
    ensures forall j, k :: 0 <= j < k < |ts| ==> ts[j].topicId != ts[k].topicId
  {
    forall j, k | 0 <= j < k < |ts| ensures ts[j].topicId != ts[k].topicId {
      TopicIdInjective(j + 1, k + 1);
    }
  }

  /** The words of `_topic_mentions_visuals`. */
  const VisualKeywords: seq<string> :=
    ["image", "picture", "photograph", "figure", "shown", "observe", "see", "visual",
     "appears", "demonstrates", "lesion", "rash", "condition", "skin", "wound"]

  predicate MentionsVisuals(content: string)
  {
    exists k :: 0 <= k < |VisualKeywords| && Contains(Lower(content), VisualKeywords[k])
  }

  function Distance(a: int, b: int): nat
  {
    if a >= b then a - b else b - a
  }

  /** Two or more pages apart, both pages known. */
  predicate FarApart(img: ExtractedImage, t: Topic)
  {
    img.page.Some? && t.page.Some? && Distance(img.page.value, t.page.value) >= 2
  }

  /** Same page, or an adjacent page when the topic talks about visuals.
      Only defined on known pages: with a `None` page the subtraction
      raises, which `AssociateImages` reports before any topic runs. */
  predicate Takes(t: Topic, img: ExtractedImage)
  {
    && t.page.Some? && img.page.Some?
    && var d := Distance(img.page.value, t.page.value);
      d == 0 || (d == 1 && MentionsVisuals(t.content))
  }

  /** The indices, in order, of the first `n` images the topic takes. */
  function TakenUpTo(t: Topic, images: seq<ExtractedImage>, n: nat): seq<nat>
    requires n <= |images|
  {
    if n == 0 then []
    else TakenUpTo(t, images, n - 1) + (if Takes(t, images[n - 1]) then [n - 1] else [])
  }

  /** A topic's image list is exactly the images it takes, in input order:
      the listed indices are increasing, each is taken, every taken image is
      listed, and an image two or more pages away never is. */
  lemma {:induction false} TakenUpToSpec(t: Topic, images: seq<ExtractedImage>, n: nat)
    requires n <= |images|
    ensures var r := TakenUpTo(t, images, n);
      && (forall k :: 0 <= k < |r| ==> r[k] < n && Takes(t, images[r[k]]))
      && (forall i :: 0 <= i < n && Takes(t, images[i]) ==> i in r)
      && (forall j, k :: 0 <= j < k < |r| ==> r[j] < r[k])
      && (forall i :: 0 <= i < n && FarApart(images[i], t) ==> i !in r)
  {
    if n > 0 {
      TakenUpToSpec(t, images, n - 1);
    }
  }

  /** The last topic that takes the image, if any. */
  function LastTaker(topics: seq<Topic>, img: ExtractedImage): (r: Option<nat>)
    ensures r.Some? ==>
      && r.value < |topics| && Takes(topics[r.value], img)
      && forall t :: r.value < t < |topics| ==> !Takes(topics[t], img)
    ensures r.None? ==> forall t :: 0 <= t < |topics| ==> !Takes(topics[t], img)
    decreases |topics|
  {
    if |topics| == 0 then None
    else if Takes(topics[|topics| - 1], img) then Some(|topics| - 1)
    else LastTaker(topics[..|topics| - 1], img)
  }

  /** The image once every topic has run: its back-reference names the last
      topic that took it, and is untouched when none did. */
  function Backref(topics: seq<Topic>, img: ExtractedImage): ExtractedImage
  {
    match LastTaker(topics, img)
    case None => img
    case Some(t) => img.(topicId := Some(topics[t].topicId))
  }

  /** Running topic `t` after topics `0..t-1` moves the back-reference to
      `t` exactly when `t` takes the image. */
  lemma BackrefStep(topics: seq<Topic>, t: nat, img: ExtractedImage)
    requires t < |topics|
    ensures Backref(topics[..t + 1], img) ==
      if Takes(topics[t], img) then img.(topicId := Some(topics[t].topicId)) else Backref(topics[..t], img)
    ensures Backref(topics[..t], img).(topicId := Some(topics[t].topicId)) == img.(topicId := Some(topics[t].topicId))
  {
    assert topics[..t + 1][..t] == topics[..t];
  }

  /** The inner loop for topic `t`: collects the images it takes and points
      their back-references at it. */
  method TakeImages(topics: seq<Topic>, t: nat, images: seq<ExtractedImage>, imgs: seq<ExtractedImage>)
    returns (taken: seq<nat>, imgs': seq<ExtractedImage>)
    requires t < |topics| && |imgs| == |images|
    requires forall j :: 0 <= j < |images| ==> imgs[j] == Backref(topics[..t], images[j])
    ensures taken == TakenUpTo(topics[t], images, |images|)
    ensures |imgs'| == |images| && forall j :: 0 <= j < |images| ==> imgs'[j] == Backref(topics[..t + 1], images[j])
  {
    taken := [];
    imgs' := imgs;
    for i := 0 to |images|
      invariant |imgs'| == |images|
      invariant taken == TakenUpTo(topics[t], images, i)
      invariant forall j :: 0 <= j < i ==> imgs'[j] == Backref(topics[..t + 1], images[j])
      invariant forall j :: i <= j < |images| ==> imgs'[j] == Backref(topics[..t], images[j])
    {
      BackrefStep(topics, t, images[i]);
      ghost var before := imgs';
      if Takes(topics[t], images[i]) {
        taken := taken + [i];
        imgs' := imgs'[i := imgs'[i].(topicId := Some(topics[t].topicId))];
      }
      assert imgs'[i] == Backref(topics[..t + 1], images[i]);
      assert forall j :: 0 <= j < |images| && j != i ==> imgs'[j] == before[j];
    }
  }

  /** `associate_images_with_topics`: every topic's image list is replaced by
      the images it takes, in input order, and every image's back-reference
      is last-writer-wins; nothing else changes. */
  method Associate(topics: seq<Topic>, images: seq<ExtractedImage>)
    returns (ts: seq<Topic>, imgs: seq<ExtractedImage>)
    ensures |ts| == |topics| && |imgs| == |images|
    ensures forall t :: 0 <= t < |topics| ==>
      ts[t] == topics[t].(images := TakenUpTo(topics[t], images, |images|))
    ensures forall i :: 0 <= i < |images| ==> imgs[i] == Backref(topics, images[i])
  {
    ts := [];
    imgs := images;
    for t := 0 to |topics|
      invariant |ts| == t && |imgs| == |images|
      invariant forall s :: 0 <= s < t ==> ts[s] == topics[s].(images := TakenUpTo(topics[s], images, |images|))
      invariant forall i :: 0 <= i < |images| ==> imgs[i] == Backref(topics[..t], images[i])
    {
      var taken;
      taken, imgs := TakeImages(topics, t, images, imgs);
      ts := ts + [topics[t].(images := taken)];
    }
    assert topics[..|topics|] == topics;
  }

  /** Whether every `abs(image.page_number - topic_page)` the loop evaluates
      has two numbers: the loop visits every (topic, image) pair. */
  predicate PagesKnown(topics: seq<Topic>, images: seq<ExtractedImage>)
  {
    forall t, i :: 0 <= t < |topics| && 0 <= i < |images| ==> topics[t].page.Some? && images[i].page.Some?
  }

  /** The TypeError a `None` page raises in the subtraction. */
  const PageTypeError: string := "unsupported operand type(s) for -"

  /** `associate_images_with_topics` as `extract_content_with_images` runs
      it: a `None` page on either side of a visited pair raises, and the
      caller re-raises, so no topics come out; otherwise the association
      above. */
  method AssociateImages(topics: seq<Topic>, images: seq<ExtractedImage>)
    returns (r: Result<(seq<Topic>, seq<ExtractedImage>), string>)
    ensures r.Err? <==> !PagesKnown(topics, images)
    ensures r.Err? ==> r.error == PageTypeError
    ensures r.Ok? ==>
      && |r.value.0| == |topics| && |r.value.1| == |images|
      && (forall t :: 0 <= t < |topics| ==>
            r.value.0[t] == topics[t].(images := TakenUpTo(topics[t], images, |images|)))
      && (forall i :: 0 <= i < |images| ==> r.value.1[i] == Backref(topics, images[i]))
  {
    if !PagesKnown(topics, images) {
      return Err(PageTypeError);
    }
    var ts, imgs := Associate(topics, images);
    return Ok((ts, imgs));
  }

  /** A topic counts as valid with a non-empty subject and confidence above
      0.3. */
  predicate ValidTopic(subject: Option<string>, confidence: nat)
  {
    subject.Some? && |subject.value| > 0 && confidence > 3
  }

  datatype EnhancedReport =
    | NoTopics
    | Report(
        totalTopics: nat,
        totalImages: nat,
        validTopics: nat,
        topicsWithImages: nat,
        imageAssociations: nat,
        successRate: real,
        imageCoverage: real,
        distribution: seq<(string, nat)>,
        averageConfidence: real,    // tenths
        minConfidence: nat,
        maxConfidence: nat)

  /** `sum(len(t.images) for t in topics)`. */
  function Associations(topics: seq<Topic>): nat
  {
    if |topics| == 0 then 0 else |topics[0].images| + Associations(topics[1..])
  }

  /** A topic with images contributes at least one association. */
  lemma {:induction false} WithImagesAtMostAssociations(topics: seq<Topic>)
    ensures Count(topics, (t: Topic) => |t.images| > 0) <= Associations(topics)
    decreases |topics|
  {
    if |topics| > 0 {
      WithImagesAtMostAssociations(topics[1..]);
    }
  }

  /** `enhanced_validation`. */
  function EnhancedValidation(topics: seq<Topic>, images: seq<ExtractedImage>): (r: EnhancedReport)
    ensures r.NoTopics? <==> |topics| == 0
    ensures r.Report? ==>
      && r.totalTopics == |topics| && r.totalImages == |images|
      && CountTotal(r.distribution) == r.totalTopics
      && DistinctKeys(r.distribution)
      && (forall n :: HasKey(r.distribution, n) <==> n in Map(topics, (t: Topic) => TypeName(t.kind)))
      && (forall n :: Get(r.distribution, n) == Occurrences(Map(topics, (t: Topic) => TypeName(t.kind)), n))
      && r.validTopics == Count(topics, (t: Topic) => ValidTopic(t.subject, t.confidence))
      && r.validTopics <= r.totalTopics
      && r.successRate == r.validTopics as real / r.totalTopics as real
      && 0.0 <= r.successRate <= 1.0
      && r.topicsWithImages == Count(topics, (t: Topic) => |t.images| > 0)
      && r.imageAssociations == Associations(topics)
      && r.topicsWithImages <= r.imageAssociations
      && r.imageCoverage == r.topicsWithImages as real / r.totalTopics as real
      && 0.0 <= r.imageCoverage <= 1.0
      && r.averageConfidence == Sum(Map(topics, (t: Topic) => t.confidence)) as real / |topics| as real
      && r.minConfidence in Map(topics, (t: Topic) => t.confidence) && r.maxConfidence in Map(topics, (t: Topic) => t.confidence)
      && (forall k :: 0 <= k < |topics| ==> r.minConfidence <= topics[k].confidence <= r.maxConfidence)
      && r.minConfidence as real <= r.averageConfidence <= r.maxConfidence as real
  {
    if |topics| == 0 then NoTopics
    else
      var total := |topics|;
      var valid := Count(topics, (t: Topic) => ValidTopic(t.subject, t.confidence));
      var withImages := Count(topics, (t: Topic) => |t.images| > 0);
      var names := Map(topics, (t: Topic) => TypeName(t.kind));
      var cs := Map(topics, (t: Topic) => t.confidence);
      TallySound(names);
      assert withImages <= Associations(topics) by {
        WithImagesAtMostAssociations(topics);
      }
      Report(total, |images|, valid, withImages, Associations(topics),
             Ratio(valid, total), Ratio(withImages, total),
             Tally(names), Mean(cs), MinOf(cs), MaxOf(cs))
  }
}
